=== FILE: README.md ===
# A Dafny model of a toy JavaScript interpreter's pure core

The repository is a JavaScript interpreter written in Python, with a large
stub of the browser environment and a handful of JavaScript test scripts.
This project models the pieces of it that are pure integer and string
logic, and proves what they compute:

- `decryptArrHash` from tests/test3.js: a linear-congruential keystream
  (modulus 94906238, multiplier 13558035, increment 13037) that is subtracted
  from each cipher byte modulo 256 (`keystream.dfy`, with JavaScript's and
  Python's remainders in `remainders.dfy`);
- the scope chain of environment.py: `define`, `resolve`, `lookup`, `assign`
  (`environment.dfy`);
- from js_properties.py:
  - the `Object` class with its `__proto__` lookup, and `ObjectProto.create`;
  - `Prototype._to_string36`;
  - `push`/`pop`/`shift`/`unshift` of `array_prototype`, which keep a
    'length' entry in step with the list.

  All of these are in `js_properties.dfy`.
- from window.py, one file per operation:
  - `escape`/`unescape` (`window_escape.dfy`);
  - `parse_int` (`window_parse_int.dfy`);
  - `Location` (`window_location.dfy`);
  - `Object.assign` (`window_assign.dfy`);
  - the list methods of `ObjectPrototypeCall.array_prototype` (`window_arrays.dfy`).
- from document.py: `Element` and its attributes, `className`, `matches`,
  the preorder searches behind `querySelector`, and the flags of `Event`
  (`document.dfy`);
- from interpreter.py: `unsigned_right_shift`, `js_in_operator`, the
  integer cases of the binary operator table, and the logical operators
  (`operators.dfy`).

Python's own string operations are modelled once, in `pytext.dfy`:
- `isspace`, `strip`, `split`, `split()`, `count` and `find`;
- ASCII `upper`;
- `int()` of a string, and `str()` of an integer.

Python values are the `Value` datatype of `values.dfy`, and raised
exceptions are the `Result` datatype of `wrappers.dfy`.

Everything is a pure function on immutable values. A mutating method is
modelled as a function from the old value to the new one, plus whatever
the method returns. Dafny's `int` is unbounded, like Python's. Wherever
JavaScript would use 32-bit or 16-bit arithmetic, the model writes the
wrap-around out. The main examples are `String.fromCharCode` in the
keystream and `>>>` in the operators.

Where the code and its specification disagree, the model follows the
code. `decryptArrHash` on an empty array still assigns `decrypted[0]`:
- `array[0]` is `undefined`;
- the subtraction gives NaN;
- `String.fromCharCode(NaN)` is U+0000.

So the result is a one-character string, not an empty one
(`Keystream.DecryptLength`).

## Model

| member | source | states |
|---|---|---|
| Keystream.Normalize | tests/test3.js:8 | the seed reduced into [0, 94906238) by the double truncated remainder is the Euclidean residue of the seed, negative seeds included |
| Keystream.StepIdempotent | tests/test3.js:9 | one keystream step from a non-negative state stays in [0, M) and equals the Euclidean residue, so the second `% static1` (`mod_2`) changes nothing |
| Keystream.KeyInRange | tests/test3.js:9-18 | every key lies in [0, M); the first comes from the normalised seed and each later one is one step from the previous |
| Keystream.DecryptArrHash | tests/test3.js:1-24 | the loop as written, with the first byte outside it and the `seed = mod_2` update, returns the code units of the functional decryption; its length is that of the input, or 1 for an empty input |
| Keystream.DecryptLength | tests/test3.js:6-11 | a non-empty cipher gives one character per byte; an empty one gives the single character U+0000 from NaN |
| Keystream.PlainByte | tests/test3.js:11-23 | each decrypted number is congruent to byte minus key modulo 256, lies in (-256, 256) and has the sign of the difference; `fromCharCode` maps a negative one to 0xFF01..0xFFFF |
| Keystream.KeystreamExact | tests/test3.js:9-14 | for integer cipher values of magnitude below 2^52, the first product from the normalised seed, every later product and every byte difference stay below 2^53, so double arithmetic computes these integers exactly |
| Keystream.SeedPeriodic | tests/test3.js:8 | two seeds congruent modulo M decrypt every cipher identically |
| Keystream.SeedShift | tests/test3.js:8 | adding M to the seed changes nothing |
| Keystream.SameKeys | tests/test3.js:8-18 | with Python's floored `%`, as the interpreter evaluates it, the keystream is the same as with JavaScript's truncated `%` |
| Keystream.InterpreterBytes | tests/test3.js:11-16 | under Python's `%` every decrypted number is in [0, 256): the JavaScript one, plus 256 when that is negative |
| Keystream.TestVectorFirstByte | tests/test3.js:26-29 | for the literal seed -552346152 the normalised seed is 17091276 and the first key 3546279; the first byte 244 decrypts to -179, which is 77 under Python's `%` and U+FF4D after `fromCharCode` |
| Remainders.JsRem | tests/test3.js:8 | JavaScript `%`: congruent to the dividend, smaller than the divisor in magnitude, with the dividend's sign |
| Remainders.PyMod | interpreter.py:234-235 | Python `%`: congruent to the dividend, with the divisor's sign and smaller in magnitude |
| Remainders.FloorVersusTruncated | interpreter.py:234-235 | for a positive divisor Python's remainder is JavaScript's, moved up by the divisor when negative |
| Scopes.Resolve | environment.py:23-30 | finds the innermost record binding the name; raises TypeError exactly when no record binds it |
| Scopes.Define | environment.py:16-18 | binds the name in the current record only, returning the value |
| Scopes.LookupShadows | environment.py:20-30 | `lookup` returns the innermost binding, so an inner definition shadows an outer one |
| Scopes.LookupUnbound | environment.py:20-28 | `lookup` raises TypeError if and only if the name is bound in no record |
| Scopes.DefineThenLookup | environment.py:16-21 | a name just defined looks up to the defined value |
| Scopes.DefineOtherNames | environment.py:16-21 | defining one name leaves every other name's lookup unchanged |
| Scopes.AssignFrame | environment.py:32-34 | `assign` overwrites the name in exactly the record `resolve` finds and no other |
| Scopes.AssignThenLookup | environment.py:32-34 | after a successful assignment, lookup returns the assigned value |
| Scopes.AssignUnbound | environment.py:32-34 | assigning an unbound name raises TypeError and creates no binding |
| JsProperties.Get | js_properties.py:63-67 | an own property wins; otherwise lookup continues in an `Object` prototype, and ends with None |
| JsProperties.GetFirstInChain | js_properties.py:63-67 | a property is found exactly when some object on the prototype chain owns it, and the value is that of the first such object |
| JsProperties.SetThenGet | js_properties.py:69-73 | a set property reads back and becomes an own property; other keys read and own as before |
| JsProperties.Create | js_properties.py:88-98 | a fresh object with the given prototype and one own property per entry, taking a descriptor's 'value' when it has one |
| JsProperties.CreateInherits | js_properties.py:88-98 | keys the properties do not define are looked up in the prototype |
| JsProperties.ToString36 | js_properties.py:134-140 | the loop returns a non-empty lower-case base-36 numeral without a leading zero (just "0" for 0) whose base-36 value is n |
| JsProperties.Digits36Facts | js_properties.py:134-140 | the digits are base-36 digits, read back to n, and are empty only for 0 |
| JsProperties.Push | js_properties.py:157-161 | the arguments are appended, 'length' follows, and the new length is returned |
| JsProperties.Pop | js_properties.py:163-166 | an empty array raises IndexError; otherwise the last item is removed and returned, and 'length' follows |
| JsProperties.Shift | js_properties.py:168-171 | an empty array raises IndexError; otherwise the first item is removed and returned, and 'length' follows |
| JsProperties.UnshiftReverses | js_properties.py:173-177 | as written, unshift puts the arguments in front in reverse order, keeps 'length' in step and returns it |
| JsProperties.UnshiftOrderCounterexample | js_properties.py:173-177 | unshifting 1, 2 onto [0] gives [2, 1, 0], where the corrected version gives [1, 2, 0] |
| JsProperties.UnshiftInOrderPrepends | js_properties.py:173-177 | the corrected unshift puts the arguments in front in their own order |
| WindowEscape.Hex | window.py:1353-1356 | the upper-case hex digits of n, at least w of them and exactly w when n fits, whose value is n |
| WindowEscape.EscapeChar | window.py:1344-1356 | unreserved ASCII is kept; other code points below 256 become '%XX' and the rest '%uXXXX', each reading back to the code point; the output is ASCII |
| WindowEscape.Escape | window.py:1341-1357 | the escaped text is ASCII and no shorter than the input |
| WindowEscape.UnescapeEscape | window.py:1329-1357 | `unescape` undoes `escape` on every text without code points above U+FFFF |
| WindowEscape.AstralBreaksRoundTrip | window.py:1329-1357 | for any text holding a code point above U+FFFF, unescaping its escape does not give the text back: `escape` writes five or six hex digits, and neither `unescape` pass produces a code point above U+FFFF |
| WindowEscape.UnescapeDecodesTwice | window.py:1337-1338 | as written, '%u002541' is decoded twice, giving 'A', where one pass gives '%41' |
| WindowEscape.OnePassEscape | window.py:1329-1357 | the single-scan unescape also undoes `escape` on every text without code points above U+FFFF |
| WindowParseInt.DigitClassIsDigitValue | window.py:1304-1307 | for radixes 2..36 the regex character class holds exactly the characters whose digit value is below the radix |
| WindowParseInt.DigitRun | window.py:1308 | `re.match` takes the longest prefix of characters in the class |
| WindowParseInt.ParseInt | window.py:1296-1311 | NaN exactly when, after leading whitespace, the first character is not a digit of the settled radix |
| WindowParseInt.ParseIntPrefix | window.py:1296-1311 | whitespace, then digits, then a non-digit parses to the value of the digits |
| WindowParseInt.ParseIntBase36 | window.py:1296-1311 | parsing `_to_string36(n)` in radix 36 gives n back |
| WindowParseInt.ParseIntNoSign | window.py:1299-1310 | a leading '-' or '+' gives NaN whatever follows |
| WindowParseInt.ParseIntHexPrefix | window.py:1300-1304 | a `0x` prefix selects radix 16 but is not skipped, so such strings parse as 0 |
| WindowParseInt.ParseIntDefaultRadixHex | window.py:1296 | with the default radix 10, a `0x` string also parses as 0 |
| WindowParseInt.ParseIntZeroBeforeX | window.py:1296-1311 | in every explicit radix up to 33, where 'x' is not a digit, a string starting '0x' parses as 0 |
| WindowParseInt.SameEffectiveRadix | window.py:1300-1304 | only the settled radix affects the result |
| WindowLocation.Port | window.py:434-437 | with exactly two ':' the port is cut out after the first '/' and the next ':', contains neither '/' nor ':', and a missing piece raises IndexError; otherwise it is empty |
| WindowLocation.NewLocation | window.py:425-440 | a URL without '//' raises IndexError; otherwise hash, href and search are empty, host equals hostName, protocol is the text before the first '//', and port is what `Port` cuts out; when `Port` raises, so does the constructor |
| WindowLocation.LocationHost | window.py:427-430 | on success host is a field holding no '/', and origin is 'https://' + host |
| WindowLocation.LocationPath | window.py:427-431 | when the protocol holds no '/', the text from the first '//' to the next '//' (or the end) is host + '/' + pathname, with no '//' starting inside it |
| WindowLocation.LocationComponents | window.py:425-440 | protocol + '//' + host + '/' + path succeeds exactly when `Port` does, and then gives back protocol, host, path, origin 'https://' + host and the port `Port` cuts out, which is empty unless the URL has exactly two ':' |
| WindowLocation.LocationWithPort | window.py:425-440 | scheme ':' '//' name ':' port '/' path gives back protocol scheme ':', host and hostName 'name:port', origin 'https://name:port', pathname path and port port |
| WindowLocation.NoPathRaises | window.py:432 | a URL with no '/' after the host raises IndexError |
| WindowLocation.ExampleComRaises | window.py:432 | 'https://www.example.com' itself is rejected |
| WindowLocation.NoSchemeRaises | window.py:432 | a URL without '//' is rejected |
| WindowLocation.LocationPort | window.py:434-435 | for scheme ':' '//' name ':' port '/' path the port comes out exactly |
| WindowAssign.Assign | window.py:995-1006 | raises TypeError exactly when the target is not a dict; otherwise returns a dict keeping every target key |
| WindowAssign.CopyInto | window.py:1000-1005 | one dict source overwrites the target with all its entries except '__proto__'; a non-dict source changes nothing |
| WindowAssign.AssignLastWriterWins | window.py:999-1006 | each key ends with the value from the last dict source that has it, and otherwise keeps the target's value |
| WindowAssign.AssignWithoutDicts | window.py:999-1006 | with no dict sources the target comes back unchanged |
| WindowArrays.Push | window.py:296 | the items are appended and the new length returned |
| WindowArrays.Pop | window.py:297 | None on an empty list; otherwise the last item, removed |
| WindowArrays.Shift | window.py:298 | None on an empty list; otherwise the first item, removed |
| WindowArrays.Unshift | window.py:299 | the items go in front in their own order and the new length is returned |
| WindowArrays.PushPop | window.py:296-299 | pop undoes push, and shift undoes unshift |
| WindowArrays.At | window.py:323 | an item for indexes in [-len, len), counted from the end when negative; None outside |
| WindowArrays.AtNegative | window.py:323 | index i - len reads the same item as i; `at(-1)` is what `pop` would return |
| WindowArrays.SliceBound | window.py:303 | Python's clamping of a slice bound: negative counts from the end, then clipped to [0, len] |
| WindowArrays.Slice | window.py:303 | for the clamped bounds lo and hi the result has hi - lo items (none when they cross), item k being the list's item lo + k |
| WindowArrays.SliceConcat | window.py:303 | two adjacent slices meeting at a middle bound make up the slice that spans both |
| WindowArrays.SliceWhole | window.py:303 | `slice(0)` copies the list, and `slice(-k)` is its last k items |
| WindowArrays.IndexOf | window.py:309 | with Python's `==`: -1 exactly when no item from the clamped start on equals the argument; otherwise the first position from there whose item equals it |
| WindowArrays.IndexOfIncludes | window.py:309-310 | `indexOf` is non-negative exactly when `includes` holds, and points at an item equal to the argument |
| WindowArrays.IndexOfFindsItself | window.py:309 | a value taken from the list is found, at its own position or an earlier equal one |
| WindowArrays.BoolMatchesInt | window.py:309-310 | True equals 1: `[True].indexOf(1)` is 0 and `[1].includes(True)` holds |
| WindowArrays.ReverseTwice | window.py:301 | reversing twice restores the list |
| WindowArrays.Concat | window.py:308 | the list followed by every argument spread one level, in argument order: a list argument contributes its items, any other value itself |
| WindowArrays.ConcatSplit | window.py:308 | concatenating in two calls gives what one call with all the arguments gives |
| WindowArrays.ConcatScalars | window.py:308 | non-list arguments are appended one by one |
| WindowArrays.ConcatList | window.py:308 | a list argument is flattened one level |
| WindowArrays.FilterFrom | window.py:313 | keeps as many items as pass the callback, all of them from the list; all pass gives the list and none gives [] |
| WindowArrays.FilterFollowsFind | window.py:313 | order is kept: the result is the first passing item followed by the filter of what comes after it, and [] when none passes |
| WindowArrays.FilterStartsWithFind | window.py:313-319 | `filter` is non-empty exactly when `find` finds something, and then starts with what `find` returns |
| WindowArrays.FindIndex | window.py:320 | the first index whose item passes, or -1 when none does |
| WindowArrays.FindAgreesWithFindIndex | window.py:319-320 | `find` returns the item at `findIndex`, or None |
| WindowArrays.SomeEveryFindIndex | window.py:317-320 | `some` holds exactly when `findIndex` finds something; `every` exactly when no item fails |
| WindowArrays.Map | window.py:312 | one result per item, the callback applied with item, index and list |
| WindowArrays.MapIdentity | window.py:312 | mapping the identity callback gives the list back |
| Dom.NewElement | document.py:152-165 | the tag upper-cased, no attributes, no id, tabIndex -1, no children |
| Dom.SetAttribute | document.py:232-243 | stores the attribute; 'id' also sets the id; 'tabIndex' sets the integer or -1 when `int()` rejects it; nothing else changes |
| Dom.GetAttribute | document.py:245-246 | the stored value, or None exactly when absent |
| Dom.RemoveAttribute | document.py:248-249 | drops that one attribute and leaves the id and tabIndex fields alone |
| Dom.SetThenGetAttribute | document.py:232-246 | a set attribute reads back; other attributes read as before |
| Dom.ClassNameRoundTrip | document.py:170-176 | `className` reads back what was assigned, and `setAttribute('class', v)` has the same effect |
| Dom.TabIndexRoundTrip | document.py:239-241 | a tabIndex written as `str(i)` is read back as i |
| Dom.TabIndexRejected | document.py:239-243 | a tabIndex `int()` rejects leaves -1 |
| Dom.RemoveAttributeIdempotent | document.py:248-249 | after removal the attribute is absent; removing again or removing an absent name changes nothing |
| Dom.RemovedIdStillMatches | document.py:248-249 | after `removeAttribute('id')` the element still matches '#' plus its old id |
| Dom.MatchesOwnTag | document.py:183-188 | a new element matches a tag selector exactly when the two agree after upper-casing |
| Dom.MatchesSetId | document.py:232-238 | after setting id v the element matches '#w' exactly when w is v |
| Dom.MatchesSetClass | document.py:183-187 | after assigning a single class word, '.' plus that word matches |
| Dom.FindFirstIsPreorder | document.py:258-275 | the recursive search returns the first qualifying element of the preorder listing, and None when there is none |
| Dom.FindById | document.py:258-266 | the element found has the id and lies in the subtree; None means no element in it has the id |
| Dom.FindByTag | document.py:268-275 | the element found has the tag and lies in the subtree; None means no element in it has the tag |
| Dom.QuerySelectorIdCounterexample | document.py:251-256 | as written, an element with id 'x' is not found by '#x', while the corrected version finds it |
| Dom.QuerySelectorByIdMatches | document.py:251-275 | the corrected `querySelector` returns the first element in preorder that `matches` the selector, for '#' and tag selectors |
| Dom.NewEvent | document.py:62-70 | bubbles and cancelable hold whatever value the options give, False when absent; both flags start clear |
| Dom.PreventDefault | document.py:72-74 | sets defaultPrevented exactly when `cancelable` is truthy, and nothing else |
| Dom.PreventFreshEvent | document.py:62-74 | a fresh event is prevented exactly when its 'cancelable' option is present and truthy: 1 cancels, 0 and '' do not |
| Dom.StopPropagation | document.py:76-77 | sets the stopped flag and nothing else |
| Dom.EventFlags | document.py:72-77 | both calls are idempotent and commute; when `cancelable` is falsy preventDefault does nothing |
| Operators.AndMask | interpreter.py:17-18 | `x & (2**k - 1)` is x modulo 2^k, negative x included |
| Operators.BitwiseCommutes | interpreter.py:254-259 | each bitwise operator is symmetric |
| Operators.SelfCombined | interpreter.py:254-259 | x xor x is 0, and x and x, x or x are both x (bitwise) |
| Operators.UnsignedRightShift | interpreter.py:17-18 | ValueError exactly for a negative count; otherwise the low 32 bits of x divided by 2^n, in [0, 2^32), and 0 for every count from 32 on |
| Operators.UnsignedRightShiftStep | interpreter.py:17-18 | shifting one place further halves the result, rounding down |
| Operators.UnsignedRightShiftZero | interpreter.py:17-18 | a count of 0 reads x in [-2^32, 0) as x + 2^32 and leaves [0, 2^32) alone |
| Operators.ShiftCountNotMasked | interpreter.py:17-18 | `-1 >>> 32` is 0 here but 0xFFFFFFFF in JavaScript; `8 >>> -1` raises here and is 0 there |
| Operators.JsUnsignedRightShiftAgrees | interpreter.py:17-18 | the corrected shift agrees for counts 0..31 and depends on the count only modulo 32 |
| Operators.ShiftLeft | interpreter.py:260-261 | ValueError for a negative count, otherwise a times 2^n |
| Operators.ShiftRight | interpreter.py:262-263 | ValueError for a negative count, otherwise the floor of a / 2^n |
| Operators.ShiftRightUndoesLeft | interpreter.py:260-263 | a right shift undoes a left shift by the same count |
| Operators.IntOf | interpreter.py:24-27 | `int()` of a value: integers unchanged, booleans 0 and 1, strings parsed with ValueError, anything else TypeError |
| Operators.JsIn | interpreter.py:20-30 | a dict holds `str(left)` as a key; a list holds index `int(left)`, with False when `int()` raises ValueError and other errors propagated; any other right operand raises TypeError |
| Operators.JsInListIndex | interpreter.py:23-28 | an index is in a list, as a number or as its decimal string, exactly when 0 <= i < len |
| Operators.JsInListOther | interpreter.py:23-28 | a non-numeric string is never in a list, `True` is index 1, and `None` raises TypeError |
| Operators.JsInDict | interpreter.py:21-22 | dict keys are matched by their Python spelling: an integer by its digits, `True` as 'True' |
| Operators.IntPower | interpreter.py:236-237 | `a ** b` is `Power(a, b)` for a non-negative exponent; a negative one gives ZeroDivisionError for base 0 and a float otherwise |
| Operators.PowerAdd | interpreter.py:236-237 | exponents add: a^(m+n) = a^m · a^n |
| Operators.PowerOfTwo | interpreter.py:236-237 | 2^n by repeated multiplication is the power of two the shifts use |
| Operators.IntBinary | interpreter.py:219-273 | the integer operator table: TypeError for an operator it lacks; comparisons give booleans; '%' raises ZeroDivisionError exactly for divisor 0 and otherwise takes the divisor's sign; '/' raises ZeroDivisionError for divisor 0 and otherwise gives a float; 'in' and 'instanceof' raise TypeError |
| Operators.InRowIsJsIn | interpreter.py:268-271 | the 'in' row is `js_in_operator`, which raises TypeError when the right operand is an integer; 'instanceof' raises TypeError |
| Operators.ComparisonsAgree | interpreter.py:240-253 | '===' is '==', '!==' is '!=', '!=' negates '==', '>' and '>=' are '<' and '<=' with the operands swapped |
| Operators.ComparisonRows | interpreter.py:238-253 | every comparison compares the integers' values: '<' is a < b, '==' is a = b, and so on |
| Operators.ArithmeticRows | interpreter.py:228-267 | '+' adds, '>>' is `ShiftRight`, '>>>' is `UnsignedRightShift` and '**' is `IntPower` |
| Operators.ShiftIsMultiplication | interpreter.py:230-261 | '<<' by n equals '*' by 2^n, `2 ** n` equals `1 << n`, and a^(n+1) is a times a^n |
| Operators.ModIsFloored | interpreter.py:234-235 | '%' is JavaScript's remainder moved into [0, b) for b > 0: `-1 % 256` is 255 here and -1 in JavaScript |
| Operators.BitwiseInTable | interpreter.py:254-259 | `x & 0xFFFFFFFF` is x modulo 2^32 and `x ^ x` is 0 |
| Operators.ShiftLeftInTable | interpreter.py:260-261 | `<<` is never wrapped: `1 << 40` is 2^40 |
| Operators.SubtractionUnknown | interpreter.py:219-273 | `a - b` raises TypeError for every pair of integers |
| Operators.IntBinaryWithMinus | interpreter.py:219-273 | the table with a '-' branch: it subtracts, and agrees with the table on every other operator |
| Operators.MinusUndoesPlus | interpreter.py:219-235 | with the '-' branch, subtraction undoes addition and addition undoes subtraction |
| Operators.DecryptByteUnderInterpreter | interpreter.py:219-235 | as written, `array[i] - key` in `decryptArrHash` raises; with the '-' branch, `(array[i] - key) % 256` is the floored keystream byte |
| Operators.Logical | interpreter.py:207-217 | both operands are evaluated first, so an error in either propagates; logical or and logical and return one operand, whose truthiness is the or / the and of theirs; '??' keeps the left unless it is None; others raise TypeError |
| Operators.LogicalVersusShortCircuit | interpreter.py:207-215 | when the right operand evaluates, the operators agree with JavaScript's short-circuit reading; when it raises, they differ exactly when the left operand decides |
| Operators.NullishVersusOr | interpreter.py:211-215 | `0 ?? x` keeps 0 where logical or gives x, and `None ?? x` gives x |

## Left out

- The interpreter's tree walk, its parser (pyjsparser), the sandbox and
  the browser stubs: they are not pure logic.
- Floating point. Python `/` always produces a float, and `**` does for a
  negative exponent. The operator table reports both as `NotAnInteger`.
  The conversion of float operands to `int` before the table is applied is
  not modelled.
- Operators on non-integer operands are not modelled: string `+`, comparisons
  of mixed types, `instanceof` on classes. The table is modelled for two
  integers only.
- Unary operators are not modelled, because they are not part of the
  binary or logical tables.
- Operators.JsIn: when the right operand is a dict, the left operand must be
  `None`, a boolean, an integer or a string. The `str()` of a list, dict or
  Object is a repr this model does not render.
- WindowParseInt.ParseInt: the radix must be absent, 0, or 2..36. Radix 1
  and radixes above 36 build a regex whose match `int()` then rejects, and
  negative radixes build an invalid regex. Neither is modelled. A non-string
  argument is first converted with `str()`, which is also not modelled.
- JsProperties.ToString36: takes `n: nat`. For negative n, `divmod` floors,
  n never reaches 0, and the source loops forever.
- WindowEscape.UnescapeEscape: holds only for text without code points
  above U+FFFF. `escape` writes such code points with five or six hex
  digits, and `unescape` reads only four (`WindowEscape.AstralBreaksRoundTrip`).
- Text is ASCII-only in several places:
  - `str.upper`, used by `Element` tag names and `matches`;
  - `int()` of a string, which accepts only ASCII decimal digits.

  Python's Unicode tables are not modelled.
- Attribute values are strings. `setAttribute` with a non-string value,
  and `int()` raising TypeError on one, are not modelled.
- From document.py, these parts of `Element` are left out because they
  concern rendering, focus and event listeners, not its data:
  - `toHTML`, `attachShadow`, `focus` and `blur`;
  - `addEventListener`, `removeEventListener` and `dispatchEvent`;
  - the unused `classNAme` field, `style` and `innerHTML`.
- `Event`'s `target` and `currentTarget` are left out: they start as None
  and only `dispatchEvent`, which is also left out, sets them. Options of
  None, or any other falsy value, are the empty map here, as `options or {}`
  makes them.
- `MouseEvent` is left out: it adds coordinates, and its `stopPropagation`
  does nothing.
- `Location.ancestorOrigins` and `__getitem__` are left out. document.py's
  copy of `Location` (document.py:38-54) is identical to window.py's and
  is modelled once.
- Array methods of window.py that are left out:
  - `sort`, because it needs a key function and a total order on values;
  - `join` and `toString`, because they need `str()` of arbitrary values;
  - `splice`, `fill` and `copyWithin`, because they mutate in place, with
    Python's slice assignment;
  - `reduce`, because its `if arr` test is on the list, not on `initial`;
  - `entries`, `keys` and `values`, because they return Python iterators;
  - `valueOf` and `length`, because they are the identity and `len`.

  js_properties.py's `array_prototype` methods beyond
  `push`/`pop`/`shift`/`unshift` duplicate these.
- `Object.__repr__`, `get_own_property_keys`, `number_prototype` and
  `string_prototype` are not modelled.
- Environment: records are modelled as maps held by value. Two things
  this leaves out:
  - the global scope's record is `sandbox.window`, a jsdom VM context
    (environment.py:36-39 and sandbox/dom.py:12-20), not a dict;
  - function calls build their scope on the defining scope `parent_env`
    by reference (interpreter.py:75 and interpreter.py:154), so a closure
    sees later definitions and assignments made in that scope. A
    `Scopes.Chain` value cannot share a record between chains.

  The shared mutable default `record={}` is never reached: both call
  sites pass a record, a fresh `activation_record` dict per call.
- Keystream.Decrypt: cipher values are integers of magnitude below 2^52
  and the seed is an integer. Non-integer values, and values large
  enough for doubles to round, are not modelled.
- WindowAssign.Assign: dicts are values here, not references. When the
  target is also a source, as in `assign(t, s, t)`, Python copies the
  already-updated `t` onto itself and `s`'s values stay; the model copies
  the original `t` and restores its values.
- WindowArrays.IndexOf: an `Object` equals only itself in Python. The
  value model cannot tell two instances with the same contents apart, so
  it counts them equal. `WindowArrays.Includes` shares this.
- JsProperties.Get: prototypes are copied into each object. In
  js_properties.py an `Object` keeps a reference to its `__proto__`
  (js_properties.py:60), and `__getitem__` follows it at lookup time
  (js_properties.py:66-67). So a write to a prototype after `create` is
  visible to the objects created from it there and not here, and a
  prototype shared by several objects is not modelled. `JsProperties.Create`
  and `JsProperties.CreateInherits` speak of the prototype as it was at
  creation.
- WindowArrays.FilterFrom: callbacks are total, pure functions returning a
  boolean. The list methods of window.py:311-320 also cover three other
  cases, and the model drops them:
  - a callback that raises, whose exception propagates out of the
    comprehension or out of `all`, `any` or `next`;
  - a callback that mutates the list while the method iterates over it;
  - a callback result read by Python truthiness rather than as a boolean.

  `WindowArrays.Filter`, `Map`, `FindIndex`, `Find` and `SomeEveryFindIndex`
  share this.
- `JSFunction`, `Number` and the rest of js_properties.py outside
  `Object`, `ObjectProto.create`, `_to_string36` and the four array methods
  are left out.

## Findings

| source | as written | input that shows it | evidently intended | confidence | as-written member | corrected member |
|---|---|---|---|---|---|---|
| js_properties.py:173-177 | `unshift` inserts `reversed(args)` at positions 0, 1, …, which puts the arguments in front in reverse order | `[0].unshift(1, 2)` gives `[2, 1, 0]` | `[1, 2, 0]`: the arguments in their own order, as in JavaScript | not executed; high | JsProperties.UnshiftOrderCounterexample | JsProperties.UnshiftInOrderPrepends |
| window.py:1329-1339 | `unescape` makes two `re.sub` passes, so the output of the `%uXXXX` pass is decoded again by the `%XX` pass | `unescape('%u002541')` gives 'A' | '%41': each escape decoded once, in one left-to-right scan | not executed; high | WindowEscape.UnescapeDecodesTwice | WindowEscape.OnePassEscape |
| document.py:251-256 | `querySelector('#x')` searches for the id `selector[:1]`, which is always '#' | an element with id 'x' is not found by '#x' | `selector[1:]`, the id after the '#' | not executed; high | Dom.QuerySelectorIdCounterexample | Dom.QuerySelectorByIdMatches |
| interpreter.py:219-273 | the binary operator table has no '-' branch, so subtraction raises TypeError('unknown operator'), including in `decryptArrHash` | `5 - 3` raises TypeError | `left - right` | not executed; high | Operators.SubtractionUnknown | Operators.MinusUndoesPlus |
| interpreter.py:17-18 | `unsigned_right_shift` does not take the count modulo 32, and a negative count raises ValueError | `-1 >>> 32` gives 0 | 0xFFFFFFFF: JavaScript's `>>>` uses the count modulo 32 | not executed; medium | Operators.ShiftCountNotMasked | Operators.JsUnsignedRightShiftAgrees |

=== FILE: document.dfy ===
/**
  The DOM element model of document.py: an `Element` with its attribute
  map, the `id` and `tabIndex` fields `setAttribute` keeps in step with it,
  the `className` property, selector matching, the preorder searches behind
  `querySelector`, and the two flags of `Event`.
*/
module Dom {
  import opened Wrappers
  import opened PyText
  import opened Values

  datatype Element = Element(
    tagName: string,
    attributes: map<string, string>,
    id: Option<string>,
    tabIndex: int,
    children: seq<Element>)

  /** `Element(tag_name)`: upper-cased tag, no attributes, no id, tabIndex -1, no children. */
  function NewElement(tag: string): (e: Element)
    ensures |e.tagName| == |tag| && forall i :: 0 <= i < |tag| ==> e.tagName[i] == UpperChar(tag[i])
    ensures e.attributes == map[] && e.id == None && e.tabIndex == -1 && e.children == []
  {
    Element(Upper(tag), map[], None, -1, [])
  }

  /** The `className` property: the 'class' attribute, '' when absent. */
  function ClassName(e: Element): string {
    if "class" in e.attributes then e.attributes["class"] else ""
  }

  /** Assigning `className` writes the 'class' attribute and nothing else. */
  function SetClassName(e: Element, value: string): (e': Element)
    ensures e'.attributes == e.attributes["class" := value]
    ensures e'.tagName == e.tagName && e'.id == e.id && e'.tabIndex == e.tabIndex && e'.children == e.children
  {
    e.(attributes := e.attributes["class" := value])
  }

  /** What `int(value)` leaves in `tabIndex`: the integer, or -1 when it raises ValueError. */
  function TabIndexOf(value: string): int {
    match IntOfString(value)
    case Ok(i) => i
    case Raise(_) => -1
  }

  /**
    `setAttribute(key, value)`: stores the attribute; 'id' also sets `id`,
    'tabIndex' also sets `tabIndex` ('class' rewrites the same attribute
    through `className`).
  */
  function SetAttribute(e: Element, key: string, value: string): (e': Element)
    ensures e'.attributes == e.attributes[key := value]
    ensures e'.id == (if key == "id" then Some(value) else e.id)
    ensures key == "tabIndex" ==> (IntOfString(value).Ok? ==> e'.tabIndex == IntOfString(value).value)
    ensures key == "tabIndex" ==> (IntOfString(value).Raise? ==> e'.tabIndex == -1)
    ensures key != "tabIndex" ==> e'.tabIndex == e.tabIndex
    ensures e'.tagName == e.tagName && e'.children == e.children
  {
    var e1 := e.(attributes := e.attributes[key := value]);
    if key == "class" then SetClassName(e1, value)
    else if key == "id" then e1.(id := Some(value))
    else if key == "tabIndex" then e1.(tabIndex := TabIndexOf(value))
    else e1
  }

  /** `getAttribute(name)`: the stored value, None when absent. */
  function GetAttribute(e: Element, name: string): (r: Option<string>)
    ensures r.Some? <==> name in e.attributes
    ensures r.Some? ==> r.value == e.attributes[name]
  {
    if name in e.attributes then Some(e.attributes[name]) else None
  }

  /** `removeAttribute(name)`: `attributes.pop(name, None)`; the `id` and `tabIndex` fields stay as they were. */
  function RemoveAttribute(e: Element, name: string): (e': Element)
    ensures e'.attributes.Keys == e.attributes.Keys - {name}
    ensures forall k :: k in e'.attributes ==> e'.attributes[k] == e.attributes[k]
    ensures e'.id == e.id && e'.tabIndex == e.tabIndex && e'.tagName == e.tagName && e'.children == e.children
  {
    e.(attributes := e.attributes - {name})
  }

  /** What `setAttribute` stores `getAttribute` returns; other names read as before. */
  lemma SetThenGetAttribute(e: Element, key: string, value: string, other: string)
    ensures GetAttribute(SetAttribute(e, key, value), key) == Some(value)
    ensures other != key ==> GetAttribute(SetAttribute(e, key, value), other) == GetAttribute(e, other)
  {
  }

  /** `className` reads back what was assigned, and `setAttribute('class', v)` has the same effect. */
  lemma ClassNameRoundTrip(e: Element, value: string)
    ensures ClassName(SetClassName(e, value)) == value
    ensures SetAttribute(e, "class", value) == SetClassName(e, value)
  {
  }

  /** A tabIndex written as `str(i)` is read back as i. */
  lemma TabIndexRoundTrip(e: Element, i: int)
    ensures SetAttribute(e, "tabIndex", IntString(i)).tabIndex == i
  {
    IntStringRoundTrip(i);
  }

  /** A tabIndex `int()` rejects, such as "auto", leaves -1. */
  lemma TabIndexRejected(e: Element, v: string)
    requires |v| > 0 && !IsSpace(v[0]) && !IsDecimal(v[0]) && v[0] != '-' && v[0] != '+'
    ensures SetAttribute(e, "tabIndex", v).tabIndex == -1
  {
    IntOfStringRejects(v);
  }

  /**
    After `removeAttribute(name)` the name is gone; removing again, or
    removing a name that is absent, changes nothing.
  */
  lemma RemoveAttributeIdempotent(e: Element, name: string)
    ensures GetAttribute(RemoveAttribute(e, name), name) == None
    ensures RemoveAttribute(RemoveAttribute(e, name), name) == RemoveAttribute(e, name)
    ensures name !in e.attributes ==> RemoveAttribute(e, name) == e
  {
  }

  /** `removeAttribute('id')` leaves the `id` field: the element still matches its old '#id'. */
  lemma RemovedIdStillMatches(e: Element, v: string)
    ensures Matches(RemoveAttribute(SetAttribute(e, "id", v), "id"), "#" + v)
    ensures GetAttribute(RemoveAttribute(SetAttribute(e, "id", v), "id"), "id") == None
  {
    assert ("#" + v)[1..] == v;
  }

  /**
    `matches(selector)`: '#x' compares `id` with x, '.c' looks for c among
    the whitespace-separated words of `className`, anything else compares
    `tagName` with the upper-cased selector.
  */
  predicate Matches(e: Element, selector: string) {
    if |selector| > 0 && selector[0] == '#' then e.id == Some(selector[1..])
    else if |selector| > 0 && selector[0] == '.' then selector[1..] in Words(ClassName(e))
    else e.tagName == Upper(selector)
  }

  /** A new element matches a plain selector exactly when the two agree after upper-casing. */
  lemma MatchesOwnTag(tag: string, selector: string)
    requires |selector| == 0 || (selector[0] != '#' && selector[0] != '.')
    ensures Matches(NewElement(tag), selector) <==> Upper(tag) == Upper(selector)
    ensures Matches(NewElement(tag), tag) <==> |tag| == 0 || (tag[0] != '#' && tag[0] != '.')
  {
  }

  /** After `setAttribute('id', v)` the element matches '#v' and no other '#' selector. */
  lemma MatchesSetId(e: Element, v: string, w: string)
    ensures Matches(SetAttribute(e, "id", v), "#" + w) <==> w == v
  {
    assert ("#" + w)[1..] == w;
  }

  /** A single class word, once assigned, is matched by '.' and that word. */
  lemma MatchesSetClass(e: Element, c: string)
    requires |c| > 0 && NoSpace(c)
    ensures Matches(SetClassName(e, c), "." + c)
  {
    assert ("." + c)[1..] == c;
    WordsOfWord(c);
  }

  lemma WordsOfWord(c: string)
    requires |c| > 0 && NoSpace(c)
    ensures Words(c) == [c]
  {
    assert LStrip(c) == c;
    WordLengthOfWord(c);
    assert c[..|c|] == c;
    assert c[|c|..] == "";
    assert LStrip("") == "";
  }

  lemma {:induction false} WordLengthOfWord(c: string)
    requires NoSpace(c)
    ensures WordLength(c) == |c|
  {
    if |c| > 0 {
      WordLengthOfWord(c[1..]);
    }
  }

  /*
    Preorder search.
  */

  /** The element and its descendants in preorder: itself, then each child's subtree left to right. */
  function Preorder(e: Element): (s: seq<Element>)
    ensures |s| >= 1 && s[0] == e
    decreases e, 1
  {
    [e] + PreorderAll(e.children)
  }

  function PreorderAll(es: seq<Element>): seq<Element>
    decreases es, 0
  {
    if |es| == 0 then [] else Preorder(es[0]) + PreorderAll(es[1..])
  }

  /** The first element of `s` satisfying `p`. */
  function FirstOf(s: seq<Element>, p: Element -> bool): (r: Option<Element>)
    ensures r.Some? ==> p(r.value) && r.value in s
    ensures r.None? ==> forall i :: 0 <= i < |s| ==> !p(s[i])
  {
    if |s| == 0 then None else if p(s[0]) then Some(s[0]) else FirstOf(s[1..], p)
  }

  /**
    The search `_find_by_id` and `_find_by_tag` share: the element itself
    if it qualifies, else the first hit among its children, each searched
    the same way.  A found element is always truthy, so `if found` never
    skips a hit.
  */
  function FindFirst(e: Element, p: Element -> bool): Option<Element>
    decreases e, 1
  {
    if p(e) then Some(e) else FindAmong(e.children, p)
  }

  function FindAmong(es: seq<Element>, p: Element -> bool): Option<Element>
    decreases es, 0
  {
    if |es| == 0 then None
    else
      match FindFirst(es[0], p)
      case Some(found) => Some(found)
      case None => FindAmong(es[1..], p)
  }

  lemma {:induction false} FirstOfAppend(a: seq<Element>, b: seq<Element>, p: Element -> bool)
    ensures FirstOf(a + b, p) == if FirstOf(a, p).Some? then FirstOf(a, p) else FirstOf(b, p)
  {
    if |a| > 0 {
      assert (a + b)[1..] == a[1..] + b;
      FirstOfAppend(a[1..], b, p);
    } else {
      assert a + b == b;
    }
  }

  /** The recursive search returns the first qualifying element in preorder, None when there is none. */
  lemma {:induction false} FindFirstIsPreorder(e: Element, p: Element -> bool)
    ensures FindFirst(e, p) == FirstOf(Preorder(e), p)
    decreases e, 1
  {
    FindAmongIsPreorder(e.children, p);
    FirstOfAppend([e], PreorderAll(e.children), p);
    assert [e][1..] == [];
  }

  lemma {:induction false} FindAmongIsPreorder(es: seq<Element>, p: Element -> bool)
    ensures FindAmong(es, p) == FirstOf(PreorderAll(es), p)
    decreases es, 0
  {
    if |es| > 0 {
      FindFirstIsPreorder(es[0], p);
      FindAmongIsPreorder(es[1..], p);
      FirstOfAppend(Preorder(es[0]), PreorderAll(es[1..]), p);
    }
  }

  function HasId(v: string): Element -> bool {
    (x: Element) => x.id == Some(v)
  }

  function HasTag(t: string): Element -> bool {
    (x: Element) => x.tagName == t
  }

  /** `_find_by_id(v)`: the first element in preorder whose `id` is v. */
  function FindById(e: Element, v: string): (r: Option<Element>)
    ensures r.Some? ==> r.value.id == Some(v) && r.value in Preorder(e)
    ensures r.None? ==> forall x :: x in Preorder(e) ==> x.id != Some(v)
  {
    FindFirstIsPreorder(e, HasId(v));
    FindFirst(e, HasId(v))
  }

  /** `_find_by_tag(t)`: the first element in preorder whose `tagName` is t. */
  function FindByTag(e: Element, t: string): (r: Option<Element>)
    ensures r.Some? ==> r.value.tagName == t && r.value in Preorder(e)
    ensures r.None? ==> forall x :: x in Preorder(e) ==> x.tagName != t
  {
    FindFirstIsPreorder(e, HasTag(t));
    FindFirst(e, HasTag(t))
  }

  /**
    `querySelector(selector)` as written: a '#' selector searches for the id
    `selector[:1]`, which is the string "#" itself; any other selector, '.'
    ones included, searches by upper-cased tag.
  */
  function QuerySelector(e: Element, selector: string): Option<Element> {
    if |selector| > 0 && selector[0] == '#' then FindById(e, selector[..1])
    else FindByTag(e, Upper(selector))
  }

  /** An element with id "x" is not found by '#x'; an element with id "#" is. */
  lemma QuerySelectorIdCounterexample()
    ensures QuerySelector(SetAttribute(NewElement("div"), "id", "x"), "#x") == None
    ensures QuerySelectorById(SetAttribute(NewElement("div"), "id", "x"), "#x")
      == Some(SetAttribute(NewElement("div"), "id", "x"))
  {
    var e := SetAttribute(NewElement("div"), "id", "x");
    assert "#x"[..1] == "#";
    assert "#x"[1..] == "x";
    assert Preorder(e) == [e];
  }

  /** `querySelector` as evidently intended: a '#' selector searches for the id after the '#'. */
  function QuerySelectorById(e: Element, selector: string): Option<Element> {
    if |selector| > 0 && selector[0] == '#' then FindById(e, selector[1..])
    else FindByTag(e, Upper(selector))
  }

  /**
    With the id taken after the '#', `querySelector` returns the first
    element in preorder that `matches` the selector, for '#' selectors and
    plain tag selectors alike.
  */
  lemma QuerySelectorByIdMatches(e: Element, selector: string)
    requires |selector| == 0 || selector[0] != '.'
    ensures QuerySelectorById(e, selector) == FirstOf(Preorder(e), (x: Element) => Matches(x, selector))
  {
    var p := (x: Element) => Matches(x, selector);
    if |selector| > 0 && selector[0] == '#' {
      var q := HasId(selector[1..]);
      FindFirstIsPreorder(e, q);
      SameFirst(Preorder(e), p, q);
    } else {
      var q := HasTag(Upper(selector));
      FindFirstIsPreorder(e, q);
      SameFirst(Preorder(e), p, q);
    }
  }

  lemma {:induction false} SameFirst(s: seq<Element>, p: Element -> bool, q: Element -> bool)
    requires forall x :: p(x) == q(x)
    ensures FirstOf(s, p) == FirstOf(s, q)
  {
    if |s| > 0 {
      SameFirst(s[1..], p, q);
    }
  }

  /*
    Events.
  */

  datatype Event = Event(eventType: string, bubbles: Value, cancelable: Value, defaultPrevented: bool, stopped: bool)

  /**
    `Event(type_, options)`: 'bubbles' and 'cancelable' are whatever the
    options hold, False when absent; both flags start clear.
  */
  function NewEvent(eventType: string, options: map<string, Value>): (ev: Event)
    ensures "bubbles" in options ==> ev.bubbles == options["bubbles"]
    ensures "bubbles" !in options ==> ev.bubbles == Bool(false)
    ensures "cancelable" in options ==> ev.cancelable == options["cancelable"]
    ensures "cancelable" !in options ==> ev.cancelable == Bool(false)
    ensures !ev.defaultPrevented && !ev.stopped && ev.eventType == eventType
  {
    Event(eventType,
      if "bubbles" in options then options["bubbles"] else Bool(false),
      if "cancelable" in options then options["cancelable"] else Bool(false),
      false, false)
  }

  /** `preventDefault()`: sets `defaultPrevented`, but only when `cancelable` is truthy. */
  function PreventDefault(ev: Event): (ev': Event)
    ensures ev'.defaultPrevented <==> ev.defaultPrevented || Truthy(ev.cancelable)
    ensures ev'.(defaultPrevented := ev.defaultPrevented) == ev
  {
    if Truthy(ev.cancelable) then ev.(defaultPrevented := true) else ev
  }

  /**
    A fresh event can be prevented exactly when its 'cancelable' option is
    present and truthy: 1 cancels as True does, 0 and '' do not.
  */
  lemma PreventFreshEvent(eventType: string, options: map<string, Value>)
    ensures PreventDefault(NewEvent(eventType, options)).defaultPrevented
      <==> "cancelable" in options && Truthy(options["cancelable"])
    ensures PreventDefault(NewEvent(eventType, map["cancelable" := Int(1)])).defaultPrevented
    ensures !PreventDefault(NewEvent(eventType, map["cancelable" := Int(0)])).defaultPrevented
    ensures !PreventDefault(NewEvent(eventType, map["cancelable" := Str("")])).defaultPrevented
  {
  }

  /** `stopPropagation()`: sets the stopped flag and nothing else. */
  function StopPropagation(ev: Event): (ev': Event)
    ensures ev'.stopped && ev'.(stopped := ev.stopped) == ev
  {
    ev.(stopped := true)
  }

  /** Both calls are idempotent and independent of each other's flag. */
  lemma EventFlags(ev: Event)
    ensures PreventDefault(PreventDefault(ev)) == PreventDefault(ev)
    ensures StopPropagation(StopPropagation(ev)) == StopPropagation(ev)
    ensures PreventDefault(StopPropagation(ev)) == StopPropagation(PreventDefault(ev))
    ensures !Truthy(ev.cancelable) ==> PreventDefault(ev) == ev
  {
  }
}

=== FILE: environment.dfy ===
/**
  The lexical environment of environment.py: a record (a dict from names to
  values) linked to a parent environment.  The parent-linked chain is
  modelled as a non-empty sequence of records, innermost first; an
  environment `resolve` returns is identified by its depth in the chain.
*/
module Scopes {
  import opened Wrappers

  /** Records from the innermost scope outwards; every environment has one. */
  type Chain<V> = c: seq<map<string, V>> | |c| > 0 witness [map[]]

  /** `ExecutionContext`: the `this` value paired with an environment. */
  datatype ExecutionContext<S, V> = ExecutionContext(selfValue: S, env: Chain<V>)

  /** `name` is bound in no record of the chain. */
  predicate Unbound<V>(c: seq<map<string, V>>, name: string) {
    forall d :: 0 <= d < |c| ==> name !in c[d]
  }

  /**
    `define`: binds `name` in the current record and returns the value; the
    parent records are untouched.
  */
  function Define<V>(c: Chain<V>, name: string, value: V): (r: (Chain<V>, V))
    ensures |r.0| == |c|
    ensures r.0[0] == c[0][name := value]
    ensures r.0[1..] == c[1..]
    ensures r.1 == value
  {
    ([c[0][name := value]] + c[1..], value)
  }

  /**
    `resolve`: the depth of the innermost record binding `name`, walking
    parent links; TypeError when the outermost record has been passed.
  */
  function Resolve<V>(c: Chain<V>, name: string): (r: Result<nat>)
    ensures r.Ok? ==> r.value < |c| && name in c[r.value]
    ensures r.Ok? ==> forall d :: 0 <= d < r.value ==> name !in c[d]
    ensures r.Raise? ==> r.error == TypeError && Unbound(c, name)
    decreases |c|
  {
    if name in c[0] then Ok(0)
    else if |c| == 1 then Raise(TypeError)
    else
      match Resolve(c[1..], name)
      case Ok(d) => Ok(d + 1)
      case Raise(e) => Raise(e)
  }

  /** `lookup`: the binding in the record `resolve` finds. */
  function Lookup<V>(c: Chain<V>, name: string): Result<V> {
    var d :- Resolve(c, name);
    Ok(c[d][name])
  }

  /**
    `assign`: overwrites `name` in the record `resolve` finds and returns the
    value; raises before writing when `name` is bound nowhere.
  */
  function Assign<V>(c: Chain<V>, name: string, value: V): Result<(Chain<V>, V)> {
    var d :- Resolve(c, name);
    Ok((c[d := c[d][name := value]], value))
  }

  /** The innermost binding: the first record from the inside that binds `name`. */
  ghost predicate InnermostAt<V>(c: seq<map<string, V>>, name: string, d: int) {
    0 <= d < |c| && name in c[d] && forall j :: 0 <= j < d ==> name !in c[j]
  }

  /** `lookup` sees the innermost binding: inner definitions shadow outer ones. */
  lemma LookupShadows<V>(c: Chain<V>, name: string, d: nat)
    requires InnermostAt(c, name, d)
    ensures Resolve(c, name) == Ok(d)
    ensures Lookup(c, name) == Ok(c[d][name])
  {
  }

  /** `lookup` raises TypeError exactly when no record binds `name`. */
  lemma LookupUnbound<V>(c: Chain<V>, name: string)
    ensures Lookup(c, name).Raise? <==> Unbound(c, name)
    ensures Lookup(c, name).Raise? ==> Lookup(c, name).error == TypeError
  {
    if !Unbound(c, name) {
      var d :| 0 <= d < |c| && name in c[d];
      assert Resolve(c, name).Ok?;
    }
  }

  /** After `define(name, v)` a lookup of `name` yields `v`, whatever the outer scopes hold. */
  lemma DefineThenLookup<V>(c: Chain<V>, name: string, value: V)
    ensures Lookup(Define(c, name, value).0, name) == Ok(value)
  {
    LookupShadows(Define(c, name, value).0, name, 0);
  }

  /** `define` changes no other name: lookups of other names are as before. */
  lemma DefineOtherNames<V>(c: Chain<V>, name: string, value: V, other: string)
    requires other != name
    ensures Lookup(Define(c, name, value).0, other) == Lookup(c, other)
  {
    var c' := Define(c, name, value).0;
    assert forall d :: 0 <= d < |c| ==> (other in c'[d] <==> other in c[d]);
    assert forall d :: 0 <= d < |c| && other in c[d] ==> c'[d][other] == c[d][other];
    if Unbound(c, other) {
      LookupUnbound(c, other);
      LookupUnbound(c', other);
    } else {
      LookupUnbound(c, other);
      var d := Resolve(c, other).value;
      LookupShadows(c, other, d);
      LookupShadows(c', other, d);
    }
  }

  /**
    `assign` writes only the innermost defining record, returns the value,
    and leaves every other record and every other key of that record alone.
  */
  lemma AssignFrame<V>(c: Chain<V>, name: string, value: V, d: nat)
    requires InnermostAt(c, name, d)
    ensures Assign(c, name, value).Ok?
    ensures var (c', v) := Assign(c, name, value).value;
      && v == value
      && |c'| == |c|
      && c'[d] == c[d][name := value]
      && (forall j :: 0 <= j < |c| && j != d ==> c'[j] == c[j])
  {
    LookupShadows(c, name, d);
  }

  /** After `assign(name, v)` succeeds, a lookup of `name` yields `v`. */
  lemma AssignThenLookup<V>(c: Chain<V>, name: string, value: V)
    requires Assign(c, name, value).Ok?
    ensures Lookup(Assign(c, name, value).value.0, name) == Ok(value)
  {
    var d := Resolve(c, name).value;
    var c' := Assign(c, name, value).value.0;
    assert forall j :: 0 <= j < d ==> c'[j] == c[j];
    LookupShadows(c', name, d);
  }

  /** `assign` of a name bound nowhere raises TypeError and so writes nothing. */
  lemma AssignUnbound<V>(c: Chain<V>, name: string, value: V)
    requires Unbound(c, name)
    ensures Assign(c, name, value) == Raise(TypeError)
  {
  }
}

=== FILE: js_properties.dfy ===
/**
  The pure parts of js_properties.py: the `Object` class with its
  own-then-prototype property lookup, `ObjectProto.create`, the base-36
  digit conversion `Prototype._to_string36`, and the mutating list closures
  `push`/`pop`/`shift`/`unshift` of `Prototype.array_prototype`.
*/
module JsProperties {
  import opened Wrappers
  import opened Values
  import opened PyText

  /*
    Prototype objects.  An `Object` value carries its prototype as a field,
    so a prototype chain is finite and acyclic by construction.
  */

  /** The own-property records of `o` and of every `Object` on its prototype chain, `o` first. */
  function Chain(o: Value): (c: seq<map<string, Value>>)
    requires o.Object?
    ensures |c| >= 1 && c[0] == o.props
    decreases o
  {
    if o.proto.Object? then [o.props] + Chain(o.proto) else [o.props]
  }

  /**
    `Object.__getitem__`: the own property when there is one, otherwise the
    prototype's answer when the prototype is an `Object`, otherwise None.
  */
  function Get(o: Value, key: string): (r: Option<Value>)
    requires o.Object?
    ensures key in o.props ==> r == Some(o.props[key])
    ensures key !in o.props && !o.proto.Object? ==> r == None
    decreases o
  {
    if key in o.props then Some(o.props[key])
    else if o.proto.Object? then Get(o.proto, key)
    else None
  }

  /** `Object.__setitem__`: writes an own property; the prototype is not touched. */
  function Set(o: Value, key: string, value: Value): (o': Value)
    requires o.Object?
    ensures o'.Object? && o'.proto == o.proto
    ensures o'.props.Keys == o.props.Keys + {key}
  {
    Object(o.props[key := value], o.proto)
  }

  /** `Object.hasOwnProperty`. */
  predicate HasOwnProperty(o: Value, key: string)
    requires o.Object?
  {
    key in o.props
  }

  /** Record `i` is the first in `c` that binds `key`. */
  ghost predicate FirstBinding(c: seq<map<string, Value>>, key: string, i: int) {
    0 <= i < |c| && key in c[i] && forall j :: 0 <= j < i ==> key !in c[j]
  }

  /**
    Lookup finds the record nearest to `o` on the prototype chain that binds
    `key`: it succeeds exactly when some record binds `key`, and then yields
    the value of the first such record.
  */
  lemma {:induction false} GetFirstInChain(o: Value, key: string)
    requires o.Object?
    ensures Get(o, key).Some? <==> exists i :: 0 <= i < |Chain(o)| && key in Chain(o)[i]
    ensures forall i :: FirstBinding(Chain(o), key, i) ==> Get(o, key) == Some(Chain(o)[i][key])
    decreases o
  {
    var c := Chain(o);
    if key !in o.props && o.proto.Object? {
      GetFirstInChain(o.proto, key);
      var c' := Chain(o.proto);
      assert c == [o.props] + c';
      assert forall i :: 1 <= i < |c| ==> c[i] == c'[i - 1];
      if Get(o, key).Some? {
        var i' :| 0 <= i' < |c'| && key in c'[i'];
        assert key in c[i' + 1];
      }
      forall i | FirstBinding(c, key, i)
        ensures Get(o, key) == Some(c[i][key])
      {
        assert i >= 1;
        assert FirstBinding(c', key, i - 1) by {
          assert forall j :: 0 <= j < i - 1 ==> c'[j] == c[j + 1];
        }
      }
    } else if key in o.props {
      assert 0 < |Chain(o)| && key in Chain(o)[0];
      assert exists i :: 0 <= i < |Chain(o)| && key in Chain(o)[i];
    }
  }

  /** Writing `key` changes what `key` reads as, and nothing else. */
  lemma SetThenGet(o: Value, key: string, value: Value, other: string)
    requires o.Object?
    ensures Get(Set(o, key, value), key) == Some(value)
    ensures other != key ==> Get(Set(o, key, value), other) == Get(o, other)
    ensures HasOwnProperty(Set(o, key, value), other) <==> other == key || HasOwnProperty(o, other)
  {
  }

  /**
    A property descriptor of `create`: a dict with a 'value' key contributes
    that value; anything else is stored as it is.
  */
  function DescriptorValue(descriptor: Value): Value {
    if descriptor.Dict? && "value" in descriptor.entries then descriptor.entries["value"]
    else descriptor
  }

  /**
    `ObjectProto.create(proto, properties)`: a fresh `Object` whose prototype
    is `proto`, with one own property per entry of `properties`.  A missing
    or empty `properties` adds none.
  */
  function Create(proto: Value, properties: Option<map<string, Value>>): (o: Value)
    ensures o.Object? && o.proto == proto
    ensures properties.None? ==> o.props == map[]
    ensures properties.Some? ==> o.props.Keys == properties.value.Keys
    ensures properties.Some? ==> forall k :: k in properties.value ==> o.props[k] == DescriptorValue(properties.value[k])
  {
    match properties
    case None => Object(map[], proto)
    case Some(ps) => Object(map k | k in ps :: DescriptorValue(ps[k]), proto)
  }

  /** Keys `create` does not set are inherited from an `Object` prototype and absent otherwise. */
  lemma CreateInherits(proto: Value, properties: Option<map<string, Value>>, key: string)
    requires properties.None? || key !in properties.value
    ensures proto.Object? ==> Get(Create(proto, properties), key) == Get(proto, key)
    ensures !proto.Object? ==> Get(Create(proto, properties), key) == None
  {
  }

  /*
    `_to_string36`.
  */

  const Alphabet36: string := "0123456789abcdefghijklmnopqrstuvwxyz"

  lemma AlphabetDigits()
    ensures |Alphabet36| == 36
    ensures forall r :: 0 <= r < 36 ==> DigitValue(Alphabet36[r]) == r
    ensures forall r :: 0 <= r < 36 ==> (Alphabet36[r] == '0' <==> r == 0)
  {
  }

  /** The base-36 digits of `n` without any leading zero ("" for 0). */
  function Digits36(n: nat): string
    decreases n
  {
    if n == 0 then "" else Digits36(n / 36) + [Alphabet36[n % 36]]
  }

  predicate IsBase36(s: string) {
    forall i :: 0 <= i < |s| ==> '0' <= s[i] <= '9' || 'a' <= s[i] <= 'z'
  }

  /**
    `Prototype._to_string36(n)`: the `while n` loop peels off `divmod(n, 36)`
    remainders and prepends their digit.  For negative n `divmod` floors and
    n never reaches 0, so the source loops forever; hence `n: nat`.
  */
  method ToString36(n: nat) returns (result: string)
    ensures |result| > 0 && IsBase36(result)
    ensures result == "0" <==> n == 0
    ensures n > 0 ==> result[0] != '0'
    ensures forall i :: 0 <= i < |result| ==> DigitValue(result[i]) < 36
    ensures DigitsValue(result, 36) == n
  {
    var m := n;
    result := "";
    while m != 0
      invariant Digits36(m) + result == Digits36(n)
      decreases m
    {
      var q, r := m / 36, m % 36;
      result := [Alphabet36[r]] + result;
      m := q;
    }
    assert result == Digits36(n);
    Digits36Facts(n);
    if result == "" {
      result := "0";
      assert DigitValue(result[0]) == 0;
      assert DigitsValue(result, 36) == DigitsValue(result[..0], 36) * 36 + 0;
    }
  }

  /**
    The digits of `n` spell `n` in base 36, come from the alphabet, and have
    no leading '0'; there are none exactly when n = 0.
  */
  lemma {:induction false} Digits36Facts(n: nat)
    ensures IsBase36(Digits36(n))
    ensures forall i :: 0 <= i < |Digits36(n)| ==> DigitValue(Digits36(n)[i]) < 36
    ensures DigitsValue(Digits36(n), 36) == n
    ensures |Digits36(n)| == 0 <==> n == 0
    ensures n > 0 ==> Digits36(n)[0] != '0'
    decreases n
  {
    if n > 0 {
      var s := Digits36(n);
      LastDigit36(n);
      Digits36Facts(n / 36);
      assert s[..|s| - 1] == Digits36(n / 36);
      if n / 36 == 0 {
        assert s == [Alphabet36[n % 36]];
      } else {
        assert s[0] == Digits36(n / 36)[0];
      }
    }
  }

  /** The digit `_to_string36` writes for n % 36. */
  lemma LastDigit36(n: nat)
    ensures var c := Alphabet36[n % 36];
      && DigitValue(c) == n % 36
      && ('0' <= c <= '9' || 'a' <= c <= 'z')
      && (c == '0' <==> n % 36 == 0)
  {
    AlphabetDigits();
  }

  /*
    The list closures of `Prototype.array_prototype`.  They mutate the
    wrapped Python list and refresh the 'length' entry of the array object;
    here an `ArrayView` is the list together with that entry, and each
    closure returns the new view with its own result.
  */

  datatype ArrayView<T> = ArrayView(items: seq<T>, length: int)

  predicate LengthInSync<T>(a: ArrayView<T>) {
    a.length == |a.items|
  }

  /** The view `array_prototype` builds: 'length' starts as `len(array)`. */
  function NewView<T>(items: seq<T>): (a: ArrayView<T>)
    ensures LengthInSync(a) && a.items == items
  {
    ArrayView(items, |items|)
  }

  /** `push(*args)`: extends the list with `args` in order and returns the new length. */
  function Push<T>(a: ArrayView<T>, args: seq<T>): (r: (ArrayView<T>, nat))
    ensures r.0.items == a.items + args
    ensures LengthInSync(r.0) && r.1 == |a.items| + |args|
  {
    var items := a.items + args;
    (ArrayView(items, |items|), |items|)
  }

  /** `pop()`: removes and returns the last element; IndexError on an empty list. */
  function Pop<T>(a: ArrayView<T>): (r: Result<(ArrayView<T>, T)>)
    ensures |a.items| == 0 <==> r == Raise(IndexError)
    ensures r.Ok? ==> r.value.0.items + [r.value.1] == a.items && LengthInSync(r.value.0)
  {
    if |a.items| == 0 then Raise(IndexError)
    else
      var items := a.items[..|a.items| - 1];
      Ok((ArrayView(items, |items|), a.items[|a.items| - 1]))
  }

  /** `shift()`: removes and returns the first element; IndexError on an empty list. */
  function Shift<T>(a: ArrayView<T>): (r: Result<(ArrayView<T>, T)>)
    ensures |a.items| == 0 <==> r == Raise(IndexError)
    ensures r.Ok? ==> [r.value.1] + r.value.0.items == a.items && LengthInSync(r.value.0)
  {
    if |a.items| == 0 then Raise(IndexError)
    else
      var items := a.items[1..];
      Ok((ArrayView(items, |items|), a.items[0]))
  }

  /** Python's `list.insert(i, x)` for 0 <= i: an index past the end appends. */
  function Insert<T>(s: seq<T>, i: nat, x: T): (s': seq<T>)
    ensures |s'| == |s| + 1
  {
    var k := if i <= |s| then i else |s|;
    s[..k] + [x] + s[k..]
  }

  /** `for i, arg in enumerate(xs): s.insert(start + i, arg)`. */
  function InsertEach<T>(s: seq<T>, xs: seq<T>, start: nat): seq<T>
    decreases |xs|
  {
    if |xs| == 0 then s else InsertEach(Insert(s, start, xs[0]), xs[1..], start + 1)
  }

  function Reverse<T>(xs: seq<T>): (r: seq<T>)
    ensures |r| == |xs|
    ensures forall i :: 0 <= i < |xs| ==> r[i] == xs[|xs| - 1 - i]
  {
    if |xs| == 0 then [] else Reverse(xs[1..]) + [xs[0]]
  }

  /**
    `unshift(*args)` as written: inserts the REVERSED arguments at indices
    0, 1, 2, ... and returns the new length.
  */
  function Unshift<T>(a: ArrayView<T>, args: seq<T>): (r: (ArrayView<T>, nat))
  {
    var items := InsertEach(a.items, Reverse(args), 0);
    (ArrayView(items, |items|), |items|)
  }

  /** Inserting `xs` one by one at consecutive indices from |p| places them as a block after `p`. */
  lemma {:induction false} InsertEachBlock<T>(p: seq<T>, xs: seq<T>, s: seq<T>)
    ensures InsertEach(p + s, xs, |p|) == p + xs + s
    decreases |xs|
  {
    if |xs| > 0 {
      assert Insert(p + s, |p|, xs[0]) == (p + [xs[0]]) + s by {
        assert (p + s)[..|p|] == p;
        assert (p + s)[|p|..] == s;
      }
      InsertEachBlock(p + [xs[0]], xs[1..], s);
      assert (p + [xs[0]]) + xs[1..] == p + xs;
    }
  }

  /** Inserting `xs` one by one at indices 0, 1, 2, ... puts them, in order, in front. */
  lemma InsertEachFront<T>(s: seq<T>, xs: seq<T>)
    ensures InsertEach(s, xs, 0) == xs + s
  {
    var e: seq<T> := [];
    InsertEachBlock(e, xs, s);
    calc {
      InsertEach(s, xs, 0);
      { assert e + s == s; }
      InsertEach(e + s, xs, |e|);
      e + xs + s;
      { assert e + xs == xs; }
      xs + s;
    }
  }

  /**
    What `unshift(a, b, c)` leaves: `[c, b, a]` followed by the old items,
    where JavaScript's `unshift` gives `[a, b, c]` first.
  */
  lemma UnshiftReverses<T>(a: ArrayView<T>, args: seq<T>)
    ensures Unshift(a, args).0.items == Reverse(args) + a.items
    ensures LengthInSync(Unshift(a, args).0)
    ensures Unshift(a, args).1 == |a.items| + |args|
  {
    InsertEachFront(a.items, Reverse(args));
  }

  /** For two distinct arguments the as-written `unshift` disagrees with JavaScript's. */
  lemma UnshiftOrderCounterexample()
    ensures Unshift(NewView([0]), [1, 2]).0.items == [2, 1, 0]
    ensures UnshiftInOrder(NewView([0]), [1, 2]).0.items == [1, 2, 0]
  {
    UnshiftReverses(NewView([0]), [1, 2]);
    assert Reverse([1, 2]) == [2, 1];
  }

  /**
    `unshift` as evidently intended (and as window.py's list helper does
    it): the arguments in their original order, in front of the old items.
  */
  function UnshiftInOrder<T>(a: ArrayView<T>, args: seq<T>): (r: (ArrayView<T>, nat))
  {
    var items := InsertEach(a.items, args, 0);
    (ArrayView(items, |items|), |items|)
  }

  lemma UnshiftInOrderPrepends<T>(a: ArrayView<T>, args: seq<T>)
    ensures UnshiftInOrder(a, args).0.items == args + a.items
    ensures LengthInSync(UnshiftInOrder(a, args).0)
    ensures UnshiftInOrder(a, args).1 == |a.items| + |args|
  {
    InsertEachFront(a.items, args);
  }
}

=== FILE: keystream.dfy ===
/**
  The keyed byte-stream decoder `decryptArrHash` of tests/test3.js.

  A linear-congruential keystream (modulus 94906238, multiplier 13558035,
  increment 13037) is regenerated from a seed and subtracted, byte by byte,
  from the cipher values; the differences are turned into UTF-16 code units
  by `String.fromCharCode`.  Every operation is modelled on unbounded
  integers: `KeystreamExact` shows that, for integer cipher values of
  magnitude below 2^52, no intermediate reaches 2^53, so the double
  arithmetic of JavaScript computes exactly these integers.
*/
module Keystream {
  import opened Values
  import opened Remainders

  const Modulus: int := 94906238
  const Multiplier: int := 13558035
  const Increment: int := 13037

  /** 2^53: below it every integer is an exact IEEE-754 double. */
  const ExactLimit: int := 0x20_0000_0000_0000

  /** A UTF-16 code unit, the element type of a JavaScript string. */
  type CodeUnit = c: int | 0 <= c < 0x1_0000

  /** The one step of the generator: `((state * static2) + static3) % static1`. */
  function Step(k: int): int {
    JsRem(k * Multiplier + Increment, Modulus)
  }

  /** `((seed % static1) + static1) % static1` with JavaScript's `%`. */
  function Normalize(seed: int): (k: int)
    ensures 0 <= k < Modulus
    ensures k == seed % Modulus
  {
    var inner := JsRem(seed, Modulus);
    var k := JsRem(inner + Modulus, Modulus);
    ResidueThrough(seed, inner, k, Modulus);
    k
  }

  /** `n` applications of `Step` to `k`. */
  function Iterate(n: nat, k: int): int {
    if n == 0 then k else Step(Iterate(n - 1, k))
  }

  /** The keystream value subtracted from cipher byte `i`: the (i+1)-th iterate. */
  function KeyAt(seed: int, i: nat): int {
    Iterate(i + 1, Normalize(seed))
  }

  /**
    The numbers `decryptArrHash` collects in `decrypted`.  An empty input
    still gets `decrypted[0]` assigned: `array[0]` is `undefined`, the
    subtraction yields NaN, and `decrypted` grows to length one.
  */
  function Plain(cipher: seq<int>, seed: int): (d: seq<JsNumber>)
  {
    if |cipher| == 0 then [NaN]
    else seq(|cipher|, i requires 0 <= i < |cipher| => Num(JsRem(cipher[i] - KeyAt(seed, i), 256)))
  }

  /** ToUint16 (section 7.1.8 of ECMA-262) as applied by `String.fromCharCode`; NaN becomes 0. */
  function FromCharCode(x: JsNumber): (c: CodeUnit)
    ensures x.Num? ==> (x.n - c) % 0x1_0000 == 0
  {
    match x
    case NaN => 0
    case Num(n) => n % 0x1_0000
  }

  /** The string `decryptArrHash(array, seed)` returns, as UTF-16 code units. */
  function Decrypt(cipher: seq<int>, seed: int): seq<CodeUnit> {
    var d := Plain(cipher, seed);
    seq(|d|, i requires 0 <= i < |d| => FromCharCode(d[i]))
  }

  /**
    `decryptArrHash` as the source writes it: the first byte outside the
    loop, then `mod_1`, the redundant `mod_2 = mod_1 % static1`, and the
    update of `seed` inside it.
  */
  method DecryptArrHash(cipher: seq<int>, seed: int) returns (text: seq<CodeUnit>)
    ensures text == Decrypt(cipher, seed)
    ensures |text| == if |cipher| == 0 then 1 else |cipher|
  {
    var decrypted: seq<JsNumber> := seq(|cipher|, _ => Num(0));
    var byte0_1 := JsRem(JsRem(seed, Modulus) + Modulus, Modulus);
    assert byte0_1 == Normalize(seed);
    var byte0_2 := Step(byte0_1);
    KeyInRange(seed, 0);
    var state := byte0_2;
    if |cipher| == 0 {
      decrypted := [NaN];
    } else {
      decrypted := decrypted[0 := Num(JsRem(cipher[0] - byte0_2, 256))];
    }
    var index := 1;
    while index < |cipher|
      invariant |cipher| == 0 || index <= |cipher|
      invariant |decrypted| == |Plain(cipher, seed)|
      invariant state == KeyAt(seed, index - 1)
      invariant forall j :: 0 <= j < index && j < |decrypted| ==> decrypted[j] == Plain(cipher, seed)[j]
    {
      KeyInRange(seed, index - 1);
      KeyInRange(seed, index);
      StepIdempotent(state);
      var mod_1 := Step(state);
      var mod_2 := JsRem(mod_1, Modulus);
      var original_byte := JsRem(cipher[index] - mod_2, 256);
      decrypted := decrypted[index := Num(original_byte)];
      state := mod_2;
      index := index + 1;
    }
    text := seq(|decrypted|, i requires 0 <= i < |decrypted| => FromCharCode(decrypted[i]));
  }

  /** Every keystream value lies in [0, M), and reducing it once more (`mod_2`) changes nothing. */
  lemma StepIdempotent(k: int)
    requires 0 <= k
    ensures 0 <= Step(k) < Modulus
    ensures Step(k) == (k * Multiplier + Increment) % Modulus
    ensures JsRem(Step(k), Modulus) == Step(k)
  {
    var r := Step(k);
    assert k * Multiplier + Increment >= 0;
    ResidueUnique(r, (k * Multiplier + Increment) % Modulus, Modulus);
    ResidueUnique(JsRem(r, Modulus), r, Modulus);
  }

  /** Every key lies in [0, M). */
  lemma {:induction false} KeyInRange(seed: int, i: nat)
    ensures 0 <= KeyAt(seed, i) < Modulus
    ensures i == 0 ==> KeyAt(seed, i) == Step(Normalize(seed))
    ensures i > 0 ==> KeyAt(seed, i) == Step(KeyAt(seed, i - 1))
  {
    if i == 0 {
      var k := Normalize(seed);
      assert Iterate(0, k) == k;
      assert KeyAt(seed, 0) == Iterate(1, k) == Step(k);
      StepIdempotent(Normalize(seed));
    } else {
      KeyInRange(seed, i - 1);
      StepIdempotent(KeyAt(seed, i - 1));
    }
  }

  /**
    With the state in [0, M), from the normalised seed on, the largest
    intermediate is (M-1)*A + C, below 2^53; so are the byte differences
    when the cipher values are integers of magnitude below 2^52.
    JavaScript's doubles therefore compute exactly.
  */
  lemma KeystreamExact(seed: int, c: int, i: nat)
    requires Abs(c) < ExactLimit / 2
    ensures 0 <= Normalize(seed) * Multiplier + Increment < ExactLimit
    ensures 0 <= KeyAt(seed, i) * Multiplier + Increment < ExactLimit
    ensures Abs(c - KeyAt(seed, i)) < ExactLimit
    ensures Abs(JsRem(seed, Modulus) + Modulus) < ExactLimit
  {
    var k := KeyAt(seed, i);
    KeyInRange(seed, i);
    assert k * Multiplier <= (Modulus - 1) * Multiplier;
    assert Normalize(seed) * Multiplier <= (Modulus - 1) * Multiplier;
  }

  /** Seeds congruent modulo M, such as `seed` and `seed + M`, decrypt identically. */
  lemma SeedPeriodic(cipher: seq<int>, seed1: int, seed2: int)
    requires seed1 % Modulus == seed2 % Modulus
    ensures Decrypt(cipher, seed1) == Decrypt(cipher, seed2)
  {
    assert Normalize(seed1) == Normalize(seed2);
    assert forall i: nat :: KeyAt(seed1, i) == KeyAt(seed2, i);
    assert Plain(cipher, seed1) == Plain(cipher, seed2);
  }

  lemma SeedShift(cipher: seq<int>, seed: int)
    ensures Decrypt(cipher, seed + Modulus) == Decrypt(cipher, seed)
  {
    assert (seed + Modulus) % Modulus == seed % Modulus;
    SeedPeriodic(cipher, seed + Modulus, seed);
  }

  /**
    A non-empty input yields one code unit per cipher value; an empty one
    yields the single code unit 0.
  */
  lemma DecryptLength(cipher: seq<int>, seed: int)
    ensures |cipher| > 0 ==> |Decrypt(cipher, seed)| == |cipher|
    ensures |cipher| == 0 ==> Decrypt(cipher, seed) == [0]
  {
  }

  /**
    Each decrypted number d is congruent to cipher - key modulo 256, has
    magnitude below 256, and is never positive when the difference is
    negative; its code unit is d mod 65536, so negative d land in
    U+FF01..U+FFFF.
  */
  lemma PlainByte(cipher: seq<int>, seed: int, i: nat)
    requires i < |cipher|
    ensures var d := Plain(cipher, seed)[i].n;
      && Plain(cipher, seed)[i].Num?
      && (d - (cipher[i] - KeyAt(seed, i))) % 256 == 0
      && -256 < d < 256
      && (cipher[i] - KeyAt(seed, i) < 0 ==> d <= 0)
      && (cipher[i] - KeyAt(seed, i) >= 0 ==> d >= 0)
      && Decrypt(cipher, seed)[i] == (if d < 0 then d + 0x1_0000 else d)
      && (d < 0 ==> 0xFF01 <= Decrypt(cipher, seed)[i] <= 0xFFFF)
  {
    var d := Plain(cipher, seed)[i].n;
    var x := cipher[i] - KeyAt(seed, i);
    assert (x - d) % 256 == 0;
    assert (d - x) % 256 == 0 by {
      NegDivisible(x - d, 256);
    }
    var c := Decrypt(cipher, seed)[i];
    assert (d - c) % 0x1_0000 == 0;
    ResidueUnique(c, if d < 0 then d + 0x1_0000 else d, 0x1_0000);
  }

  /**
    Under this repository's interpreter `%` is Python's floor remainder,
    both in the seed normalisation and in the byte subtraction.  (Its
    operator table has no binary '-', so these definitions read the
    function with that branch supplied; see `Operators.DecryptByteUnderInterpreter`.)
  */
  function PyNormalize(seed: int): int {
    PyMod(PyMod(seed, Modulus) + Modulus, Modulus)
  }

  function PyStep(k: int): int {
    PyMod(k * Multiplier + Increment, Modulus)
  }

  function PyIterate(n: nat, k: int): int {
    if n == 0 then k else PyStep(PyIterate(n - 1, k))
  }

  /** The numbers the interpreter collects in `decrypted` for a non-empty input. */
  function PyPlain(cipher: seq<int>, seed: int): seq<int>
  {
    seq(|cipher|, i requires 0 <= i < |cipher| => PyMod(cipher[i] - PyIterate(i + 1, PyNormalize(seed)), 256))
  }

  /** On non-negative states the two remainders agree, so both runs use the same keys. */
  lemma {:induction false} SameKeys(seed: int, n: nat)
    ensures PyIterate(n, PyNormalize(seed)) == Iterate(n, Normalize(seed))
    ensures 0 <= Iterate(n, Normalize(seed)) < Modulus
  {
    if n == 0 {
      ResidueUnique(PyNormalize(seed), Normalize(seed), Modulus);
    } else {
      SameKeys(seed, n - 1);
      var k := Iterate(n - 1, Normalize(seed));
      StepIdempotent(k);
      ResidueUnique(PyStep(k), Step(k), Modulus);
    }
  }

  /**
    Run under the interpreter, every decrypted number lies in [0, 256) and
    equals the JavaScript one, or that plus 256 when the JavaScript one is
    negative.
  */
  lemma {:induction false} InterpreterBytes(cipher: seq<int>, seed: int, i: nat)
    requires i < |cipher|
    ensures 0 <= PyPlain(cipher, seed)[i] < 256
    ensures var d := Plain(cipher, seed)[i].n;
      PyPlain(cipher, seed)[i] == if d < 0 then d + 256 else d
  {
    SameKeys(seed, i + 1);
    FloorVersusTruncated(cipher[i] - KeyAt(seed, i), 256);
  }

  /** The literal vector of tests/test3.js: the first key and the first byte under both remainders. */
  lemma TestVectorFirstByte()
    ensures Normalize(-552346152) == 17091276
    ensures KeyAt(-552346152, 0) == 3546279
    ensures Plain([244], -552346152) == [Num(-179)]
    ensures PyPlain([244], -552346152) == [77]
    ensures Decrypt([244], -552346152) == [0xFF4D]
  {
    assert Normalize(-552346152) == 17091276;
    StepIdempotent(17091276);
    assert KeyAt(-552346152, 0) == Step(17091276);
    InterpreterBytes([244], -552346152, 0);
  }
}

=== FILE: operators.dfy ===
/**
  The operator helpers of interpreter.py: `unsigned_right_shift`,
  `js_in_operator`, and the integer and logical cases of `evaluate`.  The
  interpreter applies Python's operators directly, so every operator here
  has Python's meaning on unbounded integers, not JavaScript's 32-bit one.
*/
module Operators {
  import opened Wrappers
  import opened Values
  import opened Remainders
  import opened PyText
  import Keystream

  function Pow2(n: nat): (p: nat)
    ensures p >= 1
  {
    if n == 0 then 1 else 2 * Pow2(n - 1)
  }

  lemma {:induction false} Pow2Monotone(m: nat, n: nat)
    requires m <= n
    ensures Pow2(m) <= Pow2(n)
    decreases n
  {
    if m < n {
      Pow2Monotone(m, n - 1);
    }
  }

  const Word32: int := 0x1_0000_0000
  const Mask32: int := 0xFFFF_FFFF

  lemma Pow2Of32()
    ensures Pow2(32) == Word32
  {
    assert Pow2(8) == 256;
    assert Pow2(16) == 2 * 2 * 2 * 2 * 2 * 2 * 2 * 2 * Pow2(8);
    assert Pow2(24) == 2 * 2 * 2 * 2 * 2 * 2 * 2 * 2 * Pow2(16);
    assert Pow2(32) == 2 * 2 * 2 * 2 * 2 * 2 * 2 * 2 * Pow2(24);
  }

  lemma WideCount(n: nat)
    ensures n >= 32 ==> Pow2(n) >= Word32
  {
    if n >= 32 {
      Pow2Monotone(32, n);
      Pow2Of32();
    }
  }

  /*
    Python's bitwise operators on unbounded integers, read as infinite
    two's-complement bit strings: the low bit is combined directly and the
    rest recursively, until both operands are 0 or -1 (all zeros or all
    ones from there on).
  */

  datatype BitOp = And | Or | Xor

  /** One bit of `&`, `|` or `^`; x and y are 0 or 1. */
  function Bit(op: BitOp, x: int, y: int): int {
    match op
    case And => if x == 1 && y == 1 then 1 else 0
    case Or => if x == 1 || y == 1 then 1 else 0
    case Xor => if x != y then 1 else 0
  }

  predicate SignOnly(a: int) {
    a == 0 || a == -1
  }

  lemma HalfShrinks(a: int)
    ensures Abs(a / 2) <= Abs(a)
    ensures !SignOnly(a) ==> Abs(a / 2) < Abs(a)
  {
  }

  /** `a & b`, `a | b` or `a ^ b` on Python integers. */
  function Bitwise(op: BitOp, a: int, b: int): int
    decreases Abs(a) + Abs(b)
  {
    if SignOnly(a) && SignOnly(b) then -Bit(op, -a, -b)
    else
      HalfShrinks(a);
      HalfShrinks(b);
      2 * Bitwise(op, a / 2, b / 2) + Bit(op, a % 2, b % 2)
  }

  lemma {:induction false} AndZero(x: int)
    ensures Bitwise(And, x, 0) == 0
    decreases Abs(x)
  {
    if !SignOnly(x) {
      HalfShrinks(x);
      AndZero(x / 2);
    }
  }

  /** Splitting off the low bit of a remainder by an even modulus. */
  lemma ModDouble(x: int, p: nat)
    requires p > 0
    ensures x % (2 * p) == 2 * ((x / 2) % p) + x % 2
  {
    var q := x / 2;
    var r0 := x % 2;
    var q2 := q / p;
    var r1 := q % p;
    assert q == q2 * p + r1;
    assert x == 2 * q + r0;
    assert x == q2 * (2 * p) + (2 * r1 + r0) by {
      assert 2 * (q2 * p) == q2 * (2 * p);
    }
    DivModUnique(x, 2 * p, q2, 2 * r1 + r0);
  }

  /** Masking with 2^k - 1 keeps the low k bits: `x & (2**k - 1) == x % 2**k`. */
  lemma {:induction false} AndMask(x: int, k: nat)
    ensures Bitwise(And, x, Pow2(k) - 1) == x % Pow2(k)
    decreases k
  {
    if k == 0 {
      AndZero(x);
    } else {
      AndMask(x / 2, k - 1);
      AndMaskStep(x, Pow2(k - 1));
    }
  }

  /** One more bit of mask: from the mask 2^k - 1 on x / 2 to 2^(k+1) - 1 on x. */
  lemma AndMaskStep(x: int, p: int)
    requires p >= 1
    requires Bitwise(And, x / 2, p - 1) == (x / 2) % p
    ensures Bitwise(And, x, 2 * p - 1) == x % (2 * p)
  {
    var m := 2 * p - 1;
    DivModUnique(m, 2, p - 1, 1);
    AndOddStep(x, m);
    ModDouble(x, p);
  }

  /** `&` with a positive odd mask keeps the low bit and masks the rest with m // 2. */
  lemma AndOddStep(x: int, m: int)
    requires m >= 1 && m % 2 == 1
    ensures Bitwise(And, x, m) == 2 * Bitwise(And, x / 2, m / 2) + x % 2
  {
    assert !SignOnly(m);
  }

  /** Each operator is symmetric in its operands. */
  lemma {:induction false} BitwiseCommutes(op: BitOp, a: int, b: int)
    ensures Bitwise(op, a, b) == Bitwise(op, b, a)
    decreases Abs(a) + Abs(b)
  {
    if !(SignOnly(a) && SignOnly(b)) {
      HalfShrinks(a);
      HalfShrinks(b);
      BitwiseCommutes(op, a / 2, b / 2);
    }
  }

  /** `x ^ x == 0`, `x & x == x` and `x | x == x`. */
  lemma {:induction false} SelfCombined(x: int)
    ensures Bitwise(Xor, x, x) == 0
    ensures Bitwise(And, x, x) == x
    ensures Bitwise(Or, x, x) == x
    decreases Abs(x)
  {
    if !SignOnly(x) {
      HalfShrinks(x);
      SelfCombined(x / 2);
    }
  }

  /** `x & 0xFFFFFFFF` is x modulo 2^32. */
  lemma MaskLow32(x: int)
    ensures Bitwise(And, x, Mask32) == x % Word32
  {
    AndMask(x, 32);
    Pow2Of32();
  }

  lemma QuotientBounds(w: int, p: int, bound: int)
    requires 0 <= w < bound && p >= 1
    ensures 0 <= w / p <= w
    ensures p >= bound ==> w / p == 0
  {
  }

  /*
    Shifts.
  */

  /** `a << n`: ValueError for a negative count, otherwise a times 2^n, never truncated to 32 bits. */
  function ShiftLeft(a: int, n: int): (r: Result<int>)
    ensures n < 0 <==> r == Raise(ValueError)
    ensures n >= 0 ==> r.Ok? && r.value == a * Pow2(n)
  {
    if n < 0 then Raise(ValueError) else Ok(a * Pow2(n))
  }

  /** `a >> n`: ValueError for a negative count, otherwise a / 2^n rounded towards minus infinity. */
  function ShiftRight(a: int, n: int): (r: Result<int>)
    ensures n < 0 <==> r == Raise(ValueError)
    ensures n >= 0 ==> r.Ok? && r.value * Pow2(n) <= a < (r.value + 1) * Pow2(n)
  {
    if n < 0 then Raise(ValueError) else Ok(a / Pow2(n))
  }

  /** Shifting left and back right gives the operand back; shifting by 0 changes nothing. */
  lemma ShiftRightUndoesLeft(a: int, n: nat)
    ensures ShiftRight(ShiftLeft(a, n).value, n) == Ok(a)
    ensures ShiftLeft(a, 0) == Ok(a) && ShiftRight(a, 0) == Ok(a)
  {
    DivModUnique(a * Pow2(n), Pow2(n), a, 0);
  }

  /**
    `unsigned_right_shift(x, n)`: `(x & 0xFFFFFFFF) >> n`, the low 32 bits
    of x (negative x included) shifted right.  The count is not reduced
    modulo 32, so any n >= 32 gives 0, and a negative n raises ValueError.
  */
  function UnsignedRightShift(x: int, n: int): (r: Result<int>)
    ensures n < 0 <==> r == Raise(ValueError)
    ensures r.Ok? ==> r.value == (x % Word32) / Pow2(n)
    ensures r.Ok? ==> 0 <= r.value < Word32
    ensures n >= 32 ==> r == Ok(0)
  {
    if n < 0 then Raise(ValueError)
    else
      MaskLow32(x);
      WideCount(n);
      QuotientBounds(x % Word32, Pow2(n), Word32);
      Ok(Bitwise(And, x, Mask32) / Pow2(n))
  }

  /** Shifting one place further halves the result, rounding down. */
  lemma UnsignedRightShiftStep(x: int, n: nat)
    ensures UnsignedRightShift(x, n + 1).value == UnsignedRightShift(x, n).value / 2
  {
    var w := x % Word32;
    var p := Pow2(n);
    var q := w / p;
    DivModUnique(w, 2 * p, q / 2, (q % 2) * p + w % p);
  }

  /** A count of 0 reads the low 32 bits as unsigned: x in [-2^32, 0) becomes x + 2^32. */
  lemma UnsignedRightShiftZero(x: int)
    ensures 0 <= x < Word32 ==> UnsignedRightShift(x, 0) == Ok(x)
    ensures -Word32 <= x < 0 ==> UnsignedRightShift(x, 0) == Ok(x + Word32)
  {
    ShiftByZero(x);
    if 0 <= x < Word32 {
      DivModUnique(x, Word32, 0, x);
    } else if -Word32 <= x < 0 {
      DivModUnique(x, Word32, -1, x + Word32);
    }
  }

  lemma ShiftByZero(x: int)
    ensures UnsignedRightShift(x, 0) == Ok(x % Word32)
  {
    assert Pow2(0) == 1;
  }

  /**
    JavaScript's `>>>` (section 13.9.3 of ECMA-262): the count is taken
    modulo 32 after conversion to an unsigned 32-bit integer, so it is never
    negative and never 32 or more.
  */
  function JsUnsignedRightShift(x: int, n: int): (r: int)
    ensures 0 <= r < Word32
  {
    QuotientBounds(x % Word32, Pow2(n % 32), Word32);
    (x % Word32) / Pow2(n % 32)
  }

  /**
    The two agree on counts 0 to 31, and the JavaScript operator depends on
    the count only modulo 32.
  */
  lemma JsUnsignedRightShiftAgrees(x: int, n: int)
    ensures 0 <= n < 32 ==> UnsignedRightShift(x, n) == Ok(JsUnsignedRightShift(x, n))
    ensures JsUnsignedRightShift(x, n + 32) == JsUnsignedRightShift(x, n)
  {
    assert (n + 32) % 32 == n % 32;
    if 0 <= n < 32 {
      assert n % 32 == n;
    }
  }

  /** `-1 >>> 32` is 0xFFFFFFFF in JavaScript but 0 here; `8 >>> -1` is 0 there and raises here. */
  lemma ShiftCountNotMasked()
    ensures UnsignedRightShift(-1, 32) == Ok(0) && JsUnsignedRightShift(-1, 32) == Mask32
    ensures UnsignedRightShift(8, -1) == Raise(ValueError) && JsUnsignedRightShift(8, -1) == 0
  {
    assert JsUnsignedRightShift(-1, 32) == Mask32 by {
      assert 32 % 32 == 0 && Pow2(0) == 1;
      assert -1 % Word32 == Mask32;
    }
    assert JsUnsignedRightShift(8, -1) == 0 by {
      assert -1 % 32 == 31;
      WideCount(31 + 1);
      Pow2Of32();
      assert Pow2(31) >= 8 + 1;
      assert 8 % Word32 == 8;
    }
  }

  /*
    The `in` operator.
  */

  /** The values whose `str()` this model renders. */
  predicate Scalar(v: Value) {
    v.PyNone? || v.Bool? || v.Int? || v.Str?
  }

  /** Python's `str()` of a scalar: 'None', 'True'/'False', the decimal digits, the string itself. */
  function StrOf(v: Value): string
    requires Scalar(v)
  {
    match v
    case PyNone => "None"
    case Bool(b) => if b then "True" else "False"
    case Int(i) => IntString(i)
    case Str(s) => s
  }

  /** Python's `int()` of a value: booleans are 0 and 1, strings are parsed, the rest raise TypeError. */
  function IntOf(v: Value): (r: Result<int>)
    ensures r.Raise? ==> (r.error == ValueError <==> v.Str?)
    ensures v.Int? ==> r == Ok(v.i)
    ensures v.Bool? ==> r == Ok(if v.b then 1 else 0)
    ensures v.Str? ==> r == IntOfString(v.s)
    ensures !(v.Int? || v.Bool? || v.Str?) <==> r == Raise(TypeError)
  {
    match v
    case Int(i) => Ok(i)
    case Bool(b) => Ok(if b then 1 else 0)
    case Str(s) => IntOfString(s)
    case _ => Raise(TypeError)
  }

  /**
    `js_in_operator(left, right)`: a dict holds `str(left)` as a key; a list
    holds the index `int(left)`, where a ValueError from `int()` means False
    but any other error propagates; any other right operand is a TypeError.
  */
  function JsIn(left: Value, right: Value): (r: Result<bool>)
    requires right.Dict? ==> Scalar(left)
    ensures right.Dict? ==> r == Ok(StrOf(left) in right.entries)
    ensures right.List? && IntOf(left).Ok? ==> r == Ok(0 <= IntOf(left).value < |right.items|)
    ensures right.List? && IntOf(left) == Raise(ValueError) ==> r == Ok(false)
    ensures right.List? && IntOf(left) == Raise(TypeError) ==> r == Raise(TypeError)
    ensures !right.Dict? && !right.List? ==> r == Raise(TypeError)
  {
    match right
    case Dict(m) => Ok(StrOf(left) in m)
    case List(xs) =>
      (match IntOf(left)
       case Ok(index) => Ok(0 <= index < |xs|)
       case Raise(e) => if e == ValueError then Ok(false) else Raise(e))
    case _ => Raise(TypeError)
  }

  /**
    Indexes of a list are found whether written as numbers or as their
    decimal strings.
  */
  lemma JsInListIndex(xs: seq<Value>, i: int)
    ensures JsIn(Int(i), List(xs)) == Ok(0 <= i < |xs|)
    ensures JsIn(Str(IntString(i)), List(xs)) == Ok(0 <= i < |xs|)
  {
    JsInListParsed(xs, Int(i), i);
    IntStringRoundTrip(i);
    JsInListString(xs, IntString(i), i);
  }

  lemma JsInListString(xs: seq<Value>, s: string, i: int)
    requires IntOfString(s) == Ok(i)
    ensures JsIn(Str(s), List(xs)) == Ok(0 <= i < |xs|)
  {
    assert IntOf(Str(s)) == Ok(i);
    JsInListParsed(xs, Str(s), i);
  }

  lemma JsInListParsed(xs: seq<Value>, v: Value, i: int)
    requires IntOf(v) == Ok(i)
    ensures JsIn(v, List(xs)) == Ok(0 <= i < |xs|)
  {
  }

  /**
    A string `int()` rejects is simply absent from a list; `True` counts as
    index 1; `None` is not a number and raises TypeError.
  */
  lemma JsInListOther(xs: seq<Value>, word: string)
    requires |word| > 0 && !IsSpace(word[0]) && !IsDecimal(word[0]) && word[0] != '-' && word[0] != '+'
    ensures JsIn(Str(word), List(xs)) == Ok(false)
    ensures JsIn(Bool(true), List(xs)) == Ok(|xs| >= 2)
    ensures JsIn(PyNone, List(xs)) == Raise(TypeError)
  {
    IntOfStringRejects(word);
  }

  /** Keys of a dict are found by their Python spelling: an integer by its digits, `True` as 'True'. */
  lemma JsInDict(m: map<string, Value>, i: int, k: string)
    ensures JsIn(Str(k), Dict(m)) == Ok(k in m)
    ensures JsIn(Int(i), Dict(m)) == Ok(IntString(i) in m)
    ensures JsIn(Bool(true), Dict(m)) == Ok("True" in m)
    ensures JsIn(Int(i), Dict(m)) == JsIn(Str(IntString(i)), Dict(m))
  {
  }

  /*
    The integer cases of the binary operator table.
  */

  /** The operators the table of `evaluate` dispatches on; any other raises TypeError. */
  const TableOps: set<string> := {"+", "*", "/", "%", "**", "==", "===", "!=", "!==", "<", "<=", ">", ">=",
                                  "|", "&", "^", "<<", ">>", ">>>", "in", "instanceof"}

  const Comparisons: set<string> := {"==", "===", "!=", "!==", "<", "<=", ">", ">="}

  /** a multiplied by itself n times. */
  function Power(a: int, n: nat): int {
    if n == 0 then 1 else a * Power(a, n - 1)
  }

  /** Exponents add: the law that gives `Power` its meaning. */
  lemma {:induction false} PowerAdd(a: int, m: nat, n: nat)
    ensures Power(a, m + n) == Power(a, m) * Power(a, n)
    decreases n
  {
    if n > 0 {
      PowerAdd(a, m, n - 1);
      calc {
        Power(a, m + n);
        a * Power(a, m + n - 1);
        a * (Power(a, m) * Power(a, n - 1));
        Power(a, m) * (a * Power(a, n - 1));
      }
    }
  }

  /** Powers of two are the shifts of 1. */
  lemma {:induction false} PowerOfTwo(n: nat)
    ensures Power(2, n) == Pow2(n)
    decreases n
  {
    if n > 0 {
      PowerOfTwo(n - 1);
    }
  }

  /** `a ** b` on integers: a negative exponent gives a float, or ZeroDivisionError for base 0. */
  function IntPower(a: int, b: int): (r: Result<int>)
    ensures b >= 0 <==> r.Ok?
    ensures b >= 0 ==> r == Ok(Power(a, b))
    ensures b < 0 ==> (a == 0 <==> r == Raise(ZeroDivisionError))
    ensures b < 0 && a != 0 ==> r == Raise(NotAnInteger)
  {
    if b >= 0 then Ok(Power(a, b))
    else if a == 0 then Raise(ZeroDivisionError)
    else Raise(NotAnInteger)
  }

  function Boxed(r: Result<int>): Result<Value> {
    match r
    case Ok(i) => Ok(Int(i))
    case Raise(e) => Raise(e)
  }

  function BoxedBool(r: Result<bool>): Result<Value> {
    match r
    case Ok(x) => Ok(Bool(x))
    case Raise(e) => Raise(e)
  }

  /**
    `evaluate` on a `BinaryExpression` whose operands are both integers,
    as written: there is no branch for '-', so subtraction falls through to
    the final TypeError like any unknown operator.
  */
  function IntBinary(op: string, a: int, b: int): (r: Result<Value>)
    ensures op !in TableOps ==> r == Raise(TypeError)
    ensures op in Comparisons ==> r.Ok? && r.value.Bool?
    ensures op == "/" ==> r == (if b == 0 then Raise(ZeroDivisionError) else Raise(NotAnInteger))
    ensures op == "in" || op == "instanceof" ==> r == Raise(TypeError)
    ensures op == "%" ==> (b == 0 <==> r == Raise(ZeroDivisionError))
    ensures op == "%" && b != 0 ==>
      (r.Ok? && r.value.Int? && (a - r.value.i) % b == 0
       && (b > 0 ==> 0 <= r.value.i < b) && (b < 0 ==> b < r.value.i <= 0))
  {
    if op == "+" then Ok(Int(a + b))
    else if op == "*" then Ok(Int(a * b))
    else if op == "/" then (if b == 0 then Raise(ZeroDivisionError) else Raise(NotAnInteger))
    else if op == "%" then (if b == 0 then Raise(ZeroDivisionError) else Ok(Int(PyMod(a, b))))
    else if op == "**" then Boxed(IntPower(a, b))
    else if op == "==" || op == "===" then Ok(Bool(a == b))
    else if op == "!=" || op == "!==" then Ok(Bool(a != b))
    else if op == "<" then Ok(Bool(a < b))
    else if op == "<=" then Ok(Bool(a <= b))
    else if op == ">" then Ok(Bool(a > b))
    else if op == ">=" then Ok(Bool(a >= b))
    else if op == "|" then Ok(Int(Bitwise(Or, a, b)))
    else if op == "&" then Ok(Int(Bitwise(And, a, b)))
    else if op == "^" then Ok(Int(Bitwise(Xor, a, b)))
    else if op == "<<" then Boxed(ShiftLeft(a, b))
    else if op == ">>" then Boxed(ShiftRight(a, b))
    else if op == ">>>" then Boxed(UnsignedRightShift(a, b))
    else if op == "in" then BoxedBool(JsIn(Int(a), Int(b)))
    else if op == "instanceof" then Raise(TypeError)
    else Raise(TypeError)
  }

  /**
    Strict and loose (in)equality are the same comparison, '!=' is the
    negation of '==', and '>' and '>=' are '<' and '<=' with the operands
    swapped.
  */
  lemma ComparisonsAgree(a: int, b: int)
    ensures IntBinary("===", a, b) == IntBinary("==", a, b)
    ensures IntBinary("!==", a, b) == IntBinary("!=", a, b)
    ensures IntBinary("!=", a, b).value.b == !IntBinary("==", a, b).value.b
    ensures IntBinary(">", a, b) == IntBinary("<", b, a)
    ensures IntBinary(">=", a, b) == IntBinary("<=", b, a)
    ensures IntBinary("<=", a, b).value.b == !IntBinary(">", a, b).value.b
  {
  }

  /**
    The two comparisons the others are tied to by `ComparisonsAgree`: '<'
    and '==' compare the integers' values.
  */
  lemma ComparisonRows(a: int, b: int)
    ensures IntBinary("<", a, b) == Ok(Bool(a < b))
    ensures IntBinary("==", a, b) == Ok(Bool(a == b))
    ensures IntBinary(">", a, b) == Ok(Bool(a > b)) && IntBinary(">=", a, b) == Ok(Bool(a >= b))
    ensures IntBinary("<=", a, b) == Ok(Bool(a <= b)) && IntBinary("!=", a, b) == Ok(Bool(a != b))
  {
    ComparisonsAgree(a, b);
  }

  /**
    The 'in' row hands two integers to `js_in_operator`, whose right operand
    is neither a dict nor a list, so both raise TypeError; 'instanceof'
    calls `isinstance` with an integer as the class, which raises too.
  */
  lemma InRowIsJsIn(a: int, b: int)
    ensures IntBinary("in", a, b) == BoxedBool(JsIn(Int(a), Int(b)))
    ensures JsIn(Int(a), Int(b)) == Raise(TypeError)
    ensures IntBinary("instanceof", a, b) == Raise(TypeError)
  {
  }

  /** The rows of the table for '>>', '>>>' and '**'. */
  lemma ArithmeticRows(a: int, b: int)
    ensures IntBinary(">>", a, b) == Boxed(ShiftRight(a, b))
    ensures IntBinary(">>>", a, b) == Boxed(UnsignedRightShift(a, b))
    ensures IntBinary("**", a, b) == Boxed(IntPower(a, b))
    ensures IntBinary("+", a, b) == Ok(Int(a + b))
  {
  }

  /**
    '<<' by n is '*' by 2^n, and '**' with base 2 is '<<' of 1, so the
    shift, multiplication and power rows of the table agree.
  */
  lemma {:induction false} ShiftIsMultiplication(a: int, n: nat)
    ensures IntBinary("<<", a, n) == IntBinary("*", a, Pow2(n))
    ensures IntBinary("**", 2, n) == IntBinary("<<", 1, n)
    ensures IntBinary("**", a, n + 1) == IntBinary("*", a, IntBinary("**", a, n).value.i)
  {
    ShiftRow(a, n);
    ShiftRow(1, n);
    PowerOfTwo(n);
    PowerAdd(a, 1, n);
  }

  /**
    '%' takes the sign of the divisor (Python), not of the dividend as in
    JavaScript: for a positive divisor it is JavaScript's remainder moved
    into [0, b), so `-1 % 256` is 255 where JavaScript gives -1.
  */
  lemma ModIsFloored(a: int, b: int)
    requires b > 0
    ensures IntBinary("%", a, b) == Ok(Int(if JsRem(a, b) < 0 then JsRem(a, b) + b else JsRem(a, b)))
    ensures IntBinary("%", -1, 256) == Ok(Int(255)) && JsRem(-1, 256) == -1
  {
    FloorVersusTruncated(a, b);
  }

  /** The bitwise operators in the table are Python's: `x & 0xFFFFFFFF` is x mod 2^32 and `x ^ x` is 0. */
  lemma BitwiseInTable(x: int)
    ensures IntBinary("&", x, Mask32) == Ok(Int(x % Word32))
    ensures IntBinary("^", x, x) == Ok(Int(0))
  {
    BitwiseRows(x, Mask32);
    BitwiseRows(x, x);
    MaskLow32(x);
    SelfCombined(x);
  }

  /** The rows of the table for '&', '|' and '^'. */
  lemma BitwiseRows(a: int, b: int)
    ensures IntBinary("&", a, b) == Ok(Int(Bitwise(And, a, b)))
    ensures IntBinary("|", a, b) == Ok(Int(Bitwise(Or, a, b)))
    ensures IntBinary("^", a, b) == Ok(Int(Bitwise(Xor, a, b)))
  {
    AndRow(a, b);
    OrRow(a, b);
    XorRow(a, b);
  }

  lemma AndRow(a: int, b: int)
    ensures IntBinary("&", a, b) == Ok(Int(Bitwise(And, a, b)))
  {
  }

  lemma OrRow(a: int, b: int)
    ensures IntBinary("|", a, b) == Ok(Int(Bitwise(Or, a, b)))
  {
  }

  lemma XorRow(a: int, b: int)
    ensures IntBinary("^", a, b) == Ok(Int(Bitwise(Xor, a, b)))
  {
  }

  /** `<<` is never wrapped to 32 bits: `1 << 40` is 2^40, where JavaScript gives 256. */
  lemma ShiftLeftInTable(x: int, n: nat)
    ensures IntBinary("<<", x, n) == Ok(Int(x * Pow2(n)))
    ensures IntBinary("<<", 1, 40) == Ok(Int(Pow2(32) * 256))
  {
    ShiftRow(x, n);
    ShiftRow(1, 40);
    assert Pow2(40) == Pow2(32) * 256 by {
      Pow2Add(32, 8);
    }
  }

  /** The row of the table for '<<'. */
  lemma ShiftRow(a: int, b: int)
    ensures IntBinary("<<", a, b) == Boxed(ShiftLeft(a, b))
  {
  }

  lemma {:induction false} Pow2Add(m: nat, n: nat)
    ensures Pow2(m + n) == Pow2(m) * Pow2(n)
    decreases n
  {
    if n > 0 {
      Pow2Add(m, n - 1);
    }
  }

  /** Subtraction is missing from the table: `a - b` raises TypeError for every pair of integers. */
  lemma SubtractionUnknown(a: int, b: int)
    ensures IntBinary("-", a, b) == Raise(TypeError)
  {
  }

  /** The table with the '-' branch it evidently lacks. */
  function IntBinaryWithMinus(op: string, a: int, b: int): (r: Result<Value>)
    ensures op == "-" ==> r == Ok(Int(a - b))
    ensures op != "-" ==> r == IntBinary(op, a, b)
  {
    if op == "-" then Ok(Int(a - b)) else IntBinary(op, a, b)
  }

  /** With the branch, '-' undoes '+', and every integer operator outside TypeError's reach yields a result. */
  lemma MinusUndoesPlus(a: int, b: int)
    ensures IntBinaryWithMinus("-", IntBinary("+", a, b).value.i, b) == Ok(Int(a))
    ensures IntBinaryWithMinus("+", IntBinaryWithMinus("-", a, b).value.i, b) == Ok(Int(a))
  {
  }

  /**
    One byte of `decryptArrHash` as this interpreter evaluates it: as
    written `array[i] - key` already raises TypeError; with the '-' branch,
    `(array[i] - key) % 256` is the floored byte of the keystream model.
  */
  lemma DecryptByteUnderInterpreter(cipher: seq<int>, seed: int, i: nat)
    requires i < |cipher|
    ensures var key := Keystream.PyIterate(i + 1, Keystream.PyNormalize(seed));
      && IntBinary("-", cipher[i], key) == Raise(TypeError)
      && IntBinaryWithMinus("%", IntBinaryWithMinus("-", cipher[i], key).value.i, 256)
        == Ok(Int(Keystream.PyPlain(cipher, seed)[i]))
  {
  }

  /*
    Logical operators.
  */

  /**
    `evaluate` on a `LogicalExpression`: both operands are evaluated first,
    left then right, so an error in either propagates even when the left
    one decides the answer; then '||' and '&&' pick an operand by Python
    truthiness and '??' keeps the left unless it is None.
  */
  function Logical(op: string, left: Result<Value>, right: Result<Value>): (r: Result<Value>)
    ensures left.Raise? ==> r == Raise(left.error)
    ensures left.Ok? && right.Raise? ==> r == Raise(right.error)
    ensures left.Ok? && right.Ok? && op !in {"||", "&&", "??"} ==> r == Raise(TypeError)
    ensures left.Ok? && right.Ok? && op in {"||", "&&", "??"} ==> r.Ok? && (r.value == left.value || r.value == right.value)
    ensures left.Ok? && right.Ok? && op == "||" ==> (Truthy(r.value) <==> Truthy(left.value) || Truthy(right.value))
    ensures left.Ok? && right.Ok? && op == "&&" ==> (Truthy(r.value) <==> Truthy(left.value) && Truthy(right.value))
    ensures left.Ok? && right.Ok? && op == "??" ==> (r.value == left.value <==> left.value != PyNone || right.value == PyNone)
  {
    var l :- left;
    var v :- right;
    if op == "||" then Ok(if Truthy(l) then l else v)
    else if op == "&&" then Ok(if Truthy(l) then v else l)
    else if op == "??" then Ok(if l != PyNone then l else v)
    else Raise(TypeError)
  }

  /**
    JavaScript's short-circuiting reading (section 13.13 of ECMA-262): the
    right operand is evaluated only when the left does not decide.
  */
  function ShortCircuit(op: string, left: Result<Value>, right: Result<Value>): Result<Value> {
    var l :- left;
    if op == "||" then (if Truthy(l) then Ok(l) else right)
    else if op == "&&" then (if Truthy(l) then right else Ok(l))
    else if op == "??" then (if l != PyNone then Ok(l) else right)
    else Raise(TypeError)
  }

  /**
    When evaluating the right operand succeeds the two readings agree; when
    it fails they differ exactly in the cases the left operand decides.
  */
  lemma LogicalVersusShortCircuit(op: string, left: Result<Value>, right: Result<Value>)
    requires op in {"||", "&&", "??"}
    ensures right.Ok? ==> Logical(op, left, right) == ShortCircuit(op, left, right)
    ensures left.Ok? && right.Raise? ==>
      (Logical(op, left, right) != ShortCircuit(op, left, right) <==>
        (op == "||" && Truthy(left.value)) || (op == "&&" && !Truthy(left.value))
        || (op == "??" && left.value != PyNone))
  {
  }

  /** `0 ?? x` keeps 0 while `0 || x` gives x: only None is nullish. */
  lemma NullishVersusOr(x: Value)
    ensures Logical("??", Ok(Int(0)), Ok(x)) == Ok(Int(0))
    ensures Logical("||", Ok(Int(0)), Ok(x)) == Ok(x)
    ensures Logical("??", Ok(PyNone), Ok(x)) == Ok(x)
  {
  }
}

=== FILE: pytext.dfy ===
/**
  The Python `str` operations the modelled code leans on: `isspace`,
  `lstrip`/`strip`, `split(sep)`, `split(sep, 1)`, `split()`, `count`,
  `upper` and `int(str)`.
*/
module PyText {
  import opened Wrappers

  /** Python's `str.isspace` for one character. */
  predicate IsSpace(c: char) {
    var n := c as int;
    || 0x09 <= n <= 0x0D || 0x1C <= n <= 0x20
    || n == 0x85 || n == 0xA0 || n == 0x1680
    || 0x2000 <= n <= 0x200A || n == 0x2028 || n == 0x2029
    || n == 0x202F || n == 0x205F || n == 0x3000
  }

  predicate NoSpace(s: string) {
    forall i :: 0 <= i < |s| ==> !IsSpace(s[i])
  }

  /** `s.lstrip()`: the suffix of `s` after its leading whitespace. */
  function LStrip(s: string): (t: string)
    ensures |t| <= |s| && t == s[|s| - |t|..]
    ensures forall i :: 0 <= i < |s| - |t| ==> IsSpace(s[i])
    ensures |t| > 0 ==> !IsSpace(t[0])
  {
    if |s| > 0 && IsSpace(s[0]) then LStrip(s[1..]) else s
  }

  /** `s.rstrip()`: the prefix of `s` before its trailing whitespace. */
  function RStrip(s: string): (t: string)
    ensures |t| <= |s| && t == s[..|t|]
    ensures forall i :: |t| <= i < |s| ==> IsSpace(s[i])
    ensures |t| > 0 ==> !IsSpace(t[|t| - 1])
  {
    if |s| > 0 && IsSpace(s[|s| - 1]) then RStrip(s[..|s| - 1]) else s
  }

  function Strip(s: string): string {
    RStrip(LStrip(s))
  }

  /** `sep` occurs in `s` at index `j`. */
  predicate OccursAt(s: string, sep: string, j: int) {
    0 <= j && j + |sep| <= |s| && s[j..j + |sep|] == sep
  }

  /** The index of the leftmost occurrence of `sep` in `s` (`str.find`). */
  function Find(s: string, sep: string): (r: Option<nat>)
    requires |sep| > 0
    ensures r.Some? ==> OccursAt(s, sep, r.value)
    ensures r.Some? ==> forall j :: 0 <= j < r.value ==> !OccursAt(s, sep, j)
    ensures r.None? ==> forall j :: 0 <= j ==> !OccursAt(s, sep, j)
    decreases |s|
  {
    if |s| < |sep| then None
    else if s[..|sep|] == sep then Some(0)
    else
      var r := Find(s[1..], sep);
      ShiftOccurrence(s, sep);
      assert s[0..|sep|] == s[..|sep|];
      match r
      case None => None
      case Some(i) => Some(i + 1)
  }

  lemma ShiftOccurrence(s: string, sep: string)
    requires |s| > 0
    ensures forall j :: 1 <= j ==> (OccursAt(s, sep, j) <==> OccursAt(s[1..], sep, j - 1))
  {
    forall j | 1 <= j && OccursAt(s, sep, j)
      ensures OccursAt(s[1..], sep, j - 1)
    {
      assert s[1..][j - 1..j - 1 + |sep|] == s[j..j + |sep|];
    }
    forall j | 1 <= j && OccursAt(s[1..], sep, j - 1)
      ensures OccursAt(s, sep, j)
    {
      assert s[1..][j - 1..j - 1 + |sep|] == s[j..j + |sep|];
    }
  }

  ghost predicate Contains(s: string, sep: string) {
    exists j :: OccursAt(s, sep, j)
  }

  /** Python's `s.split(sep)` for a non-empty separator. */
  function Split(s: string, sep: string): (parts: seq<string>)
    requires |sep| > 0
    ensures |parts| >= 1
    decreases |s|
  {
    match Find(s, sep)
    case None => [s]
    case Some(i) => [s[..i]] + Split(s[i + |sep|..], sep)
  }

  /** The inverse of `Split`: `sep.join(parts)`. */
  function Join(parts: seq<string>, sep: string): string {
    if |parts| == 0 then ""
    else if |parts| == 1 then parts[0]
    else parts[0] + sep + Join(parts[1..], sep)
  }

  /** A prefix that ends before the first occurrence of `sep` does not contain it. */
  lemma PrefixFree(s: string, sep: string, i: nat)
    requires |sep| > 0 && i <= |s|
    requires forall j :: 0 <= j < i ==> !OccursAt(s, sep, j)
    ensures !Contains(s[..i], sep)
  {
    forall j | OccursAt(s[..i], sep, j)
      ensures false
    {
      assert s[..i][j..j + |sep|] == s[j..j + |sep|];
      assert OccursAt(s, sep, j);
    }
  }

  /** Splitting loses nothing: joining the parts with the separator gives the input back. */
  lemma {:induction false} SplitJoin(s: string, sep: string)
    requires |sep| > 0
    ensures Join(Split(s, sep), sep) == s
    decreases |s|
  {
    match Find(s, sep)
    case None =>
    case Some(i) =>
      var rest := s[i + |sep|..];
      var tail := Split(rest, sep);
      SplitJoin(rest, sep);
      var parts := [s[..i]] + tail;
      assert parts[1..] == tail;
      assert Join(parts, sep) == s[..i] + sep + Join(tail, sep);
      assert s == s[..i] + s[i..i + |sep|] + rest;
  }

  /** No part of a split contains the separator. */
  lemma {:induction false} SplitPartsFree(s: string, sep: string)
    requires |sep| > 0
    ensures forall k :: 0 <= k < |Split(s, sep)| ==> !Contains(Split(s, sep)[k], sep)
    decreases |s|
  {
    match Find(s, sep)
    case None =>
      forall j | OccursAt(s, sep, j)
        ensures false
      {
      }
    case Some(i) =>
      var rest := s[i + |sep|..];
      SplitPartsFree(rest, sep);
      PrefixFree(s, sep, i);
      var parts := Split(s, sep);
      assert parts == [s[..i]] + Split(rest, sep);
      forall k | 0 <= k < |parts|
        ensures !Contains(parts[k], sep)
      {
        if k > 0 {
          assert parts[k] == Split(rest, sep)[k - 1];
        }
      }
  }

  /** Python's `s.split(sep, 1)`: the text before and after the first separator. */
  function SplitOnce(s: string, sep: string): (parts: seq<string>)
    requires |sep| > 0
    ensures 1 <= |parts| <= 2
    ensures |parts| == 1 <==> !Contains(s, sep)
    ensures |parts| == 2 ==> s == parts[0] + sep + parts[1] && !Contains(parts[0], sep)
  {
    match Find(s, sep)
    case None => [s]
    case Some(i) =>
      assert s == s[..i] + s[i..i + |sep|] + s[i + |sep|..];
      PrefixFree(s, sep, i);
      [s[..i], s[i + |sep|..]]
  }

  /** Find locates `sep` at |a| when no earlier position of `a + sep + b` can start it. */
  lemma FindAfterFree(a: string, sep: string, b: string)
    requires |sep| > 0 && sep[0] !in a
    ensures Find(a + sep + b, sep) == Some(|a|)
  {
    var s := a + sep + b;
    assert s[|a|..|a| + |sep|] == sep;
    assert OccursAt(s, sep, |a|);
    forall j | 0 <= j < |a|
      ensures !OccursAt(s, sep, j)
    {
      assert s[j] == a[j];
      if j + |sep| <= |s| {
        assert s[j..j + |sep|][0] == s[j];
      }
    }
  }

  /** A text without the separator's first character splits into itself alone. */
  lemma SplitWithout(s: string, sep: string)
    requires |sep| > 0 && sep[0] !in s
    ensures Split(s, sep) == [s]
    ensures SplitOnce(s, sep) == [s]
  {
    assert forall j :: !OccursAt(s, sep, j) by {
      forall j | 0 <= j && j + |sep| <= |s|
        ensures s[j..j + |sep|][0] == s[j]
      {
      }
    }
  }

  /** Splitting `a + sep + b` where `a` cannot start a separator: `a`, then the parts of `b`. */
  lemma SplitAfterFree(a: string, sep: string, b: string)
    requires |sep| > 0 && sep[0] !in a
    ensures Split(a + sep + b, sep) == [a] + Split(b, sep)
    ensures SplitOnce(a + sep + b, sep) == [a, b]
  {
    var s := a + sep + b;
    FindAfterFree(a, sep, b);
    assert s[..|a|] == a;
    assert s[|a| + |sep|..] == b;
  }

  /** The first part of a split is the text before the first separator, which it does not contain. */
  lemma SplitHead(s: string, sep: string)
    requires |sep| > 0
    ensures !Contains(Split(s, sep)[0], sep)
    ensures |Split(s, sep)| >= 2 <==> Contains(s, sep)
    ensures |Split(s, sep)| >= 2 ==> OccursAt(s, sep, |Split(s, sep)[0]|) && s[..|Split(s, sep)[0]|] == Split(s, sep)[0]
  {
    SplitPartsFree(s, sep);
    match Find(s, sep)
    case None =>
      assert Split(s, sep) == [s];
    case Some(i) =>
      assert Split(s, sep)[0] == s[..i];
  }

  /**
    The second part of a split is the text after the first separator, up to
    the next one or the end: no separator starts inside it, and one starts
    right after it unless it runs to the end.
  */
  lemma SplitSecond(s: string, sep: string) returns (p: nat, e: nat)
    requires |sep| > 0 && Contains(s, sep)
    ensures |Split(s, sep)| >= 2
    ensures p == |Split(s, sep)[0]| + |sep| && e == p + |Split(s, sep)[1]|
    ensures e <= |s| && s[p..e] == Split(s, sep)[1]
    ensures forall j :: p <= j < e ==> !OccursAt(s, sep, j)
    ensures e == |s| || OccursAt(s, sep, e)
  {
    SplitHead(s, sep);
    var i := Find(s, sep).value;
    p := i + |sep|;
    var after := s[p..];
    assert Split(s, sep) == [s[..i]] + Split(after, sep);
    var k := FirstPiece(after, sep);
    e := p + k;
    FirstPieceFree(s, sep, p, k);
    if k < |after| {
      OccursInSuffix(s, sep, p, e);
    }
  }

  /** The first part of a split ends at the first separator, or at the end when there is none. */
  lemma FirstPiece(s: string, sep: string) returns (k: nat)
    requires |sep| > 0
    ensures k == |Split(s, sep)[0]| && k <= |s| && s[..k] == Split(s, sep)[0]
    ensures forall j :: 0 <= j < k ==> !OccursAt(s, sep, j)
    ensures k == |s| || OccursAt(s, sep, k)
  {
    match Find(s, sep)
    case None =>
      k := |s|;
    case Some(f) =>
      k := f;
  }

  /** No occurrence in the suffix from `p` before `k` is none in `s` between `p` and `p + k`. */
  lemma FirstPieceFree(s: string, sep: string, p: nat, k: nat)
    requires p + k <= |s|
    requires forall j :: 0 <= j < k ==> !OccursAt(s[p..], sep, j)
    ensures forall j :: p <= j < p + k ==> !OccursAt(s, sep, j)
    ensures s[p..][..k] == s[p..p + k]
  {
    forall j | p <= j < p + k
      ensures !OccursAt(s, sep, j)
    {
      OccursInSuffix(s, sep, p, j);
    }
  }

  /** A string is the concatenation of its pieces between three cut points. */
  lemma Reassemble(s: string, a: nat, b: nat, c: nat)
    requires a <= b <= c <= |s|
    ensures s == s[..a] + s[a..b] + s[b..c] + s[c..]
  {
    assert s[..c] == s[..a] + s[a..b] + s[b..c];
    assert s == s[..c] + s[c..];
  }

  /** An occurrence at `j` is one at `j - p` in the text from `p` on. */
  lemma OccursInSuffix(s: string, sep: string, p: nat, j: int)
    requires p <= |s| && p <= j
    ensures OccursAt(s, sep, j) <==> OccursAt(s[p..], sep, j - p)
  {
    if j + |sep| <= |s| {
      assert s[p..][j - p..j - p + |sep|] == s[j..j + |sep|];
    }
  }

  /** Splitting on one character gives one part more than the character occurs. */
  lemma {:induction false} SplitCount(s: string, sep: string)
    requires |sep| == 1
    ensures |Split(s, sep)| == Count(s, sep[0]) + 1
    decreases |s|
  {
    var f := Find(s, sep);
    if f.None? {
      assert Split(s, sep) == [s];
      assert sep == [sep[0]];
      NoCharNotContained(s, sep[0]);
    } else {
      var i := f.value;
      var rest := s[i + 1..];
      SplitCount(rest, sep);
      SplitAtFirst(s, sep, i);
      CountAround(s[..i], sep[0], rest);
    }
  }

  /** The pieces around the first occurrence of a one-character separator. */
  lemma SplitAtFirst(s: string, sep: string, i: nat)
    requires |sep| == 1 && Find(s, sep) == Some(i)
    ensures i < |s| && s == s[..i] + [sep[0]] + s[i + 1..]
    ensures sep[0] !in s[..i]
    ensures Split(s, sep) == [s[..i]] + Split(s[i + 1..], sep)
  {
    assert sep == [sep[0]];
    assert s[i..i + 1] == sep;
    PrefixFree(s, sep, i);
    NoCharNotContained(s[..i], sep[0]);
  }

  /** A character `c` between two pieces adds one to their counts. */
  lemma CountAround(a: string, c: char, b: string)
    ensures Count(a + [c] + b, c) == Count(a, c) + 1 + Count(b, c)
  {
    assert a + [c] + b == a + ([c] + b);
    CountConcat(a, [c] + b, c);
    assert ([c] + b)[1..] == b;
  }

  /** A string that does not contain the one-character string [c] does not contain c. */
  lemma NoCharNotContained(s: string, c: char)
    requires !Contains(s, [c])
    ensures c !in s
  {
    forall j | 0 <= j < |s|
      ensures s[j] != c
    {
      assert s[j..j + 1] == [s[j]];
      assert !OccursAt(s, [c], j);
    }
  }

  lemma CountConcat(a: string, b: string, c: char)
    ensures Count(a + b, c) == Count(a, c) + Count(b, c)
  {
    if |a| > 0 {
      assert (a + b)[1..] == a[1..] + b;
      CountConcat(a[1..], b, c);
    } else {
      assert a + b == b;
    }
  }

  /** Python's `s.count(c)` for a one-character argument. */
  function Count(s: string, c: char): (n: nat)
    ensures n <= |s|
    ensures n == 0 <==> c !in s
  {
    if |s| == 0 then 0
    else (if s[0] == c then 1 else 0) + Count(s[1..], c)
  }

  /** The length of the run of non-whitespace characters at the head of `s`. */
  function WordLength(s: string): (n: nat)
    ensures n <= |s|
    ensures NoSpace(s[..n])
    ensures n < |s| ==> IsSpace(s[n])
  {
    if |s| == 0 || IsSpace(s[0]) then 0 else 1 + WordLength(s[1..])
  }

  /** Python's `s.split()`: the maximal runs of non-whitespace characters. */
  function Words(s: string): (words: seq<string>)
    ensures forall w <- words :: |w| > 0 && NoSpace(w)
    decreases |s|
  {
    var t := LStrip(s);
    if |t| == 0 then []
    else
      FirstWord(s);
      var n := WordLength(t);
      var first := t[..n];
      var rest := Words(t[n..]);
      assert forall w <- [first] + rest :: w == first || w in rest;
      [first] + rest
  }

  /** The first word of `s` is non-empty and free of whitespace, and what follows it is shorter than `s`. */
  lemma FirstWord(s: string)
    requires |LStrip(s)| > 0
    ensures var t := LStrip(s); var n := WordLength(t);
      && 0 < n <= |t| && |t[n..]| < |s| && |t[..n]| > 0 && NoSpace(t[..n])
  {
  }

  /** Python's `str.upper` on ASCII letters; other characters are unchanged. */
  function UpperChar(c: char): char {
    if 'a' <= c <= 'z' then (c as int - 32) as char else c
  }

  function Upper(s: string): (u: string)
    ensures |u| == |s|
    ensures forall i :: 0 <= i < |s| ==> u[i] == UpperChar(s[i])
  {
    seq(|s|, i requires 0 <= i < |s| => UpperChar(s[i]))
  }

  predicate IsDecimal(c: char) {
    '0' <= c <= '9'
  }

  /**
    The value of a digit in bases up to 36: 0-9, then a-z or A-Z as 10-35;
    every other character gets 36, a value no base accepts.
  */
  function DigitValue(c: char): (v: nat)
    ensures v <= 36
  {
    if '0' <= c <= '9' then c as int - '0' as int
    else if 'a' <= c <= 'z' then c as int - 'a' as int + 10
    else if 'A' <= c <= 'Z' then c as int - 'A' as int + 10
    else 36
  }

  /** The number the digit string `s` denotes in base `radix`, most significant digit first. */
  function DigitsValue(s: string, radix: nat): nat
    requires AllDigits(s, radix)
  {
    if |s| == 0 then 0
    else DigitsValue(s[..|s| - 1], radix) * radix + DigitValue(s[|s| - 1])
  }

  /** Every character of `s` is a digit below `radix`. */
  predicate AllDigits(s: string, radix: nat) {
    forall i :: 0 <= i < |s| ==> DigitValue(s[i]) < radix
  }

  /**
    The decimal digits of a Python integer literal body: ASCII digits with
    single underscores allowed between them (`int("1_000") == 1000`).
  */
  predicate DecimalBody(s: string) {
    && |s| > 0
    && IsDecimal(s[0]) && IsDecimal(s[|s| - 1])
    && (forall i :: 0 <= i < |s| ==> IsDecimal(s[i]) || s[i] == '_')
    && NoDoubleUnderscore(s)
  }

  /** No '_' directly follows another. */
  predicate NoDoubleUnderscore(s: string) {
    |s| < 2 || (!(s[0] == '_' && s[1] == '_') && NoDoubleUnderscore(s[1..]))
  }

  function RemoveUnderscores(s: string): (d: string)
    ensures forall i :: 0 <= i < |d| ==> d[i] != '_'
    ensures |d| <= |s|
    ensures (forall i :: 0 <= i < |s| ==> IsDecimal(s[i]) || s[i] == '_') ==>
      forall i :: 0 <= i < |d| ==> IsDecimal(d[i])
  {
    if |s| == 0 then ""
    else if s[0] == '_' then RemoveUnderscores(s[1..])
    else [s[0]] + RemoveUnderscores(s[1..])
  }

  /**
    Python's `int(s)` on a string, in base 10: surrounding whitespace is
    stripped, one optional sign is accepted; anything else raises ValueError.
  */
  function IntOfString(s: string): (r: Result<int>)
    ensures r.Raise? ==> r.error == ValueError
  {
    var t := Strip(s);
    var negative := |t| > 0 && t[0] == '-';
    var body := if |t| > 0 && (t[0] == '-' || t[0] == '+') then t[1..] else t;
    if DecimalBody(body) then
      var digits := RemoveUnderscores(body);
      LiteralDigits(body);
      var v: int := DigitsValue(digits, 10);
      Ok(if negative then -v else v)
    else Raise(ValueError)
  }

  /** With its underscores removed, a literal body is all decimal digits. */
  lemma LiteralDigits(body: string)
    requires DecimalBody(body)
    ensures AllDigits(RemoveUnderscores(body), 10)
  {
    var d := RemoveUnderscores(body);
    assert forall i :: 0 <= i < |d| ==> IsDecimal(d[i]);
  }

  /** The decimal digits of a natural number (`str(n)` for n >= 0). */
  function DecimalString(n: nat): (s: string)
    ensures |s| > 0
    ensures forall i :: 0 <= i < |s| ==> IsDecimal(s[i]) && DigitValue(s[i]) < 10
    ensures DigitsValue(s, 10) == n
    decreases n
  {
    var last := [(48 + n % 10) as char];
    if n < 10 then last
    else
      var s := DecimalString(n / 10) + last;
      assert s[..|s| - 1] == DecimalString(n / 10);
      s
  }

  /** Python's `str(i)` for an integer. */
  function IntString(i: int): string {
    if i < 0 then "-" + DecimalString(-i) else DecimalString(i)
  }

  /** Reading `str(i)` back with `int()` gives `i`. */
  lemma IntStringRoundTrip(i: int)
    ensures IntOfString(IntString(i)) == Ok(i)
  {
    if i < 0 {
      NegativeDigits(DecimalString(-i));
    } else {
      UnsignedDigits(DecimalString(i));
    }
  }

  /** Plain decimal digits read as their value. */
  lemma UnsignedDigits(d: string)
    requires |d| > 0 && forall i :: 0 <= i < |d| ==> IsDecimal(d[i])
    ensures AllDigits(d, 10) && IntOfString(d) == Ok(DigitsValue(d, 10))
  {
    NothingToStrip(d);
    PlainDigits(d);
    StrippedUnsigned(d);
  }

  /** '-' and plain decimal digits read as the negated value of the digits. */
  lemma NegativeDigits(d: string)
    requires |d| > 0 && forall i :: 0 <= i < |d| ==> IsDecimal(d[i])
    ensures AllDigits(d, 10) && IntOfString("-" + d) == Ok(-(DigitsValue(d, 10) as int))
  {
    var s := "-" + d;
    assert s[|s| - 1] == d[|d| - 1] && s[1..] == d;
    NothingToStrip(s);
    PlainDigits(d);
    StrippedNegative(s, d);
  }

  /** `int()` of an unsigned literal with nothing to strip reads its digits in base 10. */
  lemma StrippedUnsigned(s: string)
    requires Strip(s) == s && DecimalBody(s) && RemoveUnderscores(s) == s && AllDigits(s, 10)
    ensures IntOfString(s) == Ok(DigitsValue(s, 10))
  {
    assert Strip(s)[0] == s[0] && IsDecimal(s[0]);
    assert !(Strip(s)[0] == '-' || Strip(s)[0] == '+');
  }

  /** `int()` of '-' and a literal, with nothing to strip, is the negated value of the literal. */
  lemma StrippedNegative(s: string, body: string)
    requires Strip(s) == s && |s| > 0 && s[0] == '-' && body == s[1..]
    requires DecimalBody(body) && RemoveUnderscores(body) == body && AllDigits(body, 10)
    ensures IntOfString(s) == Ok(-(DigitsValue(body, 10) as int))
  {
  }

  /** Plain digits are a literal body with nothing to remove. */
  lemma PlainDigits(d: string)
    requires |d| > 0 && forall i :: 0 <= i < |d| ==> IsDecimal(d[i])
    ensures DecimalBody(d) && RemoveUnderscores(d) == d
  {
    DigitsHaveNoUnderscores(d);
    NoUnderscoreUnchanged(d);
  }

  lemma NothingToStrip(s: string)
    requires |s| > 0 && !IsSpace(s[0]) && !IsSpace(s[|s| - 1])
    ensures Strip(s) == s
  {
    assert LStrip(s) == s;
    assert RStrip(s) == s;
  }

  lemma {:induction false} NoUnderscoreUnchanged(s: string)
    requires forall i :: 0 <= i < |s| ==> IsDecimal(s[i])
    ensures RemoveUnderscores(s) == s
  {
    if |s| > 0 {
      NoUnderscoreUnchanged(s[1..]);
    }
  }

  lemma {:induction false} DigitsHaveNoUnderscores(s: string)
    requires forall i :: 0 <= i < |s| ==> IsDecimal(s[i])
    ensures NoDoubleUnderscore(s)
  {
    if |s| >= 2 {
      DigitsHaveNoUnderscores(s[1..]);
    }
  }

  /** A string whose first character is neither whitespace, a sign nor a digit is rejected by `int()`. */
  lemma IntOfStringRejects(v: string)
    requires |v| > 0 && !IsSpace(v[0]) && !IsDecimal(v[0]) && v[0] != '-' && v[0] != '+'
    ensures IntOfString(v) == Raise(ValueError)
  {
    assert LStrip(v) == v;
    var t := RStrip(v);
    assert |t| > 0 && t[0] == v[0];
  }
}

=== FILE: remainders.dfy ===
/**
  The two integer remainders that meet in this repository: JavaScript's `%`
  (truncated, sign of the dividend) and Python's `%` (floored, sign of the
  divisor), which is how the interpreter evaluates JavaScript's `%`.
*/
module Remainders {

  function Abs(x: int): nat {
    if x < 0 then -x else x
  }

  /**
    JavaScript `%` on integral numbers: the truncated remainder, which takes
    the sign of the dividend (section 6.1.6.1.6 of ECMA-262).  The ensures
    clauses pin the result down uniquely (see `ResidueUnique`).
  */
  function JsRem(a: int, b: int): (r: int)
    requires b != 0
    ensures (a - r) % b == 0
    ensures Abs(r) < Abs(b)
    ensures a >= 0 ==> r >= 0
    ensures a <= 0 ==> r <= 0
  {
    TruncatedRemainder(a, b);
    if a >= 0 then a % Abs(b) else -((-a) % Abs(b))
  }

  lemma TruncatedRemainder(a: int, b: int)
    requires b != 0
    ensures var r := if a >= 0 then a % Abs(b) else -((-a) % Abs(b));
      (a - r) % b == 0 && Abs(r) < Abs(b)
  {
    var m := Abs(b);
    if a >= 0 {
      QuotientSplit(a, m);
      MultipleOfAbs(a / m, b);
    } else {
      QuotientSplit(-a, m);
      assert a + (-a) % m == (-((-a) / m)) * m;
      MultipleOfAbs(-((-a) / m), b);
    }
  }

  /** What Euclidean division leaves after the remainder is removed. */
  lemma QuotientSplit(a: int, m: int)
    requires m > 0
    ensures a - a % m == (a / m) * m
  {
  }

  /**
    Python `%` on integers: the floor remainder, which takes the sign of the
    divisor.  This is how the interpreter of this repository evaluates `%`.
  */
  function PyMod(a: int, b: int): (r: int)
    requires b != 0
    ensures (a - r) % b == 0
    ensures b > 0 ==> 0 <= r < b
    ensures b < 0 ==> b < r <= 0
  {
    FloorRemainder(a, b);
    if b > 0 || a % b == 0 then a % b else a % b + b
  }

  lemma FloorRemainder(a: int, b: int)
    requires b != 0
    ensures var r := if b > 0 || a % b == 0 then a % b else a % b + b;
      (a - r) % b == 0
  {
    assert a - a % b == (a / b) * b;
    MultipleOf(a / b, b);
    if b < 0 && a % b != 0 {
      assert a - (a % b + b) == (a / b - 1) * b;
      MultipleOf(a / b - 1, b);
    }
  }

  /** Euclidean division is unique: any quotient-remainder pair is the one Dafny computes. */
  lemma DivModUnique(a: int, b: int, q: int, r: int)
    requires b != 0
    requires a == q * b + r
    requires 0 <= r < Abs(b)
    ensures a / b == q
    ensures a % b == r
  {
    var q' := a / b;
    assert (q - q') * b == a % b - r;
    MulAbs(q - q', b);
  }

  lemma MultipleOf(q: int, b: int)
    requires b != 0
    ensures (q * b) % b == 0
  {
    DivModUnique(q * b, b, q, 0);
  }

  lemma MultipleOfAbs(q: int, b: int)
    requires b != 0
    ensures (q * Abs(b)) % b == 0
  {
    if b < 0 {
      assert q * Abs(b) == (-q) * b;
      MultipleOf(-q, b);
    } else {
      MultipleOf(q, b);
    }
  }

  /** A non-zero multiple of `b` is at least `Abs(b)` away from zero. */
  lemma MulAbs(q: int, b: int)
    requires b != 0
    ensures q != 0 ==> Abs(q * b) >= Abs(b)
  {
    if q > 0 && b > 0 {
      assert q * b >= b;
    } else if q > 0 {
      assert q * b <= b;
    } else if q < 0 && b > 0 {
      assert q * b <= -b;
    } else if q < 0 {
      assert q * b >= -b;
    }
  }

  /**
    Two numbers congruent modulo `b` that lie in one window of fewer than
    `Abs(b)` consecutive integers are equal.
  */
  lemma ResidueUnique(x: int, y: int, b: int)
    requires b != 0
    requires (x - y) % b == 0
    requires Abs(x - y) < Abs(b)
    ensures x == y
  {
    var d := x - y;
    assert d == (d / b) * b;
    MulAbs(d / b, b);
  }

  lemma NegDivisible(x: int, b: int)
    requires b > 0 && x % b == 0
    ensures (-x) % b == 0
  {
    assert x == (x / b) * b;
    assert -x == (-(x / b)) * b;
    MultipleOf(-(x / b), b);
  }

  /**
    The floor remainder and the truncated remainder differ by exactly the
    divisor when they differ at all: for a positive divisor the floor result
    is the truncated one, plus the divisor when the latter is negative.
  */
  lemma FloorVersusTruncated(a: int, b: int)
    requires b > 0
    ensures PyMod(a, b) == (if JsRem(a, b) < 0 then JsRem(a, b) + b else JsRem(a, b))
  {
    RemaindersMeet(a, b, JsRem(a, b), PyMod(a, b));
  }

  /** The same fact about any two numbers with the defining properties of the two remainders. */
  lemma RemaindersMeet(a: int, b: int, j: int, p: int)
    requires b > 0
    requires (a - j) % b == 0 && -b < j < b
    requires (a - p) % b == 0 && 0 <= p < b
    ensures p == (if j < 0 then j + b else j)
  {
    var q := if j < 0 then j + b else j;
    assert (q - j) % b == 0 by {
      if j < 0 {
        assert q - j == 1 * b;
      }
    }
    CongruenceTransitive(a, p, j, q, b);
    ResidueUnique(p, q, b);
  }

  /** A number congruent to `a` through an intermediate value, and within [0, b), is `a % b`. */
  lemma ResidueThrough(a: int, mid: int, k: int, b: int)
    requires b > 0
    requires (a - mid) % b == 0 && (mid + b - k) % b == 0
    requires 0 <= k < b
    ensures k == a % b
  {
    var x := (a - mid) / b;
    var y := (mid + b - k) / b;
    assert a - mid == x * b;
    assert mid + b - k == y * b;
    assert a == (x + y - 1) * b + k;
    DivModUnique(a, b, x + y - 1, k);
  }

  lemma CongruenceTransitive(a: int, p: int, j: int, q: int, b: int)
    requires b > 0
    requires (a - p) % b == 0 && (a - j) % b == 0 && (q - j) % b == 0
    ensures (p - q) % b == 0
  {
    var x := (a - p) / b;
    var y := (a - j) / b;
    var z := (q - j) / b;
    assert a - p == x * b;
    assert a - j == y * b;
    assert q - j == z * b;
    assert p - q == (y - x - z) * b;
    MultipleOf(y - x - z, b);
  }

}

=== FILE: values.dfy ===
/** The runtime values the modelled pieces of the interpreter pass around. */
module Values {

  /**
    A Python value as the interpreter uses it to represent a JavaScript one:
    `None`, booleans, integers, strings, lists, dicts with string keys, and
    instances of the `Object` class of js_properties.py (own properties plus
    a `__proto__`).
  */
  datatype Value =
    | PyNone
    | Bool(b: bool)
    | Int(i: int)
    | Str(s: string)
    | List(items: seq<Value>)
    | Dict(entries: map<string, Value>)
    | Object(props: map<string, Value>, proto: Value)

  /** The number a `bool` or `int` stands for in Python arithmetic and comparison. */
  function Numeric(v: Value): (n: int)
    requires v.Bool? || v.Int?
  {
    if v.Int? then v.i else if v.b then 1 else 0
  }

  /**
    Python's `==` on these values.  `bool` is a subclass of `int`, so True
    equals 1 and False equals 0; lists compare element by element and
    dicts key by key; other types never equal each other.  An `Object`
    equals only itself, which the value model can only express as equal
    contents.
  */
  predicate PyEq(a: Value, b: Value)
    decreases a
  {
    match a
    case PyNone => b.PyNone?
    case Bool(_) => (b.Bool? || b.Int?) && Numeric(a) == Numeric(b)
    case Int(_) => (b.Bool? || b.Int?) && Numeric(a) == Numeric(b)
    case Str(s) => b.Str? && b.s == s
    case List(xs) =>
      && b.List? && |xs| == |b.items|
      && forall k :: 0 <= k < |xs| ==> PyEq(xs[k], b.items[k])
    case Dict(m) =>
      && b.Dict? && m.Keys == b.entries.Keys
      && forall key :: key in m ==> PyEq(m[key], b.entries[key])
    case Object(_, _) => a == b
  }

  /** Every value equals itself. */
  lemma {:induction false} PyEqReflexive(v: Value)
    ensures PyEq(v, v)
    decreases v
  {
    match v
    case List(xs) =>
      forall k | 0 <= k < |xs|
        ensures PyEq(xs[k], xs[k])
      {
        PyEqReflexive(xs[k]);
      }
    case Dict(m) =>
      forall key | key in m
        ensures PyEq(m[key], m[key])
      {
        PyEqReflexive(m[key]);
      }
    case _ =>
  }

  /** `==` is symmetric. */
  lemma {:induction false} PyEqSymmetric(a: Value, b: Value)
    requires PyEq(a, b)
    ensures PyEq(b, a)
    decreases a
  {
    match a
    case List(xs) =>
      forall k | 0 <= k < |xs|
        ensures PyEq(b.items[k], xs[k])
      {
        PyEqSymmetric(xs[k], b.items[k]);
      }
    case Dict(m) =>
      forall key | key in b.entries
        ensures PyEq(b.entries[key], m[key])
      {
        PyEqSymmetric(m[key], b.entries[key]);
      }
    case _ =>
  }

  /** A JavaScript number as far as the integer model needs one. */
  datatype JsNumber = Num(n: int) | NaN

  /**
    Python truthiness.  `Object` defines neither `__bool__` nor `__len__`,
    so every instance is true.
  */
  predicate Truthy(v: Value) {
    match v
    case PyNone => false
    case Bool(b) => b
    case Int(i) => i != 0
    case Str(s) => |s| > 0
    case List(xs) => |xs| > 0
    case Dict(m) => |m| > 0
    case Object(_, _) => true
  }
}

=== FILE: window_arrays.dfy ===
/**
  The list lambdas of `ObjectPrototypeCall.array_prototype` in window.py:
  JavaScript array methods acting on a Python list.  The mutating ones
  return the new list together with their own result.  Callbacks are
  modelled as pure functions of (element, index, list).
*/
module WindowArrays {
  import opened Wrappers
  import opened Values
  import JsProperties

  /** `push(*items)`: extends the list and returns the new length. */
  function Push<T>(arr: seq<T>, items: seq<T>): (r: (seq<T>, nat))
    ensures r.0 == arr + items && r.1 == |r.0|
  {
    (arr + items, |arr| + |items|)
  }

  /** `pop()`: the last element, removed; None and no change on an empty list. */
  function Pop<T>(arr: seq<T>): (r: (seq<T>, Option<T>))
    ensures |arr| == 0 <==> r.1.None?
    ensures r.1.None? ==> r.0 == arr
    ensures r.1.Some? ==> r.0 + [r.1.value] == arr
  {
    if |arr| == 0 then (arr, None) else (arr[..|arr| - 1], Some(arr[|arr| - 1]))
  }

  /** `shift()`: `pop(0)` when the list is non-empty, None otherwise. */
  function Shift<T>(arr: seq<T>): (r: (seq<T>, Option<T>))
    ensures |arr| == 0 <==> r.1.None?
    ensures r.1.None? ==> r.0 == arr
    ensures r.1.Some? ==> [r.1.value] + r.0 == arr
  {
    if |arr| == 0 then (arr, None) else (arr[1..], Some(arr[0]))
  }

  /** `unshift(*items)`: `arr[0:0] = items`, the items in their own order, and the new length. */
  function Unshift<T>(arr: seq<T>, items: seq<T>): (r: (seq<T>, nat))
    ensures |r.0| == |arr| + |items| && r.1 == |r.0|
    ensures r.0[..|items|] == items && r.0[|items|..] == arr
  {
    (arr[..0] + items + arr[0..], |arr| + |items|)
  }

  /** `pop` undoes a one-item `push`, and `shift` a one-item `unshift`. */
  lemma PushPop<T>(arr: seq<T>, x: T)
    ensures Pop(Push(arr, [x]).0) == (arr, Some(x))
    ensures Shift(Unshift(arr, [x]).0) == (arr, Some(x))
  {
    assert (arr + [x])[..|arr|] == arr;
    assert ([x] + arr)[1..] == arr;
  }

  /** The index `arr[i]` uses: a negative one counts from the end. */
  function PyIndex(len: nat, i: int): int {
    if i < 0 then i + len else i
  }

  /** `at(index)`: `arr[index]` for -len <= index < len, None otherwise. */
  function At<T>(arr: seq<T>, index: int): (r: Option<T>)
    ensures r.Some? <==> -|arr| <= index < |arr|
    ensures r.Some? ==> 0 <= PyIndex(|arr|, index) < |arr| && r.value == arr[PyIndex(|arr|, index)]
  {
    if -|arr| <= index < |arr| then Some(arr[PyIndex(|arr|, index)]) else None
  }

  /** Index i and i - len name the same element; -1 is what `pop` would return. */
  lemma AtNegative<T>(arr: seq<T>, i: int)
    requires 0 <= i < |arr|
    ensures At(arr, i - |arr|) == At(arr, i)
    ensures At(arr, -1) == Pop(arr).1
  {
  }

  /** A slice bound as Python normalises it: negative counts from the end, then clamped to [0, len]. */
  function SliceBound(len: nat, i: int): (b: nat)
    ensures b <= len
    ensures 0 <= i <= len ==> b == i
    ensures -(len as int) <= i < 0 ==> b == i + len
    ensures i < -(len as int) ==> b == 0
    ensures len < i ==> b == len
  {
    var j := if i < 0 then i + len else i;
    if j < 0 then 0 else if j > len then len else j
  }

  /** `slice(start, end)`: `arr[start:end]`, empty when the bounds cross. */
  function Slice<T>(arr: seq<T>, start: int, end: Option<int>): (r: seq<T>)
    ensures var lo := SliceBound(|arr|, start);
      var hi := EndBound(|arr|, end);
      && |r| == (if lo <= hi then hi - lo else 0)
      && forall k :: 0 <= k < |r| ==> r[k] == arr[lo + k]
  {
    var lo := SliceBound(|arr|, start);
    var hi := EndBound(|arr|, end);
    if lo <= hi then arr[lo..hi] else []
  }

  /** The normalised end bound of a slice: the length when it is omitted. */
  function EndBound(len: nat, end: Option<int>): (b: nat)
    ensures b <= len
  {
    if end.None? then len else SliceBound(len, end.value)
  }

  /** Two adjacent slices that meet at `mid` make up the slice that spans both. */
  lemma SliceConcat<T>(arr: seq<T>, start: int, mid: int, end: Option<int>)
    requires SliceBound(|arr|, start) <= SliceBound(|arr|, mid) <= EndBound(|arr|, end)
    ensures Slice(arr, start, Some(mid)) + Slice(arr, mid, end) == Slice(arr, start, end)
  {
    var a := Slice(arr, start, Some(mid));
    var b := Slice(arr, mid, end);
    var c := Slice(arr, start, end);
    var lo := SliceBound(|arr|, start);
    var m := SliceBound(|arr|, mid);
    assert |a + b| == |c|;
    forall k | 0 <= k < |c|
      ensures (a + b)[k] == c[k]
    {
      if k < |a| {
        assert (a + b)[k] == a[k] == arr[lo + k];
      } else {
        assert (a + b)[k] == b[k - |a|] == arr[m + (k - |a|)];
      }
    }
  }

  /** Slicing from 0 copies the list; from -k it keeps the last k elements. */
  lemma SliceWhole<T>(arr: seq<T>, k: nat)
    requires 0 < k <= |arr|
    ensures Slice(arr, 0, None) == arr
    ensures Slice(arr, -(k as int), None) == arr[|arr| - k..]
    ensures |Slice(arr, -(k as int), None)| == k
  {
  }

  /** `includes(item)`: `item in arr`, which compares with Python's `==`. */
  predicate Includes(arr: seq<Value>, item: Value) {
    exists k :: 0 <= k < |arr| && PyEq(arr[k], item)
  }

  /**
    `indexOf(item, start)`: `arr.index(item, start)` when `item in
    arr[start:]`, else -1 — the first position at or after the normalised
    start whose element is `==` to `item`.
  */
  function IndexOf(arr: seq<Value>, item: Value, start: int): (r: int)
    ensures var lo := SliceBound(|arr|, start);
      && (r == -1 <==> forall k :: lo <= k < |arr| ==> !PyEq(arr[k], item))
      && (r != -1 ==> lo <= r < |arr| && PyEq(arr[r], item))
      && (r != -1 ==> forall k :: lo <= k < r ==> !PyEq(arr[k], item))
  {
    FirstFrom(arr, item, SliceBound(|arr|, start))
  }

  /** The first index at or after `lo` whose element is `==` to `item`, or -1. */
  function FirstFrom(arr: seq<Value>, item: Value, lo: nat): (r: int)
    requires lo <= |arr|
    ensures r == -1 <==> forall k :: lo <= k < |arr| ==> !PyEq(arr[k], item)
    ensures r != -1 ==> lo <= r < |arr| && PyEq(arr[r], item)
    ensures r != -1 ==> forall k :: lo <= k < r ==> !PyEq(arr[k], item)
    decreases |arr| - lo
  {
    if lo == |arr| then -1
    else if PyEq(arr[lo], item) then lo
    else FirstFrom(arr, item, lo + 1)
  }

  /** From the start, `indexOf` finds something exactly when `includes` holds. */
  lemma IndexOfIncludes(arr: seq<Value>, item: Value)
    ensures IndexOf(arr, item, 0) >= 0 <==> Includes(arr, item)
    ensures Includes(arr, item) ==> PyEq(arr[IndexOf(arr, item, 0)], item)
  {
  }

  /** An element that is the very item is always found, at or before its position. */
  lemma IndexOfFindsItself(arr: seq<Value>, k: nat)
    requires k < |arr|
    ensures 0 <= IndexOf(arr, arr[k], 0) <= k
  {
    PyEqReflexive(arr[k]);
  }

  /** True == 1 in Python: `[True].indexOf(1)` is 0, and `[1].includes(True)` holds. */
  lemma BoolMatchesInt()
    ensures IndexOf([Bool(true)], Int(1), 0) == 0
    ensures Includes([Int(1)], Bool(true))
  {
    assert PyEq([Int(1)][0], Bool(true));
  }

  /** `reverse()`: reverses in place and returns the list; doing it twice restores the list. */
  lemma ReverseTwice<T>(arr: seq<T>)
    ensures JsProperties.Reverse(JsProperties.Reverse(arr)) == arr
  {
  }

  /** The items one `concat` argument contributes: a list's elements, or the value itself. */
  function Spread(arg: Value): (items: seq<Value>)
    ensures arg.List? ==> items == arg.items
    ensures !arg.List? ==> items == [arg]
  {
    if arg.List? then arg.items else [arg]
  }

  /** The arguments spread one level each and laid end to end. */
  function Spreads(args: seq<Value>): seq<Value>
    decreases |args|
  {
    if |args| == 0 then [] else Spread(args[0]) + Spreads(args[1..])
  }

  /**
    `concat(*args)`: a new list, the list followed by each argument spread
    one level; the arguments are taken one at a time, as the comprehension
    walks them.
  */
  function Concat(arr: seq<Value>, args: seq<Value>): (r: seq<Value>)
    ensures r == arr + Spreads(args)
    ensures |r| >= |arr| && r[..|arr|] == arr
    decreases |args|
  {
    if |args| == 0 then arr
    else
      var r := Concat(arr + Spread(args[0]), args[1..]);
      assert arr + Spread(args[0]) + Spreads(args[1..]) == arr + Spreads(args);
      r
  }

  /** Concatenating in two calls is concatenating once with all the arguments. */
  lemma {:induction false} ConcatSplit(arr: seq<Value>, args1: seq<Value>, args2: seq<Value>)
    ensures Concat(Concat(arr, args1), args2) == Concat(arr, args1 + args2)
    decreases |args1|
  {
    if |args1| > 0 {
      assert (args1 + args2)[1..] == args1[1..] + args2;
      ConcatSplit(arr + Spread(args1[0]), args1[1..], args2);
    } else {
      assert args1 + args2 == args2;
    }
  }

  /** Arguments that are not lists are appended as they are; list arguments are flattened once. */
  lemma {:induction false} ConcatScalars(arr: seq<Value>, args: seq<Value>)
    requires forall i :: 0 <= i < |args| ==> !args[i].List?
    ensures Concat(arr, args) == arr + args
    decreases |args|
  {
    SpreadsScalars(args);
  }

  lemma {:induction false} SpreadsScalars(args: seq<Value>)
    requires forall i :: 0 <= i < |args| ==> !args[i].List?
    ensures Spreads(args) == args
    decreases |args|
  {
    if |args| > 0 {
      SpreadsScalars(args[1..]);
      assert [args[0]] + args[1..] == args;
    }
  }

  lemma ConcatList(arr: seq<Value>, items: seq<Value>)
    ensures Concat(arr, [List(items)]) == arr + items
  {
    assert [List(items)][1..] == [];
  }

  /*
    The callback methods.  The callback receives (element, index, list).
  */

  /** `filter(callback)`: the elements whose callback holds, in order. */
  function Filter<T>(arr: seq<T>, f: (T, nat, seq<T>) -> bool): (r: seq<T>)
    ensures |r| <= |arr| && forall x :: x in r ==> x in arr
    ensures AllHold(arr, f) ==> r == arr
    ensures (forall j :: 0 <= j < |arr| ==> !f(arr[j], j, arr)) ==> r == []
  {
    assert arr[0..] == arr;
    FilterFrom(arr, f, 0)
  }

  function FilterFrom<T>(arr: seq<T>, f: (T, nat, seq<T>) -> bool, i: nat): (r: seq<T>)
    requires i <= |arr|
    ensures |r| == Passing(arr, f, i) && |r| <= |arr| - i
    ensures forall x :: x in r ==> x in arr[i..]
    ensures (forall j :: i <= j < |arr| ==> f(arr[j], j, arr)) ==> r == arr[i..]
    ensures (forall j :: i <= j < |arr| ==> !f(arr[j], j, arr)) ==> r == []
    decreases |arr| - i
  {
    if i == |arr| then []
    else
      var rest := FilterFrom(arr, f, i + 1);
      assert arr[i..] == [arr[i]] + arr[i + 1..];
      if f(arr[i], i, arr) then [arr[i]] + rest else rest
  }

  /**
    `filter` keeps order: its result is the element `findIndex` would pick,
    followed by the filter of everything after it; empty when nothing passes.
    Applied repeatedly this fixes the result element by element.
  */
  lemma {:induction false} FilterFollowsFind<T>(arr: seq<T>, f: (T, nat, seq<T>) -> bool, i: nat)
    requires i <= |arr|
    ensures var k := FindFrom(arr, f, i);
      FilterFrom(arr, f, i) == if k == -1 then [] else [arr[k]] + FilterFrom(arr, f, k + 1)
    decreases |arr| - i
  {
    if i < |arr| && !f(arr[i], i, arr) {
      FilterFollowsFind(arr, f, i + 1);
    }
  }

  /** The whole-list form: `filter` starts with what `find` returns. */
  lemma FilterStartsWithFind<T>(arr: seq<T>, f: (T, nat, seq<T>) -> bool)
    ensures var k := FindIndex(arr, f);
      Filter(arr, f) == if k == -1 then [] else [arr[k]] + FilterFrom(arr, f, k + 1)
    ensures Find(arr, f).Some? <==> |Filter(arr, f)| > 0
    ensures Find(arr, f).Some? ==> Filter(arr, f)[0] == Find(arr, f).value
  {
    FilterFollowsFind(arr, f, 0);
    FindAgreesWithFindIndex(arr, f);
  }

  /** How many elements from index `i` on pass the callback. */
  function Passing<T>(arr: seq<T>, f: (T, nat, seq<T>) -> bool, i: nat): nat
    requires i <= |arr|
    decreases |arr| - i
  {
    if i == |arr| then 0 else (if f(arr[i], i, arr) then 1 else 0) + Passing(arr, f, i + 1)
  }

  /** `findIndex(callback)`: the first index whose callback holds, or -1. */
  function FindIndex<T>(arr: seq<T>, f: (T, nat, seq<T>) -> bool): (r: int)
    ensures -1 <= r < |arr|
    ensures r >= 0 ==> f(arr[r], r, arr) && forall j :: 0 <= j < r ==> !f(arr[j], j, arr)
    ensures r == -1 ==> forall j :: 0 <= j < |arr| ==> !f(arr[j], j, arr)
  {
    FindFrom(arr, f, 0)
  }

  function FindFrom<T>(arr: seq<T>, f: (T, nat, seq<T>) -> bool, i: nat): (r: int)
    requires i <= |arr|
    ensures r == -1 || i <= r < |arr|
    ensures r >= 0 ==> f(arr[r], r, arr) && forall j :: i <= j < r ==> !f(arr[j], j, arr)
    ensures r == -1 ==> forall j :: i <= j < |arr| ==> !f(arr[j], j, arr)
    decreases |arr| - i
  {
    if i == |arr| then -1
    else if f(arr[i], i, arr) then i
    else FindFrom(arr, f, i + 1)
  }

  /** `find(callback)`: the first element whose callback holds, or None. */
  function Find<T>(arr: seq<T>, f: (T, nat, seq<T>) -> bool): Option<T> {
    FindElement(arr, f, 0)
  }

  function FindElement<T>(arr: seq<T>, f: (T, nat, seq<T>) -> bool, i: nat): Option<T>
    requires i <= |arr|
    decreases |arr| - i
  {
    if i == |arr| then None
    else if f(arr[i], i, arr) then Some(arr[i])
    else FindElement(arr, f, i + 1)
  }

  /** `find` returns the element at the index `findIndex` reports. */
  lemma FindAgreesWithFindIndex<T>(arr: seq<T>, f: (T, nat, seq<T>) -> bool)
    ensures Find(arr, f) == if FindIndex(arr, f) == -1 then None else Some(arr[FindIndex(arr, f)])
  {
    FindElementAt(arr, f, 0);
  }

  lemma {:induction false} FindElementAt<T>(arr: seq<T>, f: (T, nat, seq<T>) -> bool, i: nat)
    requires i <= |arr|
    ensures FindElement(arr, f, i) == if FindFrom(arr, f, i) == -1 then None else Some(arr[FindFrom(arr, f, i)])
    decreases |arr| - i
  {
    if i < |arr| && !f(arr[i], i, arr) {
      FindElementAt(arr, f, i + 1);
    }
  }

  /** `some(callback)`. */
  predicate AnyHolds<T>(arr: seq<T>, f: (T, nat, seq<T>) -> bool) {
    exists j :: 0 <= j < |arr| && f(arr[j], j, arr)
  }

  /** `every(callback)`. */
  predicate AllHold<T>(arr: seq<T>, f: (T, nat, seq<T>) -> bool) {
    forall j :: 0 <= j < |arr| ==> f(arr[j], j, arr)
  }

  /** `some` holds exactly when `findIndex` finds something, and `every` when no element fails. */
  lemma SomeEveryFindIndex<T>(arr: seq<T>, f: (T, nat, seq<T>) -> bool)
    ensures AnyHolds(arr, f) <==> FindIndex(arr, f) >= 0
    ensures AllHold(arr, f) <==> FindIndex(arr, (x: T, j: nat, a: seq<T>) => !f(x, j, a)) == -1
  {
    var g := (x: T, j: nat, a: seq<T>) => !f(x, j, a);
    var k := FindIndex(arr, g);
    if k >= 0 {
      assert !f(arr[k], k, arr);
    }
  }

  /** `map(callback)`: the callback's results, one per element. */
  function Map<T, U>(arr: seq<T>, f: (T, nat, seq<T>) -> U): (r: seq<U>)
    ensures |r| == |arr| && forall j :: 0 <= j < |arr| ==> r[j] == f(arr[j], j, arr)
  {
    seq(|arr|, j requires 0 <= j < |arr| => f(arr[j], j, arr))
  }

  /** Mapping with a callback that returns its element copies the list. */
  lemma MapIdentity<T>(arr: seq<T>)
    ensures Map(arr, (x: T, j: nat, a: seq<T>) => x) == arr
  {
  }
}

=== FILE: window_assign.dfy ===
/**
  `_ObjectProto.assign` of window.py (`Object.assign`): copies the entries
  of each dict source, in order, into the target dict and returns that
  same target.
*/
module WindowAssign {
  import opened Wrappers
  import opened Values

  const ProtoKey: string := "__proto__"

  /** One source copied into the target: its entries except '__proto__'; a non-dict source adds nothing. */
  function CopyInto(target: map<string, Value>, source: Value): (t: map<string, Value>)
    ensures source.Dict? ==> t.Keys == target.Keys + (source.entries.Keys - {ProtoKey})
    ensures !source.Dict? ==> t == target
    ensures forall k :: k in t && !(source.Dict? && k in source.entries && k != ProtoKey) ==> k in target && t[k] == target[k]
    ensures source.Dict? ==> forall k :: k in source.entries && k != ProtoKey ==> t[k] == source.entries[k]
  {
    if !source.Dict? then target
    else
      map k | k in target.Keys + (source.entries.Keys - {ProtoKey}) ::
        if k in source.entries && k != ProtoKey then source.entries[k] else target[k]
  }

  /** The sources folded into the target from first to last, as the `for` loop does. */
  function CopyAll(target: map<string, Value>, sources: seq<Value>): map<string, Value>
    decreases |sources|
  {
    if |sources| == 0 then target else CopyAll(CopyInto(target, sources[0]), sources[1..])
  }

  /** `assign(target, *sources)`: TypeError unless the target is a dict. */
  function Assign(target: Value, sources: seq<Value>): (r: Result<Value>)
    ensures !target.Dict? <==> r == Raise(TypeError)
    ensures r.Ok? ==> r.value.Dict? && target.entries.Keys <= r.value.entries.Keys
  {
    if !target.Dict? then Raise(TypeError)
    else
      CopyAllKeeps(target.entries, sources);
      Ok(Dict(CopyAll(target.entries, sources)))
  }

  lemma {:induction false} CopyAllKeeps(target: map<string, Value>, sources: seq<Value>)
    ensures target.Keys <= CopyAll(target, sources).Keys
    decreases |sources|
  {
    if |sources| > 0 {
      CopyAllKeeps(CopyInto(target, sources[0]), sources[1..]);
    }
  }

  /**
    The reference reading of `assign`, scanning the sources from the last:
    the value of `key` in the last dict source that has it, if any.
  */
  function LastWriter(sources: seq<Value>, key: string): Option<Value>
    decreases |sources|
  {
    if |sources| == 0 || key == ProtoKey then None
    else
      var last := sources[|sources| - 1];
      if last.Dict? && key in last.entries then Some(last.entries[key])
      else LastWriter(sources[..|sources| - 1], key)
  }

  /** Copying `s + [x]` is copying `s` and then `x`. */
  lemma {:induction false} CopyAllSnoc(target: map<string, Value>, s: seq<Value>, x: Value)
    ensures CopyAll(target, s + [x]) == CopyInto(CopyAll(target, s), x)
    decreases |s|
  {
    if |s| == 0 {
      assert s + [x] == [x];
      assert [x][1..] == [];
    } else {
      assert (s + [x])[0] == s[0];
      assert (s + [x])[1..] == s[1..] + [x];
      CopyAllSnoc(CopyInto(target, s[0]), s[1..], x);
    }
  }

  /**
    Later sources overwrite earlier ones: after `assign` each key holds the
    value of the last dict source that has it (never a '__proto__' entry of
    a source), and otherwise keeps the target's own value.
  */
  lemma {:induction false} AssignLastWriterWins(target: map<string, Value>, sources: seq<Value>, key: string)
    ensures var r := Assign(Dict(target), sources).value.entries;
      && (key in r <==> key in target || LastWriter(sources, key).Some?)
      && (LastWriter(sources, key).Some? ==> r[key] == LastWriter(sources, key).value)
      && (LastWriter(sources, key).None? && key in target ==> r[key] == target[key])
    decreases |sources|
  {
    if |sources| > 0 {
      var s := sources[..|sources| - 1];
      var x := sources[|sources| - 1];
      assert sources == s + [x];
      CopyAllSnoc(target, s, x);
      AssignLastWriterWins(target, s, key);
    }
  }

  /** `assign` hands back the target: with no sources, or only non-dict ones, it is unchanged. */
  lemma {:induction false} AssignWithoutDicts(target: map<string, Value>, sources: seq<Value>)
    requires forall i :: 0 <= i < |sources| ==> !sources[i].Dict?
    ensures Assign(Dict(target), sources) == Ok(Dict(target))
    decreases |sources|
  {
    if |sources| > 0 {
      AssignWithoutDicts(target, sources[1..]);
    }
  }
}

=== FILE: window_escape.dfy ===
/**
  `Window.escape` and `Window.unescape` of window.py.  Both work on Python
  strings, that is on sequences of code points (lone surrogates included,
  since `unescape('%uD800')` yields one), so text is modelled as a sequence
  of integers in [0, 0x10FFFF] rather than as Dafny `char`s.

  `escape` follows section B.2.1.1 of ECMA-262 on code points; `unescape`
  approximates section B.2.1.2 with two `re.sub` passes, `%uXXXX` first and
  `%XX` second, each scanning left to right.
*/
module WindowEscape {
  import opened Wrappers

  type CodePoint = c: int | 0 <= c <= 0x10FFFF
  type Text = seq<CodePoint>

  const Percent: CodePoint := 0x25
  const LetterU: CodePoint := 0x75

  /** The code points `escape` copies: ASCII letters and digits and `@*_+-./`. */
  predicate Unreserved(c: int) {
    || 0x41 <= c <= 0x5A || 0x61 <= c <= 0x7A || 0x30 <= c <= 0x39
    || c == 0x40 || c == 0x2A || c == 0x5F || c == 0x2B || c == 0x2D || c == 0x2E || c == 0x2F
  }

  /** The regex class `[0-9a-fA-F]`. */
  predicate IsHex(c: int) {
    0x30 <= c <= 0x39 || 0x41 <= c <= 0x46 || 0x61 <= c <= 0x66
  }

  /** The digits `format(.., 'X')` writes: 0-9 and A-F. */
  predicate UpperHex(s: seq<int>) {
    forall i :: 0 <= i < |s| ==> 0x30 <= s[i] <= 0x39 || 0x41 <= s[i] <= 0x46
  }

  predicate AllHex(h: seq<int>) {
    forall i :: 0 <= i < |h| ==> IsHex(h[i])
  }

  function HexDigitValue(c: int): (v: nat)
    requires IsHex(c)
    ensures v < 16
  {
    if c <= 0x39 then c - 0x30 else if c <= 0x46 then c - 0x41 + 10 else c - 0x61 + 10
  }

  function Pow16(k: nat): (p: nat)
    ensures p >= 1
  {
    if k == 0 then 1 else 16 * Pow16(k - 1)
  }

  /** `int(h, 16)` for a string of hex digits, most significant first. */
  function HexNumber(h: seq<int>): (v: nat)
    requires AllHex(h)
    ensures v < Pow16(|h|)
  {
    if |h| == 0 then 0
    else HexNumber(h[..|h| - 1]) * 16 + HexDigitValue(h[|h| - 1])
  }

  /** The uppercase hex digit of `d`. */
  function HexChar(d: int): (c: CodePoint)
    requires 0 <= d < 16
    ensures IsHex(c) && UpperHex([c]) && HexDigitValue(c) == d
  {
    if d < 10 then 0x30 + d else 0x41 + d - 10
  }

  /**
    `format(n, '0{w}X')`: the uppercase hex digits of `n`, padded with zeros
    to at least `w` digits (called with w >= 2 only, so n = 0 never prints
    as the empty string).
  */
  function Hex(n: nat, w: nat): (h: Text)
    ensures |h| >= w
    ensures AllHex(h)
    ensures UpperHex(h)
    ensures HexNumber(h) == n
    ensures n < Pow16(w) ==> |h| == w
    decreases n + w
  {
    if n == 0 && w == 0 then []
    else
      var w' := if w > 0 then w - 1 else 0;
      var front := Hex(n / 16, w');
      HexStep(n, w, front);
      front + [HexChar(n % 16)]
  }

  /** The digits of n / 16 followed by the digit of n % 16 are the digits of `n`. */
  lemma HexStep(n: nat, w: nat, front: Text)
    requires AllHex(front)
    requires UpperHex(front) && HexNumber(front) == n / 16
    requires |front| >= (if w > 0 then w - 1 else 0)
    requires w > 0 && n / 16 < Pow16(w - 1) ==> |front| == w - 1
    requires n > 0 || w > 0
    ensures var h := front + [HexChar(n % 16)];
      && |h| >= w
      && (AllHex(h))
      && UpperHex(h)
      && HexNumber(h) == n
      && (n < Pow16(w) ==> |h| == w)
  {
    HexAppend(front, n % 16);
    HexDigitSplit(n, w);
  }

  /** One more uppercase digit at the end multiplies the value by 16 and adds the digit. */
  lemma HexAppend(front: Text, d: int)
    requires 0 <= d < 16
    requires AllHex(front)
    requires UpperHex(front)
    ensures var h := front + [HexChar(d)];
      && (AllHex(h))
      && UpperHex(h)
      && HexNumber(h) == HexNumber(front) * 16 + d
  {
    var h := front + [HexChar(d)];
    assert h[..|h| - 1] == front;
  }

  /** Dropping the last hex digit of `n` leaves n / 16, which needs one digit fewer. */
  lemma HexDigitSplit(n: nat, w: nat)
    ensures n == (n / 16) * 16 + n % 16
    ensures w > 0 && n < Pow16(w) ==> n / 16 < Pow16(w - 1)
  {
  }

  /** Two hex digits, most significant first. */
  lemma HexNumber2(h: seq<int>)
    requires |h| == 2 && IsHex(h[0]) && IsHex(h[1])
    ensures HexNumber(h) == 16 * HexDigitValue(h[0]) + HexDigitValue(h[1])
  {
    assert h[..1][..0] == [];
  }

  /** Four hex digits, most significant first. */
  lemma HexNumber4(h: seq<int>)
    requires |h| == 4 && forall i :: 0 <= i < 4 ==> IsHex(h[i])
    ensures HexNumber(h) == 4096 * HexDigitValue(h[0]) + 256 * HexDigitValue(h[1])
      + 16 * HexDigitValue(h[2]) + HexDigitValue(h[3])
  {
    assert h[..3][..2] == h[..2];
    HexNumber2(h[..2]);
  }

  /** `%` and two hex digits, as `escape` writes a code point below U+0100. */
  function ByteEscape(c: CodePoint): (e: Text)
    requires c < 256
    ensures |e| == 3 && e[0] == Percent && UpperHex(e[1..]) && HexNumber(e[1..]) == c
    ensures forall i :: 0 <= i < |e| ==> e[i] < 128
  {
    assert Pow16(2) == 256;
    var e := [Percent] + Hex(c, 2);
    assert e[1..] == Hex(c, 2);
    e
  }

  /** `%u` and at least four hex digits, as `escape` writes a code point above U+00FF. */
  function UnicodeEscape(c: CodePoint): (e: Text)
    ensures |e| >= 6 && e[0] == Percent && e[1] == LetterU
    ensures UpperHex(e[2..]) && HexNumber(e[2..]) == c
    ensures c < 0x1_0000 ==> |e| == 6
    ensures forall i :: 0 <= i < |e| ==> e[i] < 128
  {
    assert Pow16(4) == 0x1_0000;
    var e := [Percent, LetterU] + Hex(c, 4);
    assert e[2..] == Hex(c, 4);
    e
  }

  /** What `escape` appends for one code point. */
  function EscapeChar(c: CodePoint): (e: Text)
    ensures Unreserved(c) ==> e == [c]
    ensures !Unreserved(c) && c < 256 ==>
      && |e| == 3 && e[0] == Percent && UpperHex(e[1..]) && HexNumber(e[1..]) == c
    ensures 256 <= c ==>
      && |e| >= 6 && e[0] == Percent && e[1] == LetterU
      && UpperHex(e[2..]) && HexNumber(e[2..]) == c
    ensures 256 <= c < 0x1_0000 ==> |e| == 6
    ensures forall i :: 0 <= i < |e| ==> e[i] < 128
  {
    if Unreserved(c) then [c]
    else if c < 256 then ByteEscape(c)
    else UnicodeEscape(c)
  }

  /** `escape(s)`: the pieces of the code points of `s`, in order. */
  function Escape(s: Text): (e: Text)
    ensures forall i :: 0 <= i < |e| ==> e[i] < 128
    ensures |e| >= |s|
  {
    if |s| == 0 then [] else EscapeChar(s[0]) + Escape(s[1..])
  }

  /** `s` starts with a match of `%u([0-9a-fA-F]{4})`. */
  predicate UnicodeEscapeAt(s: seq<int>) {
    |s| >= 6 && s[0] == Percent && s[1] == LetterU && forall i :: 2 <= i < 6 ==> IsHex(s[i])
  }

  /** `s` starts with a match of `%([0-9a-fA-F]{2})`. */
  predicate ByteEscapeAt(s: seq<int>) {
    |s| >= 3 && s[0] == Percent && IsHex(s[1]) && IsHex(s[2])
  }

  /**
    The first `re.sub`: scanning left to right, each `%uXXXX` becomes the
    code point XXXX (`chr` never fails below 0x10000, so the fallback that
    keeps the match is dead) and scanning resumes after it.
  */
  function SubUnicode(s: Text): (t: Text)
    ensures |t| <= |s|
    decreases |s|
  {
    if |s| == 0 then []
    else if UnicodeEscapeAt(s) then
      assert Pow16(4) == 0x1_0000;
      [HexNumber(s[2..6]) as CodePoint] + SubUnicode(s[6..])
    else [s[0]] + SubUnicode(s[1..])
  }

  /** The second `re.sub`: each `%XX` becomes the code point XX. */
  function SubByte(s: Text): (t: Text)
    ensures |t| <= |s|
    decreases |s|
  {
    if |s| == 0 then []
    else if ByteEscapeAt(s) then [HexNumber(s[1..3]) as CodePoint] + SubByte(s[3..])
    else [s[0]] + SubByte(s[1..])
  }

  /** `unescape(s)` as written: the `%uXXXX` pass, then the `%XX` pass over its output. */
  function Unescape(s: Text): Text {
    SubByte(SubUnicode(s))
  }

  /*
    The round trip.  `escape`'s output only holds '%' at the head of its
    own escapes, and uppercase hex never reads as the 'u' of `%u`, so the
    first pass decodes exactly the `%uXXXX` escapes and the second exactly
    the `%XX` ones.
  */

  /** The text between the two passes: escapes of code points above U+00FF already decoded. */
  function Halfway(s: Text): Text {
    if |s| == 0 then []
    else (if Unreserved(s[0]) || s[0] >= 256 then [s[0]] else EscapeChar(s[0])) + Halfway(s[1..])
  }

  predicate Bmp(s: Text) {
    forall i :: 0 <= i < |s| ==> s[i] < 0x1_0000
  }

  lemma SubUnicodeCopies(c: CodePoint, t: Text)
    requires c != Percent
    ensures SubUnicode([c] + t) == [c] + SubUnicode(t)
  {
    assert ([c] + t)[1..] == t;
  }

  lemma SubByteCopies(c: CodePoint, t: Text)
    requires c != Percent
    ensures SubByte([c] + t) == [c] + SubByte(t)
  {
    assert ([c] + t)[1..] == t;
  }

  /** One code point's escape, followed by more text, under the first pass. */
  lemma {:induction false} FirstPassPiece(c: CodePoint, t: Text)
    requires c < 0x1_0000
    ensures SubUnicode(EscapeChar(c) + t)
      == (if Unreserved(c) || c >= 256 then [c] else EscapeChar(c)) + SubUnicode(t)
  {
    if Unreserved(c) {
      SubUnicodeCopies(c, t);
    } else if c < 256 {
      FirstPassByte(c, t);
    } else {
      FirstPassWide(c, t);
    }
  }

  /** A `%XX` escape is not a `%u` escape: the first pass copies it. */
  lemma FirstPassByte(c: CodePoint, t: Text)
    requires !Unreserved(c) && c < 256
    ensures SubUnicode(EscapeChar(c) + t) == EscapeChar(c) + SubUnicode(t)
  {
    var e := EscapeChar(c);
    assert UpperHex(e[1..]);
    var hi, lo := e[1], e[2];
    assert hi == e[1..][0] && lo == e[1..][1];
    assert e == [Percent, hi, lo];
    PercentPairCopied(hi, lo, t);
  }

  /** '%' and two characters, neither '%' and the first not 'u', pass the first pass unchanged. */
  lemma PercentPairCopied(hi: CodePoint, lo: CodePoint, t: Text)
    requires hi != LetterU && hi != Percent && lo != Percent
    ensures SubUnicode([Percent, hi, lo] + t) == [Percent, hi, lo] + SubUnicode(t)
  {
    var x := [Percent, hi, lo] + t;
    assert !UnicodeEscapeAt(x);
    assert x[1..] == [hi] + ([lo] + t);
    SubUnicodeCopies(hi, [lo] + t);
    SubUnicodeCopies(lo, t);
  }

  /** A `%uXXXX` escape of a code point up to U+FFFF is decoded by the first pass. */
  lemma FirstPassWide(c: CodePoint, t: Text)
    requires 256 <= c < 0x1_0000
    ensures SubUnicode(EscapeChar(c) + t) == [c] + SubUnicode(t)
  {
    var e := EscapeChar(c);
    var x := e + t;
    assert x[2..6] == e[2..];
    assert forall i :: 2 <= i < 6 ==> x[i] == e[2..][i - 2];
    assert UnicodeEscapeAt(x);
    assert x[6..] == t;
  }

  /** One code point, as the first pass leaves it, under the second pass. */
  lemma {:induction false} SecondPassPiece(c: CodePoint, t: Text)
    ensures SubByte((if Unreserved(c) || c >= 256 then [c] else EscapeChar(c)) + t) == [c] + SubByte(t)
  {
    if Unreserved(c) || c >= 256 {
      SubByteCopies(c, t);
    } else {
      var e := EscapeChar(c);
      var x := e + t;
      assert x[1..3] == e[1..];
      assert ByteEscapeAt(x) by {
        assert x[1] == e[1..][0] && x[2] == e[1..][1];
      }
      assert x[3..] == t;
    }
  }

  lemma {:induction false} FirstPass(s: Text)
    requires Bmp(s)
    ensures SubUnicode(Escape(s)) == Halfway(s)
  {
    if |s| > 0 {
      FirstPass(s[1..]);
      FirstPassPiece(s[0], Escape(s[1..]));
    }
  }

  lemma {:induction false} SecondPass(s: Text)
    ensures SubByte(Halfway(s)) == s
  {
    if |s| > 0 {
      SecondPass(s[1..]);
      SecondPassPiece(s[0], Halfway(s[1..]));
      assert [s[0]] + s[1..] == s;
    }
  }

  /** `unescape(escape(s)) == s` whenever no code point of `s` needs more than four hex digits. */
  lemma UnescapeEscape(s: Text)
    requires Bmp(s)
    ensures Unescape(Escape(s)) == s
  {
    FirstPass(s);
    SecondPass(s);
  }

  /**
    Above U+FFFF the round trip breaks: `escape` writes five or six hex
    digits, `%u` takes only four of them, and neither pass ever produces a
    code point above U+FFFF.
  */
  lemma AstralBreaksRoundTrip(s: Text)
    requires !Bmp(s)
    ensures Unescape(Escape(s)) != s
  {
    var e := Escape(s);
    assert Bmp(e);
    SubUnicodeStaysBmp(e);
    SubByteStaysBmp(SubUnicode(e));
  }

  lemma {:induction false} SubUnicodeStaysBmp(s: Text)
    requires Bmp(s)
    ensures Bmp(SubUnicode(s))
    decreases |s|
  {
    if |s| > 0 {
      var t := SubUnicode(s);
      if UnicodeEscapeAt(s) {
        SubUnicodeStaysBmp(s[6..]);
        assert Pow16(4) == 0x1_0000;
        assert t == [HexNumber(s[2..6]) as CodePoint] + SubUnicode(s[6..]);
      } else {
        SubUnicodeStaysBmp(s[1..]);
        assert t == [s[0]] + SubUnicode(s[1..]);
      }
    }
  }

  lemma {:induction false} SubByteStaysBmp(s: Text)
    requires Bmp(s)
    ensures Bmp(SubByte(s))
    decreases |s|
  {
    if |s| > 0 {
      var t := SubByte(s);
      if ByteEscapeAt(s) {
        SubByteStaysBmp(s[3..]);
        assert Pow16(2) == 256;
        assert t == [HexNumber(s[1..3]) as CodePoint] + SubByte(s[3..]);
      } else {
        SubByteStaysBmp(s[1..]);
        assert t == [s[0]] + SubByte(s[1..]);
      }
    }
  }


  /*
    Decoding twice.  Section B.2.1.2 of ECMA-262 decodes every escape of the
    input once, in a single left-to-right scan.  Run as two passes, the '%'
    a `%u0025` produces can start a `%XX` escape together with the two
    characters that follow it, which the second pass then decodes as well.
  */

  /** `unescape` as section B.2.1.2 of ECMA-262 describes it: one scan, `%uXXXX` tried first. */
  function UnescapeOnePass(s: Text): Text
    decreases |s|
  {
    if |s| == 0 then []
    else if UnicodeEscapeAt(s) then
      assert Pow16(4) == 0x1_0000;
      [HexNumber(s[2..6]) as CodePoint] + UnescapeOnePass(s[6..])
    else if ByteEscapeAt(s) then [HexNumber(s[1..3]) as CodePoint] + UnescapeOnePass(s[3..])
    else [s[0]] + UnescapeOnePass(s[1..])
  }

  /** "%u002541": the as-written `unescape` yields "A"; one scan yields "%41". */
  lemma UnescapeDecodesTwice()
    ensures Unescape([Percent, LetterU, 0x30, 0x30, 0x32, 0x35, 0x34, 0x31]) == [0x41]
    ensures UnescapeOnePass([Percent, LetterU, 0x30, 0x30, 0x32, 0x35, 0x34, 0x31]) == [Percent, 0x34, 0x31]
  {
    var s := [Percent, LetterU, 0x30, 0x30, 0x32, 0x35, 0x34, 0x31];
    var m: Text := [Percent, 0x34, 0x31];
    PercentEscapeFirstPass(s, m);
    PercentEscapeSecondPass(m);
    PercentEscapeOnePass(s, m);
  }

  lemma PercentEscapeFirstPass(s: Text, m: Text)
    requires s == [Percent, LetterU, 0x30, 0x30, 0x32, 0x35, 0x34, 0x31]
    requires m == [Percent, 0x34, 0x31]
    ensures SubUnicode(s) == m
  {
    assert UnicodeEscapeAt(s) && s[2..6] == [0x30, 0x30, 0x32, 0x35] && s[6..] == [0x34, 0x31];
    HexNumber4(s[2..6]);
    assert SubUnicode([0x34, 0x31]) == [0x34] + SubUnicode([0x31]);
  }

  lemma PercentEscapeSecondPass(m: Text)
    requires m == [Percent, 0x34, 0x31]
    ensures SubByte(m) == [0x41]
  {
    assert ByteEscapeAt(m) && m[1..3] == [0x34, 0x31] && m[3..] == [];
    HexNumber2(m[1..3]);
  }

  lemma PercentEscapeOnePass(s: Text, m: Text)
    requires s == [Percent, LetterU, 0x30, 0x30, 0x32, 0x35, 0x34, 0x31]
    requires m == [Percent, 0x34, 0x31]
    ensures UnescapeOnePass(s) == m
  {
    assert UnicodeEscapeAt(s) && s[2..6] == [0x30, 0x30, 0x32, 0x35] && s[6..] == [0x34, 0x31];
    HexNumber4(s[2..6]);
    assert UnescapeOnePass([0x34, 0x31]) == [0x34] + UnescapeOnePass([0x31]);
  }

  /**
    The single scan decodes a `%uXXXX` escape into exactly its code point,
    whatever follows: the text after it is decoded on its own.
  */
  lemma OnePassUnicodeEscape(c: CodePoint, t: Text)
    requires c < 0x1_0000
    ensures UnescapeOnePass(UnicodeEscape(c) + t) == [c] + UnescapeOnePass(t)
  {
    var x := UnicodeEscape(c) + t;
    var h := Hex(c, 4);
    assert x[2..6] == h;
    assert forall i :: 2 <= i < 6 ==> x[i] == h[i - 2];
    assert UnicodeEscapeAt(x);
    assert x[6..] == t;
  }

  /** One code point's escape, followed by more text, under the single scan. */
  lemma {:induction false} OnePassPiece(c: CodePoint, t: Text)
    requires c < 0x1_0000
    ensures UnescapeOnePass(EscapeChar(c) + t) == [c] + UnescapeOnePass(t)
  {
    var e := EscapeChar(c);
    var x := e + t;
    if Unreserved(c) {
      assert x[1..] == t;
    } else if c < 256 {
      assert !UnicodeEscapeAt(x) by {
        assert x[1] == e[1..][0];
      }
      assert x[1..3] == e[1..];
      assert ByteEscapeAt(x) by {
        assert x[1] == e[1..][0] && x[2] == e[1..][1];
      }
      assert x[3..] == t;
    } else {
      OnePassUnicodeEscape(c, t);
    }
  }

  /** The single scan also undoes `escape` on code points up to U+FFFF. */
  lemma {:induction false} OnePassEscape(s: Text)
    requires Bmp(s)
    ensures UnescapeOnePass(Escape(s)) == s
  {
    if |s| > 0 {
      OnePassEscape(s[1..]);
      OnePassPiece(s[0], Escape(s[1..]));
      assert [s[0]] + s[1..] == s;
    }
  }
}

=== FILE: window_location.dfy ===
/**
  `Location.__init__` of window.py: the fields of `window.location` cut out
  of one URL string with `str.split`.  Every `[1]` index into a split that
  found no separator raises IndexError.
*/
module WindowLocation {
  import opened Wrappers
  import opened PyText

  datatype Location = Location(
    hash: string,
    host: string,
    hostName: string,
    href: string,
    origin: string,
    pathname: string,
    port: string,
    protocol: string,
    search: string)

  /** Every '/' and ':' the splits look for. */
  predicate NoSlash(s: string) {
    '/' !in s
  }

  /**
    The `port` field: with exactly two ':' in the URL, the text after the
    first ':' that follows the first '/', up to the next '/'; otherwise ''.
  */
  function Port(domain: string): (r: Result<string>)
    ensures r.Raise? ==> r.error == IndexError && Count(domain, ':') == 2
    ensures Count(domain, ':') != 2 ==> r == Ok("")
    ensures r.Ok? ==> NoSlash(r.value) && ':' !in r.value
  {
    if Count(domain, ':') == 2 then
      var afterSlash := SplitOnce(domain, "/");
      if |afterSlash| < 2 then Raise(IndexError)
      else
        var colonFields := Split(afterSlash[1], ":");
        if |colonFields| < 2 then Raise(IndexError)
        else
          var p := Split(colonFields[1], "/")[0];
          SplitPartsFree(afterSlash[1], ":");
          SplitPartsFree(colonFields[1], "/");
          assert !Contains(colonFields[1], ":");
          NoCharNotContained(colonFields[1], ':');
          NoCharNotContained(p, '/');
          SubstringWithout(colonFields[1], p, ':');
          Ok(p)
    else Ok("")
  }

  /** A prefix of a string lacks every character the string lacks. */
  lemma SubstringWithout(s: string, p: string, c: char)
    requires c !in s
    requires |p| <= |s| && p == s[..|p|]
    ensures c !in p
  {
    assert forall j :: 0 <= j < |p| ==> p[j] == s[j];
  }

  /**
    `Location(domain)`.  `host`, `hostName` and `origin` use the third
    '/'-field when the URL has more than three, the whole URL otherwise;
    `pathname` is the text after the first '/' behind the first '//' (and
    before any second '//'); `protocol` the text before the first '//'.
  */
  function NewLocation(domain: string): (r: Result<Location>)
    ensures r.Raise? ==> r.error == IndexError
    ensures r.Ok? ==> Contains(domain, "//")
    ensures r.Ok? ==> var l := r.value;
      && l.hash == "" && l.href == "" && l.search == ""
      && l.host == l.hostName
      && !Contains(l.protocol, "//")
      && OccursAt(domain, "//", |l.protocol|) && domain[..|l.protocol|] == l.protocol
      && Port(domain) == Ok(l.port)
    ensures Port(domain).Raise? ==> r == Raise(IndexError)
  {
    var fields := Split(domain, "/");
    var host := if |fields| > 3 then fields[2] else domain;
    var origin := if |fields| > 3 then "https://" + fields[2] else domain;
    var halves := Split(domain, "//");
    SplitHead(domain, "//");
    if |halves| < 2 then Raise(IndexError)
    else
      var afterScheme := SplitOnce(halves[1], "/");
      if |afterScheme| < 2 then Raise(IndexError)
      else
        var port :- Port(domain);
        Ok(Location("", host, host, "", origin, afterScheme[1], port, halves[0], ""))
  }

  /**
    What a successful `Location` holds, for any URL: `host` is a '/'-free
    field and `origin` is "https://" + host.
  */
  lemma LocationHost(domain: string)
    ensures var r := NewLocation(domain);
      r.Ok? ==> NoSlash(r.value.host) && r.value.origin == "https://" + r.value.host
  {
    if NewLocation(domain).Ok? {
      LocationSources(domain);
      var protocol, hostPart, path, rest := CutPieces(domain);
    }
  }

  /**
    The text right after protocol + '//' is host + '/' + path, no '//'
    starts inside it, and it ends at the next '//' or at the end of the URL.
  */
  predicate AfterScheme(domain: string, protocol: string, host: string, path: string) {
    var p := |protocol| + 2;
    var e := p + |host| + 1 + |path|;
    && e <= |domain| && domain[p..e] == host + "/" + path
    && (forall j :: p <= j < e ==> !OccursAt(domain, "//", j))
    && (e == |domain| || OccursAt(domain, "//", e))
  }

  /** When the protocol holds no '/', host and pathname are the text between the first and second '//'. */
  lemma LocationPath(domain: string)
    ensures var r := NewLocation(domain);
      r.Ok? && NoSlash(r.value.protocol) ==>
        AfterScheme(domain, r.value.protocol, r.value.host, r.value.pathname)
  {
    if NewLocation(domain).Ok? && NoSlash(NewLocation(domain).value.protocol) {
      LocationSources(domain);
      var protocol, host, path, rest := CutPieces(domain);
    }
  }

  /**
    The cuts `Location` makes, when both of its `[1]` indexes succeed:
    the URL is protocol + '//' + hostPart + '/' + path + rest, cut at the
    first and second '//'; the third '/'-field is '/'-free, and is
    hostPart when the protocol holds no '/'.
  */
  lemma CutPieces(domain: string) returns (protocol: string, hostPart: string, path: string, rest: string)
    requires |Split(domain, "//")| >= 2 && |SplitOnce(Split(domain, "//")[1], "/")| == 2
    ensures protocol == Split(domain, "//")[0] && path == SplitOnce(Split(domain, "//")[1], "/")[1]
    ensures NoSlash(hostPart) && AfterScheme(domain, protocol, hostPart, path)
    ensures |Split(domain, "/")| > 3 && NoSlash(Split(domain, "/")[2])
    ensures NoSlash(protocol) ==> Split(domain, "/")[2] == hostPart
  {
    protocol, hostPart, path, rest := CutAtSchemes(domain);
    HostField(domain, protocol, hostPart, path, rest);
  }

  /** The cut at the first and second '//', and at the first '/' between them. */
  lemma CutAtSchemes(domain: string) returns (protocol: string, hostPart: string, path: string, rest: string)
    requires |Split(domain, "//")| >= 2 && |SplitOnce(Split(domain, "//")[1], "/")| == 2
    ensures protocol == Split(domain, "//")[0] && path == SplitOnce(Split(domain, "//")[1], "/")[1]
    ensures NoSlash(hostPart) && AfterScheme(domain, protocol, hostPart, path)
    ensures domain == protocol + "//" + (hostPart + "/" + path) + rest
  {
    var halves := Split(domain, "//");
    SplitHead(domain, "//");
    var p, e := SplitSecond(domain, "//");
    var parts := SplitOnce(halves[1], "/");
    protocol, hostPart, path := halves[0], parts[0], parts[1];
    rest := domain[e..];
    NoCharNotContained(parts[0], '/');
    Assemble(domain, protocol, halves[1], hostPart, path, e);
  }

  /** The '//'-pieces and the '/'-halves of the second one put back together. */
  lemma Assemble(domain: string, protocol: string, seg: string, hostPart: string, path: string, e: nat)
    requires OccursAt(domain, "//", |protocol|) && domain[..|protocol|] == protocol
    requires e == |protocol| + 2 + |seg| && e <= |domain| && domain[|protocol| + 2..e] == seg
    requires forall j :: |protocol| + 2 <= j < e ==> !OccursAt(domain, "//", j)
    requires e == |domain| || OccursAt(domain, "//", e)
    requires seg == hostPart + "/" + path
    ensures AfterScheme(domain, protocol, hostPart, path)
    ensures domain == protocol + "//" + (hostPart + "/" + path) + domain[e..]
  {
    var p := |protocol| + 2;
    assert domain[|protocol|..p] == "//";
    Reassemble(domain, |protocol|, p, e);
  }

  /** Where each field of a successful `Location` comes from. */
  lemma LocationSources(domain: string)
    requires NewLocation(domain).Ok?
    ensures var l := NewLocation(domain).value;
      var halves := Split(domain, "//");
      && |halves| >= 2 && |SplitOnce(halves[1], "/")| == 2
      && l.protocol == halves[0] && l.pathname == SplitOnce(halves[1], "/")[1]
      && (|Split(domain, "/")| > 3 ==> l.host == Split(domain, "/")[2] && l.origin == "https://" + l.host)
  {
  }

  /**
    In protocol + '//' + host + '/' + path + rest with a '/'-free host, the
    third '/'-field exists and holds no '/', and it is the host when the
    protocol holds no '/' either.
  */
  lemma HostField(domain: string, protocol: string, host: string, path: string, rest: string)
    requires domain == protocol + "//" + (host + "/" + path) + rest
    requires NoSlash(host)
    ensures var fields := Split(domain, "/");
      && |fields| > 3 && NoSlash(fields[2])
      && (NoSlash(protocol) ==> fields[2] == host)
  {
    ThreeSlashes(protocol, host, path, rest);
    SplitCount(domain, "/");
    SplitPartsFree(domain, "/");
    NoCharNotContained(Split(domain, "/")[2], '/');
    if NoSlash(protocol) {
      Regroup(protocol, host, path, rest);
      SplitFields(protocol, host, path + rest);
    }
  }

  lemma Regroup(protocol: string, host: string, path: string, rest: string)
    ensures protocol + "//" + (host + "/" + path) + rest == protocol + "//" + host + "/" + (path + rest)
  {
  }

  /** A URL of the form a + '//' + b + '/' + c + d has at least three '/'. */
  lemma ThreeSlashes(a: string, b: string, c: string, d: string)
    ensures Count(a + "//" + (b + "/" + c) + d, '/') >= 3
  {
    CountConcat(a + "//" + (b + "/" + c), d, '/');
    CountConcat(a + "//", b + "/" + c, '/');
    CountConcat(a, "//", '/');
    CountConcat(b + "/", c, '/');
    CountConcat(b, "/", '/');
  }

  /**
    A URL assembled as protocol + "//" + host + "/" + path, where neither
    the protocol nor the host holds a '/' and the path does not start a
    second "//", gives those three pieces back, and `origin` is
    "https://" + host whatever the protocol was.  The port is whatever
    `Port` cuts out, empty unless the URL has exactly two ':'; when `Port`
    raises, so does the constructor.
  */
  lemma LocationComponents(protocol: string, host: string, path: string)
    requires NoSlash(protocol) && NoSlash(host)
    requires !Contains("/" + path, "//")
    ensures var domain := protocol + "//" + host + "/" + path;
      var r := NewLocation(domain);
      && (r.Ok? <==> Port(domain).Ok?)
      && (r.Ok? ==>
        && r.value.protocol == protocol
        && r.value.host == host && r.value.hostName == host
        && r.value.origin == "https://" + host
        && r.value.pathname == path
        && r.value.port == Port(domain).value)
      && (Count(domain, ':') != 2 ==> r.Ok? && r.value.port == "")
  {
    var domain := protocol + "//" + host + "/" + path;
    SplitFields(protocol, host, path);
    SplitHalves(protocol, host, path);
  }

  /**
    A URL with an explicit port, scheme + ':' + '//' + name + ':' + port +
    '/' + path, where only the scheme's and the host's ':' occur: protocol,
    host "name:port", pathname and port all come back.
  */
  lemma LocationWithPort(scheme: string, name: string, port: string, path: string)
    requires NoSlash(scheme) && NoSlash(name) && NoSlash(port)
    requires ':' !in scheme && ':' !in name && ':' !in port && ':' !in path
    requires !Contains("/" + path, "//")
    ensures var r := NewLocation((scheme + ":") + "//" + (name + ":" + port) + "/" + path);
      && r.Ok?
      && r.value.protocol == scheme + ":"
      && r.value.host == name + ":" + port
      && r.value.origin == "https://" + (name + ":" + port)
      && r.value.pathname == path
      && r.value.port == port
  {
    assert NoSlash(scheme + ":") && NoSlash(name + ":" + port);
    LocationPort(scheme, name, port, path);
    LocationComponents(scheme + ":", name + ":" + port, path);
  }

  /** The '/'-fields of such a URL: protocol, the empty field between the slashes, host, then the path's. */
  lemma SplitFields(protocol: string, host: string, path: string)
    requires NoSlash(protocol) && NoSlash(host)
    ensures var fields := Split(protocol + "//" + host + "/" + path, "/");
      |fields| > 3 && fields[2] == host
  {
    var domain := protocol + "//" + host + "/" + path;
    assert domain == protocol + "/" + ("/" + host + "/" + path);
    SplitAfterFree(protocol, "/", "/" + host + "/" + path);
    assert "/" + host + "/" + path == "" + "/" + (host + "/" + path);
    SplitAfterFree("", "/", host + "/" + path);
    SplitAfterFree(host, "/", path);
  }

  /** The '//'-halves of such a URL, and the '/'-split of the second one. */
  lemma SplitHalves(protocol: string, host: string, path: string)
    requires NoSlash(protocol) && NoSlash(host)
    requires !Contains("/" + path, "//")
    ensures var halves := Split(protocol + "//" + host + "/" + path, "//");
      && |halves| == 2 && halves[0] == protocol && halves[1] == host + "/" + path
      && SplitOnce(halves[1], "/") == [host, path]
  {
    var domain := protocol + "//" + host + "/" + path;
    var rest := host + "/" + path;
    assert domain == protocol + "//" + rest;
    SplitAfterFree(protocol, "//", rest);
    RestHasNoDoubleSlash(host, path);
    SplitAfterFree(host, "/", path);
  }

  lemma RestHasNoDoubleSlash(host: string, path: string)
    requires NoSlash(host)
    requires !Contains("/" + path, "//")
    ensures Split(host + "/" + path, "//") == [host + "/" + path]
  {
    var rest := host + "/" + path;
    forall j | 0 <= j
      ensures !OccursAt(rest, "//", j)
    {
      if j < |host| {
        assert rest[j] == host[j];
        if j + 2 <= |rest| {
          assert rest[j..j + 2][0] == rest[j];
        }
      } else if j + 2 <= |rest| {
        assert rest[j..j + 2] == ("/" + path)[j - |host|..j - |host| + 2];
        assert !OccursAt("/" + path, "//", j - |host|);
      }
    }
  }

  /**
    Without a '/' after the host there is no path, and `split('/', 1)[1]`
    raises IndexError: the plain "https://www.example.com" is rejected.
  */
  lemma NoPathRaises(protocol: string, host: string)
    requires NoSlash(protocol) && NoSlash(host)
    ensures NewLocation(protocol + "//" + host) == Raise(IndexError)
  {
    var domain := protocol + "//" + host;
    SplitAfterFree(protocol, "//", host);
    SplitWithout(host, "//");
    SplitWithout(host, "/");
  }

  lemma ExampleComRaises()
    ensures NewLocation("https://www.example.com") == Raise(IndexError)
  {
    assert "https://www.example.com" == "https:" + "//" + "www.example.com";
    NoPathRaises("https:", "www.example.com");
  }

  /** Without "//" the URL is rejected outright. */
  lemma NoSchemeRaises(domain: string)
    requires !Contains(domain, "//")
    ensures NewLocation(domain) == Raise(IndexError)
  {
    SplitHead(domain, "//");
  }

  /**
    With a one-colon protocol and a host "name:port", the two ':' make
    `port` the text between the host's ':' and the next '/'.
  */
  lemma LocationPort(scheme: string, name: string, port: string, path: string)
    requires NoSlash(scheme) && NoSlash(name) && NoSlash(port)
    requires ':' !in scheme && ':' !in name && ':' !in port && ':' !in path
    ensures Port((scheme + ":") + "//" + (name + ":" + port) + "/" + path) == Ok(port)
  {
    var protocol := scheme + ":";
    var colonTail := port + "/" + path;
    var tail := ("/" + name) + ":" + colonTail;
    var domain := protocol + "/" + tail;
    assert (scheme + ":") + "//" + (name + ":" + port) + "/" + path == domain;
    assert domain == scheme + ":" + ("//" + name) + ":" + colonTail;
    CountTwo(scheme, "//" + name, colonTail, ':');
    assert NoSlash(protocol);
    SplitAfterFree(protocol, "/", tail);
    SplitAfterFree("/" + name, ":", colonTail);
    SplitWithout(colonTail, ":");
    SplitAfterFree(port, "/", path);
  }

  lemma CountTwo(x: string, y: string, z: string, c: char)
    requires c !in x && c !in y && c !in z
    ensures Count(x + [c] + y + [c] + z, c) == 2
  {
    CountConcat(x + [c] + y + [c], z, c);
    CountConcat(x + [c] + y, [c], c);
    CountConcat(x + [c], y, c);
    CountConcat(x, [c], c);
    CountNone(x, c);
    CountNone(y, c);
    CountNone(z, c);
  }

  lemma CountNone(s: string, c: char)
    requires c !in s
    ensures Count(s, c) == 0
  {
  }
}

=== FILE: window_parse_int.dfy ===
/**
  `Window.parse_int` of window.py: a digit-prefix parser.  Unlike
  section 19.2.5 of ECMA-262 it accepts no sign and, with radix 16 chosen
  for a `0x` prefix, does not skip that prefix; its result is a Python
  integer of any size.
*/
module WindowParseInt {
  import opened Wrappers
  import opened Values
  import opened PyText
  import JsProperties

  /** The radixes the regex construction handles: absent, 0, or 2..36. */
  predicate SupportedRadix(radix: Option<int>) {
    radix.None? || radix.value == 0 || 2 <= radix.value <= 36
  }

  predicate HexPrefixed(s: string) {
    |s| >= 2 && s[0] == '0' && (s[1] == 'x' || s[1] == 'X')
  }

  /** The radix after defaulting: 0 or absent become 16 behind `0x`/`0X` and 10 otherwise. */
  function EffectiveRadix(s: string, radix: Option<int>): int {
    if radix.None? || radix.value == 0 then (if HexPrefixed(s) then 16 else 10)
    else radix.value
  }

  /**
    The character class `parse_int` builds: `[0-{r-1}]` for r <= 10, and
    `[0-9a-{chr(86+r)}A-{chr(54+r)}]` above.
  */
  predicate InDigitClass(c: char, r: int) {
    if r <= 10 then '0' <= c && c as int <= '0' as int + r - 1
    else || ('0' <= c <= '9')
         || ('a' <= c && c as int <= 86 + r)
         || ('A' <= c && c as int <= 54 + r)
  }

  /** For the supported radixes the class holds exactly the digits whose value is below r. */
  lemma DigitClassIsDigitValue(c: char, r: int)
    requires 2 <= r <= 36
    ensures InDigitClass(c, r) <==> DigitValue(c) < r
  {
  }

  /** The length of the match of `re.match(class + '+', s)`, or 0 when it fails. */
  function DigitRun(s: string, r: int): (n: nat)
    ensures n <= |s|
    ensures forall i :: 0 <= i < n ==> InDigitClass(s[i], r)
    ensures n < |s| ==> !InDigitClass(s[n], r)
  {
    if |s| == 0 || !InDigitClass(s[0], r) then 0 else 1 + DigitRun(s[1..], r)
  }

  lemma DigitRunDigits(t: string, b: int)
    requires 2 <= b <= 36
    ensures forall i :: 0 <= i < DigitRun(t, b) ==> DigitValue(t[i]) < b
    ensures DigitRun(t, b) == 0 <==> !StartsWithDigit(t, b)
  {
    forall i | 0 <= i < DigitRun(t, b)
      ensures DigitValue(t[i]) < b
    {
      DigitClassIsDigitValue(t[i], b);
    }
    if |t| > 0 {
      DigitClassIsDigitValue(t[0], b);
    }
  }

  predicate StartsWithDigit(t: string, r: int) {
    |t| > 0 && DigitValue(t[0]) < r
  }

  /** `int(digits, r)` on the matched run. */
  function DigitValues(d: string, r: int): nat
    requires 2 <= r <= 36
    requires forall i :: 0 <= i < |d| ==> DigitValue(d[i]) < r
  {
    DigitsValue(d, r)
  }

  /**
    `parse_int(s, radix)`: strip leading whitespace, settle the radix, take
    the longest run of digits at the front and read it with `int(.., r)`;
    NaN when there is none.
  */
  function ParseInt(s: string, radix: Option<int>): (r: JsNumber)
    requires SupportedRadix(radix)
    ensures r.NaN? <==> !StartsWithDigit(LStrip(s), EffectiveRadix(LStrip(s), radix))
  {
    var t := LStrip(s);
    var b := EffectiveRadix(t, radix);
    var n := DigitRun(t, b);
    DigitRunDigits(t, b);
    if n == 0 then NaN else Num(DigitValues(t[..n], b))
  }

  /**
    Read the other way round: a run of digits `d` followed by anything that
    does not continue it parses to the value of `d`, after any leading
    whitespace.
  */
  lemma {:induction false} ParseIntPrefix(w: string, d: string, rest: string, radix: int)
    requires 2 <= radix <= 36
    requires forall i :: 0 <= i < |w| ==> IsSpace(w[i])
    requires |d| > 0 && forall i :: 0 <= i < |d| ==> DigitValue(d[i]) < radix
    requires |rest| > 0 ==> DigitValue(rest[0]) >= radix
    ensures ParseInt(w + d + rest, Some(radix)) == Num(DigitsValue(d, radix))
  {
    var s := w + d + rest;
    var t := d + rest;
    assert s == w + t;
    StripSpaces(w, t);
    DigitRunOf(d, rest, radix);
    ParseIntRun(s, radix);
    assert t[..|d|] == d;
  }

  /** With an explicit radix, a non-empty run of digits after the whitespace is what `parse_int` reads. */
  lemma ParseIntRun(s: string, b: int)
    requires 2 <= b <= 36
    requires DigitRun(LStrip(s), b) > 0
    ensures var t := LStrip(s);
      && (forall i :: 0 <= i < DigitRun(t, b) ==> DigitValue(t[..DigitRun(t, b)][i]) < b)
      && ParseInt(s, Some(b)) == Num(DigitsValue(t[..DigitRun(t, b)], b))
  {
    DigitRunDigits(LStrip(s), b);
  }

  lemma {:induction false} StripSpaces(w: string, t: string)
    requires forall i :: 0 <= i < |w| ==> IsSpace(w[i])
    requires |t| > 0 && !IsSpace(t[0])
    ensures LStrip(w + t) == t
  {
    if |w| > 0 {
      assert (w + t)[1..] == w[1..] + t;
      StripSpaces(w[1..], t);
    } else {
      assert w + t == t;
    }
  }

  lemma {:induction false} DigitRunOf(d: string, rest: string, r: int)
    requires 2 <= r <= 36
    requires forall i :: 0 <= i < |d| ==> DigitValue(d[i]) < r
    requires |rest| > 0 ==> DigitValue(rest[0]) >= r
    ensures DigitRun(d + rest, r) == |d|
  {
    if |d| == 0 {
      assert d + rest == rest;
      if |rest| > 0 { DigitClassIsDigitValue(rest[0], r); }
    } else {
      DigitClassIsDigitValue(d[0], r);
      assert (d + rest)[1..] == d[1..] + rest;
      DigitRunOf(d[1..], rest, r);
    }
  }

  /** `parse_int` undoes `_to_string36`: base-36 digits read back in base 36 give n. */
  lemma ParseIntBase36(n: nat)
    ensures ParseInt(if n == 0 then "0" else JsProperties.Digits36(n), Some(36)) == Num(n)
  {
    if n == 0 {
      assert DigitsValue("0", 36) == 0 by {
        assert "0"[..0] == "";
      }
      assert "0" == "" + "0" + "";
      ParseIntPrefix("", "0", "", 36);
    } else {
      var s := JsProperties.Digits36(n);
      JsProperties.Digits36Facts(n);
      assert s == "" + s + "";
      ParseIntPrefix("", s, "", 36);
    }
  }

  /**
    There is no sign handling: a leading '-' or '+' gives NaN whatever
    follows, so "-5" is NaN where section 19.2.5 of ECMA-262 gives -5.
  */
  lemma ParseIntNoSign(rest: string, radix: Option<int>)
    requires SupportedRadix(radix)
    ensures ParseInt("-" + rest, radix) == NaN
    ensures ParseInt("+" + rest, radix) == NaN
  {
    StripSpaces("", "-" + rest);
    assert "" + ("-" + rest) == "-" + rest;
    StripSpaces("", "+" + rest);
    assert "" + ("+" + rest) == "+" + rest;
  }

  /**
    A `0x` prefix selects radix 16 but is not skipped: "0x1A", like any
    string that starts with `0x` or `0X`, reads as the single digit "0".
  */
  lemma ParseIntHexPrefix(rest: string)
    requires |rest| > 0 && (rest[0] == 'x' || rest[0] == 'X')
    ensures ParseInt("0" + rest, None) == Num(0)
    ensures ParseInt("0" + rest, Some(16)) == Num(0)
  {
    var s := "0" + rest;
    ParseIntZeroBeforeX(rest, 16);
    StripSpaces("", s);
    assert "" + s == s;
    assert HexPrefixed(s);
    SameEffectiveRadix(s, None, Some(16));
  }

  /** In any radix up to 33, where 'x' is no digit, "0x..." reads as the digit "0". */
  lemma ParseIntZeroBeforeX(rest: string, radix: int)
    requires 2 <= radix <= 33
    requires |rest| > 0 && (rest[0] == 'x' || rest[0] == 'X')
    ensures ParseInt("0" + rest, Some(radix)) == Num(0)
  {
    assert "0" + rest == "" + "0" + rest;
    ParseIntPrefix("", "0", rest, radix);
    assert DigitsValue("0", radix) == 0 by {
      assert "0"[..0] == "";
    }
  }

  /** `parse_int`'s default radix is 10, not absent: "0x1A" without a radix is 0 as well. */
  lemma ParseIntDefaultRadixHex(rest: string)
    requires |rest| > 0 && (rest[0] == 'x' || rest[0] == 'X')
    ensures ParseInt("0" + rest, Some(10)) == Num(0)
  {
    ParseIntZeroBeforeX(rest, 10);
  }

  /** Only the settled radix matters. */
  lemma SameEffectiveRadix(s: string, r1: Option<int>, r2: Option<int>)
    requires SupportedRadix(r1) && SupportedRadix(r2)
    requires EffectiveRadix(LStrip(s), r1) == EffectiveRadix(LStrip(s), r2)
    ensures ParseInt(s, r1) == ParseInt(s, r2)
  {
  }
}

=== FILE: wrappers.dfy ===
/** Failure-carrying datatypes shared by every module of the model. */
module Wrappers {

  /** Python's `None`-or-value, as used for missing keys and failed searches. */
  datatype Option<+T> = None | Some(value: T)

  /** The Python exception classes the modelled code can raise. */
  datatype PyError =
    | TypeError
    | IndexError
    | ValueError
    | ZeroDivisionError
    /** The result is a float, which this model does not represent. */
    | NotAnInteger

  /** A computation that either returns a value or raises a Python exception. */
  datatype Result<+T> = Ok(value: T) | Raise(error: PyError) {
    predicate IsFailure() {
      Raise?
    }

    function PropagateFailure<U>(): Result<U>
      requires Raise?
    {
      Raise(error)
    }

    function Extract(): T
      requires Ok?
    {
      value
    }
  }
}
